=== FILE: README.md ===
# DemoTricentis page objects in Dafny

This project models the decision logic of the Playwright page objects and
helpers that drive the Tricentis demo web shop
(`https://demowebshop.tricentis.com`). It does not model the browser. Every
read from the page is a parameter: text of an element, whether something
is visible, how many options a drop-down has. Every action on the page is
a value in a returned sequence. What is left is pure logic, and the model
states it and proves it:

- **Base page** (`base_page.dfy`):
  - `navigate` resolves URLs against the shop's base URL;
  - `getText` turns a failed read into null;
  - `parsePrice` strips every character except digits, `.` and `-`, then applies `parseFloat`.
- **Cart page** (`cart_page.dfy`):
  - `getCartItems` reads cart rows into items;
  - the order-summary readers take the first `[\d.]+` run of a cell;
  - `getDiscountAmount` goes through `parsePrice`;
  - `verifyPriceCalculations` builds the price report.
- **Helpers** (`helpers.dfy`):
  - `replaceEnvVariables` fills `${NAME}` placeholders from the environment, recursively through arrays and objects;
  - `comparePrices` compares within a tolerance;
  - `calculateExpectedTotal` sums the line amounts.
- **Checkout page** (`checkout_page.dfy`):
  - the shipping and payment method tables, looked up after lower-casing, with their fallbacks;
  - the address-form filling rules;
  - the validation and step order of `completeCheckout`.
- **Home page** (`home_page.dfy`):
  - the cart badge count;
  - the category menu lookup.

Several JavaScript built-ins these pages rely on are modelled the way the
language defines them:

- `js_number.dfy`: `parseFloat`, `parseInt`, and numbers that may be NaN;
- `js_text.dfy`: `trim`, `toLowerCase`, `indexOf`, and `String.prototype.replace` with a string pattern, including its `$$`, `$&`, `` $` `` and `$'` replacement patterns;
- `js_object.dfy`: property lookup on an object literal, which also finds members inherited from `Object.prototype`.

Money is `real`, and a JavaScript number is `Num`: either `Finite(real)` or `NaN`.

Two discrepancies inside the repository are stated as lemmas rather than
findings, because neither side is clearly wrong:

- **The two tolerances.** The report's comparisons are strict (`< 0.01`) while `comparePrices` is inclusive (`<= 0.01`), so they disagree at exactly one cent (`CartPage.StrictlyCloseVersusComparePrices`).
- **The two ways of reading an amount.** `parsePrice` keeps every `-`. So a discount shown as "-$10.00" is -10, and "Sub-Total: 3310.00" reads as -3310. The `[\d.]+` readers drop the sign and read the same subtotal as 3310. The comment at `PlayWright/Pages/CartPage.js:116` names the "Sub-Total: 3310.00" format for the `[\d.]+` reader, and that reader does give 3310; `parsePrice` on the same text gives -3310. The model follows the code (`BasePage.ParsePriceKeepsLabelHyphen`, `CartPage.ExtractAmountIgnoresCaptionHyphen`).

## Model

| member | source | states |
|---|---|---|
| BasePage.NavigateUrl | PlayWright/Pages/BasePage.js:7-14 | a path starting with "http" is opened as given; any other path is appended to the base URL, so the URL ends with the path |
| BasePage.NavigateDefault | PlayWright/Pages/BasePage.js:7-13 | the default path "/" opens "https://demowebshop.tricentis.com/" |
| BasePage.NavigateUrlIdempotent | PlayWright/Pages/BasePage.js:10-14 | resolving an already resolved URL changes nothing |
| BasePage.GetText | PlayWright/Pages/BasePage.js:32-38 | a read that throws yields null; a successful read yields the element's text |
| BasePage.KeepNumeric | PlayWright/Pages/BasePage.js:54 | the filtered text has only digits, '.' and '-', is no longer than the input, and every character it has comes from the input |
| BasePage.KeepNumericAppend | PlayWright/Pages/BasePage.js:54 | the global replace works character by character: it distributes over concatenation |
| BasePage.KeepNumericOfNumeric | PlayWright/Pages/BasePage.js:54 | text over digits, '.' and '-' passes the filter unchanged |
| BasePage.KeepNumericIdempotent | PlayWright/Pages/BasePage.js:54 | filtering twice is filtering once |
| BasePage.KeepNumericCounts | PlayWright/Pages/BasePage.js:54 | each digit, '.' and '-' is kept as often as it occurs, and every other character is dropped |
| BasePage.ParsePrice | PlayWright/Pages/BasePage.js:52-55 | null or empty text gives 0; non-empty text without a digit gives NaN; a negative price needs a '-' somewhere in the text |
| BasePage.ParsePriceReadsLongestLiteral | PlayWright/Pages/BasePage.js:52-55 | null or empty text gives 0; otherwise the result is NaN exactly when the filtered text has no number prefix, and else the value of its longest number prefix |
| BasePage.ParsePriceWithoutDigits | PlayWright/Pages/BasePage.js:52-55 | non-empty text without a digit gives NaN, not 0 |
| BasePage.ParsePriceOfLabelledAmount | PlayWright/Pages/BasePage.js:52-55 | an amount after a caption without digits, '.' or '-' reads as its decimal value |
| BasePage.ParsePriceOfHyphenatedLabel | PlayWright/Pages/BasePage.js:52-55 | a '-' in the caption survives the filter and negates the amount |
| BasePage.ParsePriceOfGroupedAmount | PlayWright/Pages/BasePage.js:52-55 | thousands separators are dropped, so a grouped amount reads whole |
| BasePage.ParsePriceDropsCurrencyAndCommas | PlayWright/Pages/BasePage.js:52-55 | "$1,234.56" reads as 1234.56 |
| BasePage.ParsePriceStopsAtSecondDot | PlayWright/Pages/BasePage.js:52-55 | "1.2.3" reads as 1.2 |
| BasePage.ParsePriceKeepsLabelHyphen | PlayWright/Pages/BasePage.js:52-55 | "Sub-Total: 3310.00" reads as -3310 |
| BasePage.ParsePriceNaNExamples | PlayWright/Pages/BasePage.js:52-55 | "abc", "." and "-" read as NaN |
| JsNumber.ParseFloat | PlayWright/Pages/BasePage.js:54 | the result is a number only when the text has a digit; it is negative only behind a leading '-', and never positive behind one |
| JsNumber.ParseFloatReadsLongestLiteral | PlayWright/Pages/BasePage.js:54 | parseFloat is NaN exactly when no prefix is a number literal, and otherwise the value of the longest such prefix |
| JsNumber.ParseFloatOfDigits | PlayWright/Pages/CartPage.js:118 | a run of digits reads as its value |
| JsNumber.NatToDigitsRoundTrip | PlayWright/Pages/HomePage.js:74 | a rendered natural number reads back as itself |
| JsNumber.ParseInt | PlayWright/Pages/CartPage.js:69 | the result is a number only when the text has a digit, and then it is a whole number |
| JsNumber.ParseIntOfRendered | PlayWright/Pages/CartPage.js:69 | parseInt skips leading whitespace and reads a rendered natural number up to the first non-digit |
| JsNumber.ParseIntOfDigits | PlayWright/Pages/HomePage.js:74 | parseInt of a non-empty digit string is its value |
| JsNumber.ParseIntWithoutDigits | PlayWright/Pages/CartPage.js:69 | text whose first non-space, non-sign character is not a digit reads as NaN |
| JsText.Trim | PlayWright/Pages/CartPage.js:67 | the trimmed text is no longer than the input, has no whitespace at either end, and is empty exactly when the input is all whitespace |
| JsText.TrimIsWhitespaceFreeSlice | PlayWright/Pages/CartPage.js:67 | trim returns a contiguous slice whose surroundings are all whitespace and whose ends are not |
| JsText.TrimOfPadded | PlayWright/Pages/CartPage.js:67 | trimming undoes whitespace padding on both sides |
| JsText.TrimIdempotent | PlayWright/Pages/CartPage.js:67 | trimming twice is trimming once |
| JsText.ToLower | PlayWright/Pages/CheckoutPage.js:217 | each ASCII capital is lowered and nothing else changes, so the result has no capital and the input spells it with each letter in either case |
| JsText.ToLowerMatchesKey | PlayWright/Pages/CheckoutPage.js:217 | a name lower-cases to a lower-case key exactly when it spells the key with each letter in either case |
| JsText.IndexOf | PlayWright/Utils/helpers.js:31 | the result is the first position where the pattern occurs, and there is none when it is absent |
| JsText.ReplaceFirst | PlayWright/Utils/helpers.js:31 | without an occurrence the text is unchanged; otherwise the text before and after the first occurrence is kept, and a replacement without '$' goes in literally |
| JsText.ReplaceFirstBehindDollarFreePrefix | PlayWright/Utils/helpers.js:31 | replace with a string pattern rewrites only the first occurrence, expanding the replacement as a template |
| JsText.SubstitutionOfPlainText | PlayWright/Utils/helpers.js:31 | a replacement without '$' is inserted literally |
| JsObject.Get | PlayWright/Pages/HomePage.js:93 | a lookup finds an own property, else an inherited Object.prototype member, else undefined |
| JsObject.InheritedAfterLowerCase | PlayWright/Pages/CheckoutPage.js:217 | after lower-casing, only "constructor" and "__proto__" reach an inherited member |
| CartPage.GetCartItems | PlayWright/Pages/CartPage.js:50-76 | there is one item per row that has all four elements, and the j-th item is read from the j-th such row |
| CartPage.GetCartItemsAppend | PlayWright/Pages/CartPage.js:54-73 | rows are read independently and in page order |
| CartPage.IncompleteRowIsSkipped | PlayWright/Pages/CartPage.js:60 | a row missing any of its name, price, quantity or subtotal element contributes nothing, and the rows around it are read as usual |
| CartPage.ReadItem | PlayWright/Pages/CartPage.js:61-71 | the name has no whitespace at either end; a quantity that is a number is whole and comes from a value with a digit; a negative unit price needs a '-' in the price text |
| CartPage.ReadItemOfRenderedRow | PlayWright/Pages/CartPage.js:61-71 | the name is trimmed, the quantity read by parseInt, and both prices read by parsePrice |
| CartPage.FirstAmountMatch | PlayWright/Pages/CartPage.js:117 | the match is the leftmost maximal run of digits and '.', and there is none exactly when the text has neither |
| CartPage.FirstAmountMatchUnique | PlayWright/Pages/CartPage.js:117 | the first match is unique |
| CartPage.ExtractAmount | PlayWright/Pages/CartPage.js:111-164 | missing or empty text reads as 0, and an amount read is never negative, because the pattern has no '-' |
| CartPage.ExtractAmountReadsFirstRun | PlayWright/Pages/CartPage.js:111-164 | missing or empty text and text without a digit or '.' read as 0; otherwise the reader parses the first run |
| CartPage.ExtractAmountOfCaptioned | PlayWright/Pages/CartPage.js:111-164 | an amount after a caption reads as its unsigned decimal value |
| CartPage.ExtractAmountIgnoresCaptionHyphen | PlayWright/Pages/CartPage.js:116-118 | "Sub-Total: 3310.00" reads as 3310 |
| CartPage.ExtractAmountStopsAtComma | PlayWright/Pages/CartPage.js:117-118 | a thousands separator ends the match, so only the leading digit group is read |
| CartPage.ExtractGroupedAmountAgrees | PlayWright/Pages/CartPage.js:117-118 | on text without commas the comma-aware reader agrees with the page's readers |
| CartPage.ExtractGroupedAmountReadsWholeAmount | PlayWright/Pages/CartPage.js:117-118 | with the separator dropped first, a grouped amount reads whole |
| CartPage.ReadSummary | PlayWright/Pages/CartPage.js:111-173 | a missing or empty cell reads 0; subtotal, shipping, tax and total are never negative, because `[\d.]+` has no '-'; a discount reads negative only when its cell shows a '-' |
| CartPage.SignedDiscountReadsNegative | PlayWright/Pages/CartPage.js:166-173 | a discount cell showing '-' and an amount reads as a negative number |
| CartPage.IntendedDiscountIgnoresSign | PlayWright/Pages/CartPage.js:166-173 | the intended discount is the amount whether or not the cell shows '-' |
| CartPage.ReadSummaryIntendedAgrees | PlayWright/Pages/CartPage.js:111-173 | on comma-free cells with an unsigned discount, the intended reading and the page's reading agree |
| CartPage.CheckItem | PlayWright/Pages/CartPage.js:205-215 | an item is correct exactly when price times quantity is strictly within one cent of the shown subtotal, never when either is NaN |
| CartPage.SumSubtotalsIsDisplayedSum | PlayWright/Pages/CartPage.js:201-218 | the running subtotal is NaN exactly when some line subtotal is, and otherwise the sum of the line subtotals |
| CartPage.VerifyPriceCalculations | PlayWright/Pages/CartPage.js:193-237 | one check per item, in order; the subtotal and total matches are strict one-cent comparisons; the report is correct exactly when both match and every item is correct |
| CartPage.EmptyCartIsCorrect | PlayWright/Pages/CartPage.js:193-237 | an empty cart with an all-zero summary has no item checks, a calculated subtotal of 0, and is reported correct |
| CartPage.TwoLineCartPasses | PlayWright/Pages/CartPage.js:193-237 | 10.00 × 2 and 5.50 × 1 under a 25.50 subtotal, 5.00 shipping and 2.55 tax, total 33.05, is reported correct |
| CartPage.OneCentOffIsIncorrect | PlayWright/Pages/CartPage.js:205-206 | a line 10.00 × 3 shown as 30.01 is incorrect, and shown as 30.005 is correct |
| CartPage.SubtotalSumsDisplayedLines | PlayWright/Pages/CartPage.js:204-220 | the subtotal check sums the displayed line subtotals, so a wrong line repeated in the summary still matches while the report fails |
| CartPage.ConsistentCartPasses | PlayWright/Pages/CartPage.js:193-237 | a cart whose figures are exactly consistent passes every check |
| CartPage.SubtotalMismatchFails | PlayWright/Pages/CartPage.js:220 | a subtotal at least a cent away from the sum of the lines fails the report |
| CartPage.NaNFails | PlayWright/Pages/CartPage.js:220-235 | a NaN subtotal or total, or a NaN line subtotal, fails the report |
| CartPage.ToleranceIsStrict | PlayWright/Pages/CartPage.js:206 | an item is correct exactly when the difference is below 0.01 |
| CartPage.StrictlyCloseVersusComparePrices | PlayWright/Pages/CartPage.js:206 | the report's strict comparison implies comparePrices, and the two differ only at a difference of exactly one cent |
| CartPage.SignedDiscountIsAdded | PlayWright/Pages/CartPage.js:221 | with a discount shown as "-amount", the expected total adds the amount |
| CartPage.IntendedDiscountIsSubtracted | PlayWright/Pages/CartPage.js:221 | read as intended, the same discount is subtracted |
| Helpers.Lookup | PlayWright/Utils/helpers.js:30 | a set variable gives its value and an unset one gives "" |
| Helpers.Placeholders | PlayWright/Utils/helpers.js:25 | every match found is a placeholder "${name}" with a non-empty name free of '}' |
| Helpers.PlaceholdersWithoutPlaceholder | PlayWright/Utils/helpers.js:25-26 | the scan is complete: text in which no slice is a placeholder yields no match |
| Helpers.PlaceholdersOfTemplate | PlayWright/Utils/helpers.js:25 | the matches in a template are its placeholders, in order |
| Helpers.ReplaceEnvString | PlayWright/Utils/helpers.js:24-36 | text in which no slice is a placeholder match (stray '$', an empty "${}", an unclosed "${") is returned unchanged, and so is text without '$' |
| Helpers.ReplaceEnvStringOfTemplate | PlayWright/Utils/helpers.js:24-36 | with '$'-free literal text and '$'-free values, every placeholder gives way to its variable's value, and the result equals the one-pass substitution |
| Helpers.ReplaceEnvStringWithoutPlaceholders | PlayWright/Utils/helpers.js:24-36 | in text without a placeholder the scan finds no match, and both the helper and the one-pass substitution return the text unchanged |
| Helpers.SinglePlaceholder | PlayWright/Utils/helpers.js:24-36 | a lone placeholder is replaced by its value read as a replace template |
| Helpers.ReplaceEnvVariables | PlayWright/Utils/helpers.js:23-51 | the result has the input's shape; strings are substituted, arrays and objects are rebuilt element by element, other values are returned as they are, and a "__proto__" key is not copied, because the assignment goes to the prototype setter |
| Helpers.ReplaceEnvVariablesOfPlainData | PlayWright/Utils/helpers.js:23-51 | data with no '$' and no "__proto__" key anywhere comes back unchanged, whatever the environment |
| Helpers.ProtoKeyIsNotCopied | PlayWright/Utils/helpers.js:42-48 | data with a "__proto__" key anywhere never comes back unchanged |
| Helpers.DollarPairInValueIsHalved | PlayWright/Utils/helpers.js:30-31 | a value "pa$$w0rd" comes out as "pa$w0rd" |
| Helpers.PlaceholderInValueIsReplacedAgain | PlayWright/Utils/helpers.js:28-32 | a value that is itself a placeholder is substituted again by a later step, and lands in the wrong place |
| Helpers.DollarBeforePlaceholderJoinsValue | PlayWright/Utils/helpers.js:28-32 | a '$' in the literal text just before a placeholder whose value is "{A}" forms a new "${A}", which a later step replaces: "$${B}${A}" gives "x${A}" where the one-pass substitution gives "${A}x" |
| Helpers.SubstituteTemplate | PlayWright/Utils/helpers.js:23-36 | the one-pass substitution puts each value in place of its placeholder, whatever the values contain |
| Helpers.ComparePrices | PlayWright/Utils/helpers.js:105-107 | prices match exactly when both are numbers and actual lies within the tolerance of expected, boundaries included |
| Helpers.ComparePricesSymmetric | PlayWright/Utils/helpers.js:105-107 | the comparison does not depend on which price is called actual |
| Helpers.ComparePricesAcceptsBoundary | PlayWright/Utils/helpers.js:105-107 | a difference of exactly the tolerance matches either way, and any larger difference, either way, does not |
| Helpers.CalculateExpectedTotal | PlayWright/Utils/helpers.js:83-87 | no items total 0, and with no negative price or quantity the total is not negative |
| Helpers.ExpectedTotalIsSumOfLines | PlayWright/Utils/helpers.js:83-87 | the left fold equals the sum of price times quantity over the items |
| Helpers.ExpectedTotalAppend | PlayWright/Utils/helpers.js:83-87 | the total of a split list is the sum of the parts' totals |
| Helpers.ExpectedTotalOfSwapped | PlayWright/Utils/helpers.js:83-87 | an empty list totals 0, and the total does not depend on the order of the items |
| CheckoutPage.LookupOr | PlayWright/Pages/CheckoutPage.js:216 | a lookup gives the fallback or one of the table's selectors, and a non-string exactly for an inherited name that is not a key |
| CheckoutPage.ShippingSelector | PlayWright/Pages/CheckoutPage.js:210-217 | the chosen selector is one of the table's selectors, ground shipping included |
| CheckoutPage.ShippingSelectorByName | PlayWright/Pages/CheckoutPage.js:210-217 | each method name selects its option in any letter case; "constructor" and "__proto__" select a non-string; every other name selects ground shipping, as does the default |
| CheckoutPage.PaymentSelector | PlayWright/Pages/CheckoutPage.js:238-246 | the chosen selector is one of the table's selectors, cash on delivery included |
| CheckoutPage.PaymentSelectorByName | PlayWright/Pages/CheckoutPage.js:238-246 | each method name selects its option in any letter case; the two inherited names select a non-string; every other name selects cash on delivery, as does the default |
| CheckoutPage.ClickedOption | PlayWright/Pages/CheckoutPage.js:219-225 | the chosen option is clicked when it becomes visible; otherwise, a non-string included, the group's first radio is clicked |
| CheckoutPage.SelectShippingMethod | PlayWright/Pages/CheckoutPage.js:210-226 | the click lands on a shipping option or on the first shipping radio |
| CheckoutPage.SelectPaymentMethod | PlayWright/Pages/CheckoutPage.js:238-255 | the click lands on a payment option or on the first payment radio |
| CheckoutPage.FillAddressForm | PlayWright/Pages/CheckoutPage.js:101-131 | between seven and eleven actions are taken, and the phone number is filled last |
| CheckoutPage.FormFields | PlayWright/Pages/CheckoutPage.js:101-131 | the drop-down is reset exactly when it has more than one option; the email is filled exactly when asked for and non-empty; the state is awaited and chosen exactly when non-empty; the other fields are always filled |
| CheckoutPage.FillBillingAddress | PlayWright/Pages/CheckoutPage.js:137-152 | the billing form fills the email exactly when the address has a non-empty one, chooses the state exactly when the address has one, and always fills the first name and phone and chooses the country |
| CheckoutPage.FillShippingAddress | PlayWright/Pages/CheckoutPage.js:179-193 | the shipping form never fills the undefined email selector, chooses the state exactly when the address has one, and always chooses the country |
| CheckoutPage.CompleteCheckout | PlayWright/Pages/CheckoutPage.js:347-416 | a missing billing address throws before any step; otherwise every step through the payment method is taken; the order is confirmed exactly when nothing was thrown, and confirming is then the last step |
| CheckoutPage.CheckoutFailsExactlyWhen | PlayWright/Pages/CheckoutPage.js:353-397 | the checkout throws exactly when billing is missing (before any step), or on credit card without details, or on purchase order without a non-empty number, each with its own message |
| CheckoutPage.ConfirmedExactlyWithoutError | PlayWright/Pages/CheckoutPage.js:347-416 | the order is confirmed exactly when nothing was thrown, and confirming is then the last step |
| CheckoutPage.OtherMethodsFillNoPaymentInfo | PlayWright/Pages/CheckoutPage.js:398-410 | cash on delivery, check and unknown methods fill no payment information |
| CheckoutPage.ShippingChosenOnlyWhenShown | PlayWright/Pages/CheckoutPage.js:375-380 | the shipping method is chosen exactly when the shipping-method step is showing |
| HomePage.FirstQuantityMatch | PlayWright/Pages/HomePage.js:73 | the result is the leftmost "(digits)" in the text, and there is none when the text has none |
| HomePage.CartQuantity | PlayWright/Pages/HomePage.js:71-75 | null text throws a TypeError; otherwise the count is a non-negative number |
| HomePage.GetCartQuantity | PlayWright/Pages/HomePage.js:71-75 | the count fails exactly when the badge could not be read |
| HomePage.UnreadableBadgeThrows | PlayWright/Pages/HomePage.js:71-73 | a badge read that failed gives null text, and `.match` on it throws instead of returning 0 |
| HomePage.CartQuantityReadsFirstGroup | PlayWright/Pages/HomePage.js:73-74 | the count is the value of the first parenthesised digit run |
| HomePage.CartQuantityWithoutGroup | PlayWright/Pages/HomePage.js:73-74 | text without a parenthesised digit run counts 0 |
| HomePage.CartQuantityOfBadge | PlayWright/Pages/HomePage.js:71-75 | a rendered badge "(n)" reads back as n |
| HomePage.GoToCategory | PlayWright/Pages/HomePage.js:82-100 | a successful lookup clicks one of the menu links |
| HomePage.GoToCategoryByName | PlayWright/Pages/HomePage.js:82-100 | a category is found exactly when its name matches a key in any letter case; an unknown name throws 'Category "<name>" not found' with the name as given; only "constructor" and "__proto__" reach a non-link |
| HomePage.ApparelOpensApparelShoes | PlayWright/Pages/HomePage.js:86-87 | the apparel category opens the "apparel-shoes" page |

## Left out

- Playwright itself is left out: page loads, waits, timeouts, `Promise.race` and console output. What a page shows is a parameter. What the page object does is a returned value.
- Strings are sequences of Unicode characters, not of UTF-16 code units. No modelled operation depends on the difference: the whitespace set, `[\d.]`, `\d`, `$`, `{` and `}` are all single code units, and `slice(2, -1)` cuts next to '}'.
- Numbers are exact: there is no floating-point rounding and no Infinity. A digit string too long for a double reads as its exact value.
- JsText.ToLower: only ASCII letters change case; other Unicode case mappings are not modelled. The one that matters for the lookups here is U+212A KELVIN SIGN, which JavaScript lowers to 'k': in the source "CHEC\u212A" selects the check payment option and "BOO\u212AS" opens Books, while the model falls back to cash on delivery and throws the not-found error.
- JsNumber.ParseFloat: modelled only on text over digits, '.' and '-'. That is all its callers pass, because both filter first. Its own contract states when the result is a number and its sign; the value is stated by JsNumber.ParseFloatReadsLongestLiteral.
- JsNumber.ParseInt: its own contract states when the result is a number and that it is whole; the value is stated by JsNumber.ParseIntOfRendered and JsNumber.ParseIntOfDigits.
- BasePage.ParsePrice: its own contract states the 0, the NaN and the sign; the value is stated by BasePage.ParsePriceReadsLongestLiteral.
- CartPage.ReadItem: its own contract states properties of each field; the fields' values are stated by CartPage.ReadItemOfRenderedRow.
- CartPage.ExtractAmount: its own contract states the 0 and the sign; the value is stated by CartPage.ExtractAmountReadsFirstRun.
- JsText.ReplaceFirst: its own contract leaves the expansion of '$' patterns open; that is stated by JsText.ReplaceFirstBehindDollarFreePrefix.
- Helpers.Lookup: treats every name as a plain variable. A name such as `constructor` would reach an inherited member of `process.env`, and that case is not modelled.
- Helpers.ReplaceEnvVariables: JSON numbers are `real`, and object key order is not kept. A "__proto__" key is dropped from the rebuilt object, but the prototype its value installs there is not modelled, so members the result would inherit from that value are not modelled either.
- Helpers.ReplaceEnvStringOfTemplate: covers templates whose literal text is free of '$'. A '$' in the literal text next to a placeholder can combine with the inserted value into a new placeholder, and then the two readings differ; that case is stated by Helpers.DollarBeforePlaceholderJoinsValue, not by a general rule.
- Helpers.ReplaceEnvString: its own contract states only that text without a placeholder is unchanged. The substitution itself is stated by Helpers.ReplaceEnvStringOfTemplate and Helpers.SinglePlaceholder.
- Helpers.CalculateExpectedTotal: prices and quantities are `real`, so the `NaN` of a missing field is not modelled.
- CheckoutPage.FillAddressForm: its own contract states only the number of actions and the last one. Which fields are touched, and when, is stated by CheckoutPage.FormFields.
- CheckoutPage.CompleteCheckout: the steps are recorded, not performed. A step that itself throws is not modelled; only the validation errors are. `fillCreditCardInfo` and `fillPurchaseOrderNumber` are recorded with their arguments.
- `continueBillingAddress` and `continueShippingAddress` are left out: they only wait for the next step, and visibility is a parameter.
- Other cart operations are left out, because they only drive the browser:
  - `updateItemQuantity` and `removeItem`;
  - `applyCoupon` and `applyGiftCard`;
  - `isCartEmpty` and `proceedToCheckout`.
- `roundToTwoDecimals`, `formatPrice`, `generateUniqueEmail`, `generateRandomString`, `wait` and `loadTestData` are left out. They are rounding, clock, randomness and file I/O.
- The login, register and product pages, the page index and the Playwright configuration are not part of this model.

## Findings

| source | as written | input that shows it | evidently intended | confidence | as-written member | corrected member |
|---|---|---|---|---|---|---|
| PlayWright/Pages/CartPage.js:166-173, 221 | the discount is read by `parsePrice`, which keeps the '-' the cell shows, and is then subtracted | discount cell "-10.00" | the discount lowers the expected total by 10 | medium, not executed | CartPage.SignedDiscountIsAdded | CartPage.IntendedDiscountIsSubtracted |
| PlayWright/Pages/CartPage.js:117-118 | `/[\d.]+/` stops at a thousands separator | subtotal cell "Sub-Total: 1,234.00" reads as 1 | 1234 | medium, not executed | CartPage.ExtractAmountStopsAtComma | CartPage.ExtractGroupedAmountReadsWholeAmount |
| PlayWright/Utils/helpers.js:31 | the value is passed to `replace` as a replacement template, so "$$" becomes "$" | PASSWORD="pa$$w0rd", text "${PASSWORD}" gives "pa$w0rd" | "pa$$w0rd" | medium, not executed | Helpers.DollarPairInValueIsHalved | Helpers.SubstituteTemplate |
| PlayWright/Utils/helpers.js:28-32 | each match is replaced in the text built so far, so a value that is itself a placeholder is replaced by a later step | A="${B}", B="w", text "${A}${B}" gives "w${B}" | "${B}w" | low, not executed | Helpers.PlaceholderInValueIsReplacedAgain | Helpers.SubstituteTemplate |

=== FILE: base_page.dfy ===
/**
 * The pure logic of the base page object: `parsePrice` (strip everything
 * but digits, '.' and '-', then `parseFloat`), the URL rule of
 * `navigate`, and `getText`, which turns a failed read into null.
 */
module BasePage {
  import opened Values
  import opened JsText
  import opened JsNumber

  /** The storefront every relative path is resolved against. */
  const BaseUrl: string := "https://demowebshop.tricentis.com"

  /** The path `navigate` uses when none is given. */
  const DefaultPath: string := "/"

  // ---------------------------------------------------------------------
  // navigate
  // ---------------------------------------------------------------------

  /** The URL `navigate(path)` opens: a path starting with "http" as is, any other appended to the base URL. */
  function NavigateUrl(path: string := DefaultPath): (url: string)
    ensures StartsWith(url, "http")
    ensures |path| <= |url| && url[|url| - |path|..] == path
    ensures url == path <==> StartsWith(path, "http")
    ensures !StartsWith(path, "http") ==> url[..|url| - |path|] == BaseUrl
  {
    if StartsWith(path, "http") then path else BaseUrl + path
  }

  /** Navigating to the URL a path resolves to resolves to that same URL. */
  lemma NavigateUrlIdempotent(path: string)
    ensures NavigateUrl(NavigateUrl(path)) == NavigateUrl(path)
  {
  }

  /** The default path opens the storefront's home page. */
  lemma NavigateDefault()
    ensures NavigateUrl() == "https://demowebshop.tricentis.com/"
  {
  }

  // ---------------------------------------------------------------------
  // getText
  // ---------------------------------------------------------------------

  /**
   * `getText(selector)`: the element's text content as the page reports it
   * (`Success`, possibly `None` for an element without text), or the
   * exception the read threw (`Failure`), which `getText` swallows into
   * null.
   */
  function GetText(read: Result<Option<string>, string>): (text: Option<string>)
    ensures text.Some? <==> read.Success? && read.value.Some?
    ensures read.Failure? ==> text.None?
    ensures text.Some? ==> text.value == read.value.value
  {
    match read
    case Success(t) => t
    case Failure(_) => None
  }

  // ---------------------------------------------------------------------
  // parsePrice
  // ---------------------------------------------------------------------

  /** `s.replace(/[^0-9.-]+/g, '')`: the digits, '.' and '-' of `s`, in order. */
  function KeepNumeric(s: string): (r: string)
    ensures OnlyNumericChars(r)
    ensures |r| <= |s|
    ensures forall i :: 0 <= i < |r| ==> r[i] in s
    decreases |s|
  {
    if |s| == 0 then []
    else (if IsNumericChar(s[0]) then [s[0]] else []) + KeepNumeric(s[1..])
  }

  /** The filter works character by character: it distributes over concatenation. */
  lemma {:induction false} KeepNumericAppend(a: string, b: string)
    ensures KeepNumeric(a + b) == KeepNumeric(a) + KeepNumeric(b)
    decreases |a|
  {
    if |a| == 0 {
      assert a + b == b;
    } else {
      var h: string := if IsNumericChar(a[0]) then [a[0]] else [];
      assert (a + b)[0] == a[0];
      assert (a + b)[1..] == a[1..] + b;
      KeepNumericAppend(a[1..], b);
      calc {
        KeepNumeric(a + b);
        h + KeepNumeric(a[1..] + b);
        h + (KeepNumeric(a[1..]) + KeepNumeric(b));
        (h + KeepNumeric(a[1..])) + KeepNumeric(b);
      }
    }
  }

  /** Text made only of digits, '.' and '-' passes the filter unchanged. */
  lemma {:induction false} KeepNumericOfNumeric(s: string)
    requires OnlyNumericChars(s)
    ensures KeepNumeric(s) == s
    decreases |s|
  {
    if |s| > 0 {
      KeepNumericOfNumeric(s[1..]);
      assert [s[0]] + s[1..] == s;
    }
  }

  /** Filtering twice is filtering once. */
  lemma KeepNumericIdempotent(s: string)
    ensures KeepNumeric(KeepNumeric(s)) == KeepNumeric(s)
  {
    KeepNumericOfNumeric(KeepNumeric(s));
  }

  /** The filter keeps every digit, '.' and '-' as often as it occurs, and nothing else. */
  lemma {:induction false} KeepNumericCounts(s: string)
    ensures forall c :: multiset(KeepNumeric(s))[c] == if IsNumericChar(c) then multiset(s)[c] else 0
    decreases |s|
  {
    if |s| > 0 {
      KeepNumericCounts(s[1..]);
      assert s == [s[0]] + s[1..];
      assert multiset(s) == multiset([s[0]]) + multiset(s[1..]);
    }
  }

  /**
   * `parsePrice(text)`: 0 for `null` or empty text, otherwise `parseFloat`
   * of the filtered text. Non-empty text without a digit is NaN, and a
   * negative price needs a '-' somewhere in the text.
   */
  function ParsePrice(text: Option<string>): (n: Num)
    ensures text.None? || text == Some("") ==> n == Finite(0.0)
    ensures text.Some? && text.value != "" && !HasDigit(text.value) ==> n.NaN?
    ensures n.Finite? && n.value < 0.0 ==> text.Some? && '-' in text.value
  {
    if text.None? || text.value == "" then Finite(0.0)
    else
      var t := KeepNumeric(text.value);
      assert HasDigit(t) ==> HasDigit(text.value) by {
        if HasDigit(t) {
          var i :| 0 <= i < |t| && IsDigit(t[i]);
          var j :| 0 <= j < |text.value| && text.value[j] == t[i];
        }
      }
      ParseFloat(t)
  }

  /**
   * `parsePrice` is 0 on missing or empty text; on other text it is NaN
   * exactly when no prefix of the filtered text is a decimal literal, and
   * otherwise the value of the longest such prefix.
   */
  lemma ParsePriceReadsLongestLiteral(text: Option<string>)
    ensures text.None? || text == Some("") ==> ParsePrice(text) == Finite(0.0)
    ensures text.Some? && text.value != "" ==>
              (ParsePrice(text).NaN? <==> !HasLiteralPrefix(KeepNumeric(text.value)))
    ensures text.Some? && text.value != "" && ParsePrice(text).Finite? ==>
              var t := KeepNumeric(text.value);
              exists n: nat :: IsLongestLiteralPrefix(t, n) && ParsePrice(text).value == LiteralValue(t[..n])
  {
    if text.Some? && text.value != "" {
      ParseFloatReadsLongestLiteral(KeepNumeric(text.value));
    }
  }

  /** Non-empty text with no digit at all reads as NaN, not 0. */
  lemma ParsePriceWithoutDigits(s: string)
    requires s != ""
    requires forall i :: 0 <= i < |s| ==> !IsDigit(s[i])
    ensures ParsePrice(Some(s)) == NaN
  {
    KeepNumericCounts(s);
    var t := KeepNumeric(s);
    forall i | 0 <= i < |t|
      ensures !IsDigit(t[i])
    {
      assert t[i] in multiset(t);
      assert t[i] in multiset(s);
    }
    ParseFloatWithoutDigits(t);
  }

  /** Text with no digit, '.' or '-' filters to nothing. */
  lemma {:induction false} KeepNumericOfLabel(s: string)
    requires forall i :: 0 <= i < |s| ==> !IsNumericChar(s[i])
    ensures KeepNumeric(s) == ""
    decreases |s|
  {
    if |s| > 0 {
      KeepNumericOfLabel(s[1..]);
    }
  }

  /** `parseFloat` reads whole digits, a '.', and fraction digits as their decimal value. */
  lemma ParseFloatOfDecimal(w: string, f: string)
    requires AllDigits(w) && AllDigits(f) && |w| > 0
    ensures OnlyNumericChars(w + ['.'] + f)
    ensures ParseUnsigned(w + ['.'] + f) == Finite(DecimalValue(w, f))
    ensures ParseFloat(w + ['.'] + f) == Finite(DecimalValue(w, f))
  {
    var num := w + ['.'] + f;
    assert num == w + (['.'] + (f + ""));
    ReadsDigitsDotDigits(w, f, "");
    assert num[0] == w[0];
  }

  /** A caption without digits, '.' or '-' in front of an amount is ignored. */
  lemma ParsePriceOfLabelledAmount(caption: string, w: string, f: string)
    requires forall i :: 0 <= i < |caption| ==> !IsNumericChar(caption[i])
    requires AllDigits(w) && AllDigits(f) && |w| > 0
    ensures ParsePrice(Some(caption + w + ['.'] + f)) == Finite(DecimalValue(w, f))
  {
    var num := w + ['.'] + f;
    var text := caption + w + ['.'] + f;
    assert text == caption + num;
    assert |text| > 0;
    calc {
      ParsePrice(Some(text));
      ParseFloat(KeepNumeric(text));
      { KeepNumericSkipsCaption(caption, num); KeepNumericOfNumeric(num); }
      ParseFloat(num);
      { ParseFloatOfDecimal(w, f); }
      Finite(DecimalValue(w, f));
    }
  }

  /** A caption without digits, '.' or '-' contributes nothing to the filtered text. */
  lemma KeepNumericSkipsCaption(caption: string, x: string)
    requires forall i :: 0 <= i < |caption| ==> !IsNumericChar(caption[i])
    ensures KeepNumeric(caption + x) == KeepNumeric(x)
  {
    KeepNumericAppend(caption, x);
    KeepNumericOfLabel(caption);
  }

  /** Numeric text in front is kept as is. */
  lemma KeepNumericKeepsNumeric(p: string, x: string)
    requires OnlyNumericChars(p)
    ensures KeepNumeric(p + x) == p + KeepNumeric(x)
  {
    KeepNumericAppend(p, x);
    KeepNumericOfNumeric(p);
  }

  /** A '-' anywhere in the caption before an amount turns the amount negative. */
  lemma ParsePriceOfHyphenatedLabel(pre: string, post: string, w: string, f: string)
    requires forall i :: 0 <= i < |pre| ==> !IsNumericChar(pre[i])
    requires forall i :: 0 <= i < |post| ==> !IsNumericChar(post[i])
    requires AllDigits(w) && AllDigits(f) && |w| > 0
    ensures ParsePrice(Some(pre + ['-'] + post + w + ['.'] + f)) == Finite(-DecimalValue(w, f))
  {
    var num := w + ['.'] + f;
    var text := pre + ['-'] + post + w + ['.'] + f;
    assert text == pre + (['-'] + (post + num));
    ParseFloatOfDecimal(w, f);
    calc {
      KeepNumeric(text);
      { KeepNumericSkipsCaption(pre, ['-'] + (post + num)); }
      KeepNumeric(['-'] + (post + num));
      { KeepNumericKeepsNumeric(['-'], post + num); }
      ['-'] + KeepNumeric(post + num);
      { KeepNumericSkipsCaption(post, num); }
      ['-'] + KeepNumeric(num);
      { KeepNumericOfNumeric(num); }
      ['-'] + num;
    }
    assert |text| > 0;
    calc {
      ParsePrice(Some(text));
      ParseFloat(['-'] + num);
      { NegatedDecimal(w, f); }
      Finite(-DecimalValue(w, f));
    }
  }

  /** `parseFloat` of '-' and a decimal is the negated decimal. */
  lemma NegatedDecimal(w: string, f: string)
    requires AllDigits(w) && AllDigits(f) && |w| > 0
    ensures OnlyNumericChars(['-'] + (w + ['.'] + f))
    ensures ParseFloat(['-'] + (w + ['.'] + f)) == Finite(-DecimalValue(w, f))
  {
    var num := w + ['.'] + f;
    ParseFloatOfDecimal(w, f);
    var t := ['-'] + num;
    assert t[1..] == num;
    assert OnlyNumericChars(t) by {
      assert forall i :: 1 <= i < |t| ==> t[i] == num[i - 1];
    }
    assert ParseFloat(t) == Negate(ParseUnsigned(num));
  }

  /** A thousands separator inside an amount is dropped along with the caption. */
  lemma ParsePriceOfGroupedAmount(caption: string, a: string, b: string, f: string)
    requires forall i :: 0 <= i < |caption| ==> !IsNumericChar(caption[i])
    requires AllDigits(a) && AllDigits(b) && AllDigits(f) && |a| > 0
    ensures AllDigits(a + b)
    ensures ParsePrice(Some(caption + a + [','] + b + ['.'] + f)) == Finite(DecimalValue(a + b, f))
  {
    var num := b + ['.'] + f;
    var text := caption + a + [','] + b + ['.'] + f;
    assert text == caption + (a + ([','] + num));
    calc {
      KeepNumeric(text);
      { KeepNumericSkipsCaption(caption, a + ([','] + num)); }
      KeepNumeric(a + ([','] + num));
      { KeepNumericKeepsNumeric(a, [','] + num); }
      a + KeepNumeric([','] + num);
      { KeepNumericSkipsCaption([','], num); }
      a + KeepNumeric(num);
      { KeepNumericOfNumeric(num); }
      a + num;
      (a + b) + ['.'] + f;
    }
    assert |text| > 0;
    calc {
      ParsePrice(Some(text));
      ParseFloat((a + b) + ['.'] + f);
      { ParseFloatOfDecimal(a + b, f); }
      Finite(DecimalValue(a + b, f));
    }
  }

  /** Currency signs and thousands separators vanish: "$1,234.56" reads as 1234.56. */
  lemma ParsePriceDropsCurrencyAndCommas(text: string)
    requires text == "$1,234.56"
    ensures ParsePrice(Some(text)) == Finite(1234.56)
  {
    assert "$" + "1" + [','] + "234" + ['.'] + "56" == text;
    calc {
      ParsePrice(Some(text));
      { ParsePriceOfGroupedAmount("$", "1", "234", "56"); }
      Finite(DecimalValue("1" + "234", "56"));
      { DecimalValueOf1234_56(); }
      Finite(1234.56);
    }
  }

  lemma DecimalValueOf1234_56()
    ensures AllDigits("1" + "234")
    ensures DecimalValue("1" + "234", "56") == 1234.56
  {
    NatToDigitsRoundTrip(1234);
    assert NatToDigits(1234) == "1" + "234";
    NatToDigitsRoundTrip(56);
    assert NatToDigits(56) == "56";
    assert Pow10(2) == 100;
  }

  /** A second '.' ends the number: "1.2.3" reads as 1.2. */
  lemma ParsePriceStopsAtSecondDot(text: string)
    requires text == "1.2.3"
    ensures ParsePrice(Some(text)) == Finite(1.2)
  {
    assert text == "1" + (['.'] + ("2" + ".3"));
    assert OnlyNumericChars(text);
    calc {
      ParsePrice(Some(text));
      { KeepNumericOfNumeric(text); }
      ParseFloat(text);
      ParseUnsigned("1" + (['.'] + ("2" + ".3")));
      { ReadsDigitsDotDigits("1", "2", ".3"); }
      Finite(DecimalValue("1", "2"));
      { assert Pow10(1) == 10; }
      Finite(1.2);
    }
  }

  /** A caption containing '-' keeps that sign: "Sub-Total: 3310.00" reads as -3310. */
  lemma ParsePriceKeepsLabelHyphen(text: string)
    requires text == "Sub-Total: 3310.00"
    ensures ParsePrice(Some(text)) == Finite(-3310.0)
  {
    assert "Sub" + ['-'] + "Total: " + "3310" + ['.'] + "00" == text;
    HyphenatedLabelOf3310("Sub", "Total: ");
  }

  /** The general reading of a hyphenated caption, applied to the amount 3310.00. */
  lemma HyphenatedLabelOf3310(pre: string, post: string)
    requires forall i :: 0 <= i < |pre| ==> !IsNumericChar(pre[i])
    requires forall i :: 0 <= i < |post| ==> !IsNumericChar(post[i])
    ensures ParsePrice(Some(pre + ['-'] + post + "3310" + ['.'] + "00")) == Finite(-3310.0)
  {
    ParsePriceOfHyphenatedLabel(pre, post, "3310", "00");
    DecimalValueOf3310();
  }

  lemma DecimalValueOf3310()
    ensures DecimalValue("3310", "00") == 3310.0
  {
    NatToDigitsRoundTrip(3310);
    assert NatToDigits(3310) == "3310";
    assert "00"[..1] == "0";
    assert "0"[..0] == "";
    assert DigitsValue("00") == 0;
  }

  /** Text with no digit, such as "abc", "." or "-", reads as NaN. */
  lemma ParsePriceNaNExamples()
    ensures ParsePrice(Some("abc")) == NaN
    ensures ParsePrice(Some(".")) == NaN
    ensures ParsePrice(Some("-")) == NaN
  {
    ParsePriceWithoutDigits("abc");
    ParsePriceWithoutDigits(".");
    ParsePriceWithoutDigits("-");
  }

  /** The scanner reads digits '.' digits followed by text that does not continue the number. */
  lemma ReadsDigitsDotDigits(w: string, f: string, rest: string)
    requires AllDigits(w) && AllDigits(f) && |w| > 0
    requires |rest| > 0 ==> !IsDigit(rest[0])
    ensures ParseUnsigned(w + (['.'] + (f + rest))) == Finite(DecimalValue(w, f))
  {
    var v := f + rest;
    var tail := ['.'] + v;
    var u := w + tail;
    DigitRunOfDigits(w, tail);
    assert u[..|w|] == w;
    assert u[|w|] == '.';
    assert WholeText(u) == w && DotAfterDigits(u);
    assert u[|w| + 1..] == v;
    DigitRunOfDigits(f, rest);
    assert v[..|f|] == f;
    assert FractionText(u) == f;
    assert ScannedDigit(u);
  }
}

=== FILE: cart_page.dfy ===
/**
 * The pure logic of the cart page object: reading the cart rows into
 * items, reading the order-summary amounts, and the price-verification
 * report that compares them.
 */
module CartPage {
  import opened Values
  import opened JsText
  import opened JsNumber
  import opened BasePage
  import Helpers

  // ---------------------------------------------------------------------
  // Cart rows
  // ---------------------------------------------------------------------

  /**
   * What one cart row shows: the text of its name, price and subtotal
   * cells and the value of its quantity box, `None` where the row has no
   * such element.
   */
  datatype Row = Row(name: Option<string>, price: Option<string>, quantity: Option<string>, subtotal: Option<string>)

  /** One line of the cart as the page object reports it. */
  datatype CartItem = CartItem(name: string, unitPrice: Num, quantity: Num, subtotal: Num)

  /** The row has all four elements the reader needs. */
  predicate IsComplete(row: Row) {
    row.name.Some? && row.price.Some? && row.quantity.Some? && row.subtotal.Some?
  }

  /**
   * The item read from a row: trimmed name, prices through `parsePrice`,
   * quantity through `parseInt`. It is only applied to complete rows, for
   * which every `GetOr` default is unused.
   */
  function ReadItem(row: Row): (item: CartItem)
    ensures |item.name| > 0 ==> !IsJsWhitespace(item.name[0]) && !IsJsWhitespace(item.name[|item.name| - 1])
    ensures item.quantity.Finite? ==> row.quantity.Some? && HasDigit(row.quantity.value) && IsWhole(item.quantity.value)
    ensures item.unitPrice.Finite? && item.unitPrice.value < 0.0 ==> row.price.Some? && '-' in row.price.value
  {
    CartItem(Trim(row.name.GetOr("")), ParsePrice(row.price), ParseInt(row.quantity.GetOr("")), ParsePrice(row.subtotal))
  }

  /** The elements `keep` accepts, each passed through `read`, in their original order. */
  function Gather<R, T>(rows: seq<R>, keep: R -> bool, read: R -> T): (out: seq<T>)
    ensures |out| <= |rows|
    decreases |rows|
  {
    if |rows| == 0 then []
    else
      var last := rows[|rows| - 1];
      Gather(rows[..|rows| - 1], keep, read) + (if keep(last) then [read(last)] else [])
  }

  /** The positions of the elements `keep` accepts: increasing, and every accepted position is among them. */
  function Kept<R>(rows: seq<R>, keep: R -> bool): (idx: seq<nat>)
    ensures forall j :: 0 <= j < |idx| ==> idx[j] < |rows| && keep(rows[idx[j]])
    ensures forall j, k :: 0 <= j < k < |idx| ==> idx[j] < idx[k]
    ensures forall i :: 0 <= i < |rows| && keep(rows[i]) ==> i in idx
    decreases |rows|
  {
    if |rows| == 0 then []
    else
      var n := |rows| - 1;
      var front := Kept(rows[..n], keep);
      assert forall j :: 0 <= j < |front| ==> front[j] < n && rows[front[j]] == rows[..n][front[j]];
      assert forall i :: 0 <= i < n ==> rows[i] == rows[..n][i];
      front + (if keep(rows[n]) then [n] else [])
  }

  /** The j-th gathered element is read from the j-th accepted position, and there are as many as accepted positions. */
  lemma {:induction false} GatherReadsKept<R, T>(rows: seq<R>, keep: R -> bool, read: R -> T)
    ensures |Gather(rows, keep, read)| == |Kept(rows, keep)|
    ensures forall j :: 0 <= j < |Kept(rows, keep)| ==>
              Gather(rows, keep, read)[j] == read(rows[Kept(rows, keep)[j]])
    decreases |rows|
  {
    if |rows| > 0 {
      var n := |rows| - 1;
      var front := rows[..n];
      GatherReadsKept(front, keep, read);
      var idx, fidx := Kept(rows, keep), Kept(front, keep);
      var out, fout := Gather(rows, keep, read), Gather(front, keep, read);
      assert idx == fidx + (if keep(rows[n]) then [n] else []);
      assert out == fout + (if keep(rows[n]) then [read(rows[n])] else []);
      forall j | 0 <= j < |idx|
        ensures out[j] == read(rows[idx[j]])
      {
        if j < |fidx| {
          assert front[fidx[j]] == rows[fidx[j]];
        }
      }
    }
  }

  /** Gathering over two runs gathers each run in turn. */
  lemma {:induction false} GatherAppend<R, T>(a: seq<R>, b: seq<R>, keep: R -> bool, read: R -> T)
    ensures Gather(a + b, keep, read) == Gather(a, keep, read) + Gather(b, keep, read)
    decreases |b|
  {
    if |b| == 0 {
      assert a + b == a;
    } else {
      var n := |b| - 1;
      assert (a + b)[..|a + b| - 1] == a + b[..n];
      assert (a + b)[|a + b| - 1] == b[n];
      GatherAppend(a, b[..n], keep, read);
    }
  }

  /**
   * `getCartItems`: one item per complete row, in page order; incomplete
   * rows are skipped. The j-th item is read from the j-th complete row.
   */
  function GetCartItems(rows: seq<Row>): (items: seq<CartItem>)
    ensures |items| <= |rows|
    ensures |items| == |CompleteRows(rows)|
    ensures forall j :: 0 <= j < |items| ==> items[j] == ReadItem(rows[CompleteRows(rows)[j]])
  {
    GatherReadsKept(rows, IsComplete, ReadItem);
    Gather(rows, IsComplete, ReadItem)
  }

  /** The positions of the complete rows. */
  function CompleteRows(rows: seq<Row>): (idx: seq<nat>)
    ensures forall j :: 0 <= j < |idx| ==> idx[j] < |rows| && IsComplete(rows[idx[j]])
    ensures forall j, k :: 0 <= j < k < |idx| ==> idx[j] < idx[k]
    ensures forall i :: 0 <= i < |rows| && IsComplete(rows[i]) ==> i in idx
  {
    Kept(rows, IsComplete)
  }

  /** Reading a page made of two runs of rows reads each run in turn. */
  lemma GetCartItemsAppend(a: seq<Row>, b: seq<Row>)
    ensures GetCartItems(a + b) == GetCartItems(a) + GetCartItems(b)
  {
    GatherAppend(a, b, IsComplete, ReadItem);
  }

  /** A row missing any of its four elements contributes no item; the rows around it are read as usual. */
  lemma IncompleteRowIsSkipped(before: seq<Row>, row: Row, after: seq<Row>)
    requires !IsComplete(row)
    ensures GetCartItems(before + [row] + after) == GetCartItems(before) + GetCartItems(after)
    ensures |GetCartItems(before + [row] + after)| < |before| + 1 + |after|
  {
    GatherSkips(before, row, after, IsComplete, ReadItem);
  }

  /** An element `keep` rejects contributes nothing to the gathered sequence. */
  lemma GatherSkips<R, T>(before: seq<R>, row: R, after: seq<R>, keep: R -> bool, read: R -> T)
    requires !keep(row)
    ensures Gather(before + [row] + after, keep, read) == Gather(before, keep, read) + Gather(after, keep, read)
  {
    GatherAppend(before + [row], after, keep, read);
    GatherAppend(before, [row], keep, read);
    assert [row][..0] == [];
    assert Gather([row], keep, read) == [];
  }

  /** A row with padded name text and a rendered quantity yields the bare name and that quantity. */
  lemma ReadItemOfRenderedRow(lead: string, name: string, trail: string, space: string, qty: nat, price: string, subtotal: string)
    requires AllWhitespace(lead) && AllWhitespace(trail) && AllWhitespace(space)
    requires |name| > 0 ==> !IsJsWhitespace(name[0]) && !IsJsWhitespace(name[|name| - 1])
    ensures var item := ReadItem(Row(Some(lead + name + trail), Some(price), Some(space + NatToDigits(qty)), Some(subtotal)));
            item.name == name && item.quantity == Finite(qty as real)
            && item.unitPrice == ParsePrice(Some(price)) && item.subtotal == ParsePrice(Some(subtotal))
  {
    TrimOfPadded(lead, name, trail);
    ParseIntOfRendered(space, qty, "");
    assert space + NatToDigits(qty) + "" == space + NatToDigits(qty);
  }

  // ---------------------------------------------------------------------
  // Order-summary amounts
  // ---------------------------------------------------------------------

  /** A character of `[\d.]`. */
  predicate IsAmountChar(c: char) {
    IsDigit(c) || c == '.'
  }

  /** The position of the first digit or '.' at or after `i`. */
  function FirstAmountCharFrom(s: string, i: nat): (r: Option<nat>)
    requires i <= |s|
    ensures r.Some? ==> i <= r.value < |s| && IsAmountChar(s[r.value])
    ensures r.Some? ==> forall k :: i <= k < r.value ==> !IsAmountChar(s[k])
    ensures r.None? ==> forall k :: i <= k < |s| ==> !IsAmountChar(s[k])
    decreases |s| - i
  {
    if i == |s| then None
    else if IsAmountChar(s[i]) then Some(i)
    else FirstAmountCharFrom(s, i + 1)
  }

  /** The length of the run of digits and '.' at the start of `s`. */
  function AmountRun(s: string): (n: nat)
    ensures n <= |s|
    ensures forall k :: 0 <= k < n ==> IsAmountChar(s[k])
    ensures n < |s| ==> !IsAmountChar(s[n])
    decreases |s|
  {
    if |s| == 0 || !IsAmountChar(s[0]) then 0 else 1 + AmountRun(s[1..])
  }

  /**
   * `s` matches `/[\d.]+/` first at position `i` with length `n`: the
   * match is the leftmost run of digits and '.', taken to its end.
   */
  predicate IsFirstAmountMatch(s: string, i: nat, n: nat) {
    && i + n <= |s| && n > 0
    && (forall k :: i <= k < i + n ==> IsAmountChar(s[k]))
    && (i + n == |s| || !IsAmountChar(s[i + n]))
    && (forall k :: 0 <= k < i ==> !IsAmountChar(s[k]))
  }

  /** `s.match(/[\d.]+/)`: the position and length of the first match, if any. */
  function FirstAmountMatch(s: string): (m: Option<(nat, nat)>)
    ensures m.Some? ==> IsFirstAmountMatch(s, m.value.0, m.value.1)
    ensures m.None? <==> forall k :: 0 <= k < |s| ==> !IsAmountChar(s[k])
  {
    match FirstAmountCharFrom(s, 0)
    case None => None
    case Some(i) =>
      var n := AmountRun(s[i..]);
      assert forall k :: i <= k < i + n ==> s[k] == s[i..][k - i];
      Some((i, n))
  }

  /** A run of digits and '.' is text `parseFloat` accepts. */
  lemma AmountCharsAreNumeric(s: string, i: nat, n: nat)
    requires i + n <= |s|
    requires forall k :: i <= k < i + n ==> IsAmountChar(s[k])
    ensures OnlyNumericChars(s[i..i + n])
  {
    var t := s[i..i + n];
    forall k | 0 <= k < |t|
      ensures IsNumericChar(t[k])
    {
      assert t[k] == s[i + k];
    }
  }

  /**
   * `text.match(/[\d.]+/)[0]` as the order-summary readers use it: `None`
   * for missing or empty text and for text without a digit or '.'.
   */
  function MatchedAmount(text: Option<string>): (m: Option<string>)
    ensures m.Some? ==> |m.value| > 0 && OnlyNumericChars(m.value) && m.value[0] != '-'
  {
    if text.None? || text.value == "" then None
    else
      var s := text.value;
      match FirstAmountMatch(s)
      case None => None
      case Some((i, n)) =>
        AmountCharsAreNumeric(s, i, n);
        assert s[i..i + n][0] == s[i];
        Some(s[i..i + n])
  }

  /**
   * The order-summary readers (`getOrderSubtotal`, `getShippingCost`,
   * `getTax`, `getOrderTotal`): 0 when there is no match, otherwise
   * `parseFloat` of the matched text. The pattern has no '-', so the
   * amount read is never negative.
   */
  function ExtractAmount(text: Option<string>): (n: Num)
    ensures text.None? || text == Some("") ==> n == Finite(0.0)
    ensures n.Finite? ==> n.value >= 0.0
  {
    match MatchedAmount(text)
    case None => Finite(0.0)
    case Some(t) => ParseFloat(t)
  }

  /** The first match is determined by the text: two positions/lengths that both qualify coincide. */
  lemma FirstAmountMatchUnique(s: string, i: nat, n: nat, i': nat, n': nat)
    requires IsFirstAmountMatch(s, i, n) && IsFirstAmountMatch(s, i', n')
    ensures i == i' && n == n'
  {
    assert IsAmountChar(s[i]) && IsAmountChar(s[i']);
    assert i == i';
    if i + n < |s| {
      assert !IsAmountChar(s[i + n]);
    }
    if i + n' < |s| {
      assert !IsAmountChar(s[i + n']);
    }
  }

  /**
   * The readers return 0 on missing text, empty text and text without a
   * digit or '.', and otherwise `parseFloat` of the leftmost maximal run
   * of digits and '.'.
   */
  lemma ExtractAmountReadsFirstRun(text: Option<string>)
    ensures text.None? || text == Some("") ==> ExtractAmount(text) == Finite(0.0)
    ensures text.Some? && (forall k :: 0 <= k < |text.value| ==> !IsAmountChar(text.value[k])) ==>
              ExtractAmount(text) == Finite(0.0)
    ensures forall i: nat, n: nat :: text.Some? && IsFirstAmountMatch(text.value, i, n) ==>
              OnlyNumericChars(text.value[i..i + n]) && ExtractAmount(text) == ParseFloat(text.value[i..i + n])
  {
    if text.Some? {
      forall i: nat, n: nat | IsFirstAmountMatch(text.value, i, n)
        ensures OnlyNumericChars(text.value[i..i + n]) && ExtractAmount(text) == ParseFloat(text.value[i..i + n])
      {
        ExtractAmountOfMatch(text.value, i, n);
      }
    }
  }

  /** Where the first match is known, the reader parses exactly it. */
  lemma ExtractAmountOfMatch(s: string, i: nat, n: nat)
    requires IsFirstAmountMatch(s, i, n)
    ensures OnlyNumericChars(s[i..i + n])
    ensures ExtractAmount(Some(s)) == ParseFloat(s[i..i + n])
  {
    MatchedAmountOfMatch(s, i, n);
    ExtractAmountOfText(Some(s), s[i..i + n]);
  }

  /** The matched text is the first match. */
  lemma MatchedAmountOfMatch(s: string, i: nat, n: nat)
    requires IsFirstAmountMatch(s, i, n)
    ensures MatchedAmount(Some(s)) == Some(s[i..i + n])
  {
    assert IsAmountChar(s[i]);
    var m := FirstAmountMatch(s);
    FirstAmountMatchUnique(s, i, n, m.value.0, m.value.1);
  }

  /** The reader parses the matched text. */
  lemma ExtractAmountOfText(text: Option<string>, t: string)
    requires MatchedAmount(text) == Some(t)
    ensures OnlyNumericChars(t) && ExtractAmount(text) == ParseFloat(t)
  {
  }

  /** Text after a caption without digits or '.', ended by the end of text or a character outside `[\d.]`, is the first match. */
  lemma FirstMatchAfterCaption(caption: string, x: string, rest: string)
    requires forall k :: 0 <= k < |caption| ==> !IsAmountChar(caption[k])
    requires |x| > 0 && forall k :: 0 <= k < |x| ==> IsAmountChar(x[k])
    requires |rest| > 0 ==> !IsAmountChar(rest[0])
    ensures IsFirstAmountMatch(caption + x + rest, |caption|, |x|)
    ensures (caption + x + rest)[|caption|..|caption| + |x|] == x
  {
    var s := caption + x + rest;
    var i, n := |caption|, |x|;
    assert forall k :: 0 <= k < i ==> s[k] == caption[k];
    assert forall k :: i <= k < i + n ==> s[k] == x[k - i];
    assert i + n < |s| ==> s[i + n] == rest[0];
    assert s[i..i + n] == x;
  }

  /** A caption without digits or '.' before an amount followed by a separator: the amount is read, unsigned. */
  lemma ExtractAmountOfCaptioned(caption: string, w: string, f: string, rest: string)
    requires forall k :: 0 <= k < |caption| ==> !IsAmountChar(caption[k])
    requires AllDigits(w) && AllDigits(f) && |w| > 0
    requires |rest| > 0 ==> !IsAmountChar(rest[0])
    ensures ExtractAmount(Some(caption + w + ['.'] + f + rest)) == Finite(DecimalValue(w, f))
  {
    var num := w + ['.'] + f;
    var s := caption + num + rest;
    assert forall k :: 0 <= k < |num| ==> IsAmountChar(num[k]);
    FirstMatchAfterCaption(caption, num, rest);
    assert s == caption + w + ['.'] + f + rest;
    MatchedAmountOfMatch(s, |caption|, |num|);
    ExtractAmountOfText(Some(s), num);
    ParseFloatOfDecimal(w, f);
  }

  /** "Sub-Total: 3310.00" reads as 3310 here, unlike `parsePrice`, which reads it as -3310. */
  lemma ExtractAmountIgnoresCaptionHyphen(text: string)
    requires text == "Sub-Total: 3310.00"
    ensures ExtractAmount(Some(text)) == Finite(3310.0)
  {
    assert "Sub-Total: " + "3310" + ['.'] + "00" + "" == text;
    calc {
      ExtractAmount(Some(text));
      { ExtractAmountOfCaptioned("Sub-Total: ", "3310", "00", ""); }
      Finite(DecimalValue("3310", "00"));
      { DecimalValueOf3310(); }
      Finite(3310.0);
    }
  }

  /**
   * A thousands separator ends the match: an amount written with a comma
   * reads as its leading digit group only.
   */
  lemma ExtractAmountStopsAtComma(caption: string, a: string, b: string)
    requires forall k :: 0 <= k < |caption| ==> !IsAmountChar(caption[k])
    requires AllDigits(a) && |a| > 0
    ensures ExtractAmount(Some(caption + a + [','] + b)) == Finite(DigitsValue(a) as real)
  {
    var s := caption + a + ([','] + b);
    FirstMatchAfterCaption(caption, a, [','] + b);
    assert s == caption + a + [','] + b;
    MatchedAmountOfMatch(s, |caption|, |a|);
    ExtractAmountOfText(Some(s), a);
    ParseFloatOfDigits(a);
  }


  // ---------------------------------------------------------------------
  // Comma-aware amounts (the reading the order summary evidently intends)
  // ---------------------------------------------------------------------

  /** `s` without its ',' characters. */
  function RemoveCommas(s: string): (r: string)
    ensures |r| <= |s|
    ensures forall k :: 0 <= k < |r| ==> r[k] != ','
    decreases |s|
  {
    if |s| == 0 then [] else (if s[0] == ',' then [] else [s[0]]) + RemoveCommas(s[1..])
  }

  lemma {:induction false} RemoveCommasAppend(a: string, b: string)
    ensures RemoveCommas(a + b) == RemoveCommas(a) + RemoveCommas(b)
    decreases |a|
  {
    if |a| == 0 {
      assert a + b == b;
    } else {
      var h: string := if a[0] == ',' then [] else [a[0]];
      assert (a + b)[0] == a[0];
      assert (a + b)[1..] == a[1..] + b;
      RemoveCommasAppend(a[1..], b);
      calc {
        RemoveCommas(a + b);
        h + RemoveCommas(a[1..] + b);
        h + (RemoveCommas(a[1..]) + RemoveCommas(b));
        (h + RemoveCommas(a[1..])) + RemoveCommas(b);
      }
    }
  }

  lemma {:induction false} RemoveCommasOfCommaFree(s: string)
    requires forall k :: 0 <= k < |s| ==> s[k] != ','
    ensures RemoveCommas(s) == s
    decreases |s|
  {
    if |s| > 0 {
      RemoveCommasOfCommaFree(s[1..]);
      assert [s[0]] + s[1..] == s;
    }
  }

  /** The amount reader with thousands separators dropped before the match. */
  function ExtractGroupedAmount(text: Option<string>): Num
  {
    if text.None? then Finite(0.0) else ExtractAmount(Some(RemoveCommas(text.value)))
  }

  /** Missing text, or text without a ','. */
  predicate CommaFree(text: Option<string>) {
    text.Some? ==> forall k :: 0 <= k < |text.value| ==> text.value[k] != ','
  }

  /** On text without commas the comma-aware reader agrees with the order-summary readers. */
  lemma ExtractGroupedAmountAgrees(text: Option<string>)
    requires CommaFree(text)
    ensures ExtractGroupedAmount(text) == ExtractAmount(text)
  {
    if text.Some? {
      RemoveCommasOfCommaFree(text.value);
    }
  }

  /** With a thousands separator the comma-aware reader reads the whole amount. */
  lemma ExtractGroupedAmountReadsWholeAmount(caption: string, a: string, b: string, f: string)
    requires forall k :: 0 <= k < |caption| ==> !IsAmountChar(caption[k]) && caption[k] != ','
    requires AllDigits(a) && AllDigits(b) && AllDigits(f) && |a| > 0
    ensures AllDigits(a + b)
    ensures ExtractGroupedAmount(Some(caption + a + [','] + b + ['.'] + f)) == Finite(DecimalValue(a + b, f))
  {
    RemoveCommasOfGrouped(caption, a, b, f);
    ExtractAmountOfCaptioned(caption, a + b, f, "");
  }

  /** Dropping the separator from a grouped amount joins its digit groups. */
  lemma RemoveCommasOfGrouped(caption: string, a: string, b: string, f: string)
    requires forall k :: 0 <= k < |caption| ==> caption[k] != ','
    requires AllDigits(a) && AllDigits(b) && AllDigits(f)
    ensures AllDigits(a + b)
    ensures RemoveCommas(caption + a + [','] + b + ['.'] + f) == caption + (a + b) + ['.'] + f + ""
  {
    var tail := b + ['.'] + f;
    var r := [','] + tail;
    GroupedAmountAroundSeparator(caption, a, [','], b, ['.'], f);
    assert forall k :: 0 <= k < |a| ==> a[k] != ',' by {
      assert forall k :: 0 <= k < |a| ==> IsDigit(a[k]);
    }
    assert forall k :: 0 <= k < |tail| ==> tail[k] != ',';
    RemoveCommasOfCommaFree(caption);
    RemoveCommasOfCommaFree(a);
    RemoveCommasOfCommaFree(tail);
    assert RemoveCommas(r) == tail by {
      assert r[1..] == tail;
    }
    calc {
      RemoveCommas(caption + (a + r));
      { RemoveCommasAppend(caption, a + r); }
      RemoveCommas(caption) + RemoveCommas(a + r);
      { RemoveCommasAppend(a, r); }
      caption + (a + tail);
    }
    GroupedAmountWithoutSeparator(caption, a, b, ['.'], f);
  }

  /** How `RemoveCommasOfGrouped` splits a grouped amount: caption, leading group, then the separator and the rest. */
  lemma GroupedAmountAroundSeparator<T>(p: seq<T>, q: seq<T>, x: seq<T>, u: seq<T>, y: seq<T>, v: seq<T>)
    ensures p + q + x + u + y + v == p + (q + (x + (u + y + v)))
  {
  }

  /** How `RemoveCommasOfGrouped` rejoins the amount once the separator is gone. */
  lemma GroupedAmountWithoutSeparator<T>(p: seq<T>, q: seq<T>, u: seq<T>, y: seq<T>, v: seq<T>)
    ensures p + (q + u) + y + v + [] == p + (q + (u + y + v))
  {
  }

  // ---------------------------------------------------------------------
  // Order summary
  // ---------------------------------------------------------------------

  /** The text of the order-summary cells, `None` where the cell is missing or unreadable. */
  datatype SummaryTexts = SummaryTexts(
    subtotal: Option<string>, shipping: Option<string>, tax: Option<string>,
    discount: Option<string>, total: Option<string>)

  /** The order-summary amounts. */
  datatype Summary = Summary(subtotal: Num, shipping: Num, tax: Num, discount: Num, total: Num)

  /** Whether a summary cell is missing or empty, which the page object reads as 0. */
  predicate Blank(text: Option<string>)
  {
    text.None? || text == Some("")
  }

  /**
   * The amounts as the page object reads them: the discount through `parsePrice`, the others by the first run.
   * A blank cell reads 0, the four run-read amounts are never negative, and only a discount cell with a '-'
   * in it can read negative.
   */
  function ReadSummary(t: SummaryTexts): (s: Summary)
    ensures Blank(t.subtotal) ==> s.subtotal == Finite(0.0)
    ensures Blank(t.shipping) ==> s.shipping == Finite(0.0)
    ensures Blank(t.tax) ==> s.tax == Finite(0.0)
    ensures Blank(t.total) ==> s.total == Finite(0.0)
    ensures Blank(t.discount) ==> s.discount == Finite(0.0)
    ensures s.subtotal.Finite? ==> s.subtotal.value >= 0.0
    ensures s.shipping.Finite? ==> s.shipping.value >= 0.0
    ensures s.tax.Finite? ==> s.tax.value >= 0.0
    ensures s.total.Finite? ==> s.total.value >= 0.0
    ensures s.discount.Finite? && s.discount.value < 0.0 ==> t.discount.Some? && '-' in t.discount.value
  {
    Summary(ExtractAmount(t.subtotal), ExtractAmount(t.shipping), ExtractAmount(t.tax),
            ParsePrice(t.discount), ExtractAmount(t.total))
  }

  /** A discount cell showing "-" and an amount is read as a negative discount. */
  lemma SignedDiscountReadsNegative(w: string, f: string, t: SummaryTexts)
    requires AllDigits(w) && AllDigits(f) && |w| > 0
    requires t.discount == Some(['-'] + w + ['.'] + f)
    ensures ReadSummary(t).discount == Finite(-DecimalValue(w, f))
  {
    assert [] + ['-'] + [] + w + ['.'] + f == ['-'] + w + ['.'] + f;
    ParsePriceOfHyphenatedLabel([], [], w, f);
  }

  /** The magnitude of the discount, whatever sign the cell shows. */
  function DiscountMagnitude(text: Option<string>): (r: Num)
    ensures r.Finite? ==> r.value >= 0.0
    ensures r.NaN? <==> ParsePrice(text).NaN?
  {
    match ParsePrice(text)
    case NaN => NaN
    case Finite(v) => Finite(Abs(v))
  }

  /** The amounts read as the summary evidently intends: commas ignored, the discount unsigned. */
  function ReadSummaryIntended(t: SummaryTexts): Summary
  {
    Summary(ExtractGroupedAmount(t.subtotal), ExtractGroupedAmount(t.shipping), ExtractGroupedAmount(t.tax),
            DiscountMagnitude(t.discount), ExtractGroupedAmount(t.total))
  }

  /** The intended discount is the same whether the cell shows the amount with or without '-'. */
  lemma IntendedDiscountIgnoresSign(w: string, f: string)
    requires AllDigits(w) && AllDigits(f) && |w| > 0
    ensures DiscountMagnitude(Some(['-'] + w + ['.'] + f)) == Finite(DecimalValue(w, f))
    ensures DiscountMagnitude(Some(w + ['.'] + f)) == Finite(DecimalValue(w, f))
  {
    SignedDiscountMagnitude(w, f);
    UnsignedDiscountReads(w, f);
  }

  /** A discount shown with '-' has the amount as its magnitude. */
  lemma SignedDiscountMagnitude(w: string, f: string)
    requires AllDigits(w) && AllDigits(f) && |w| > 0
    ensures DiscountMagnitude(Some(['-'] + w + ['.'] + f)) == Finite(DecimalValue(w, f))
  {
    assert [] + ['-'] + [] + w + ['.'] + f == ['-'] + w + ['.'] + f;
    ParsePriceOfHyphenatedLabel([], [], w, f);
    DecimalValueNonNegative(w, f);
  }

  lemma DecimalValueNonNegative(w: string, f: string)
    requires AllDigits(w) && AllDigits(f)
    ensures DecimalValue(w, f) >= 0.0
  {
  }

  /** On comma-free cells and a discount shown without '-', both readings agree. */
  lemma ReadSummaryIntendedAgrees(t: SummaryTexts, w: string, f: string)
    requires CommaFree(t.subtotal) && CommaFree(t.shipping) && CommaFree(t.tax) && CommaFree(t.total)
    requires AllDigits(w) && AllDigits(f) && |w| > 0
    requires t.discount == Some(w + ['.'] + f)
    ensures ReadSummaryIntended(t) == ReadSummary(t)
  {
    ExtractGroupedAmountAgrees(t.subtotal);
    ExtractGroupedAmountAgrees(t.shipping);
    ExtractGroupedAmountAgrees(t.tax);
    ExtractGroupedAmountAgrees(t.total);
    assert DiscountMagnitude(t.discount) == ParsePrice(t.discount) by {
      UnsignedDiscountReads(w, f);
    }
  }

  /** A discount cell showing an amount without '-' reads the same either way. */
  lemma UnsignedDiscountReads(w: string, f: string)
    requires AllDigits(w) && AllDigits(f) && |w| > 0
    ensures ParsePrice(Some(w + ['.'] + f)) == Finite(DecimalValue(w, f))
    ensures DiscountMagnitude(Some(w + ['.'] + f)) == Finite(DecimalValue(w, f))
  {
    assert [] + w + ['.'] + f == w + ['.'] + f;
    ParsePriceOfLabelledAmount([], w, f);
    DecimalValueNonNegative(w, f);
  }

  // ---------------------------------------------------------------------
  // verifyPriceCalculations
  // ---------------------------------------------------------------------

  /** The tolerance of every comparison in the report. */
  const Tolerance: real := 0.01

  /** `Math.abs(a - b) < 0.01`, which is false whenever either side is NaN. */
  predicate StrictlyClose(a: Num, b: Num) {
    a.Finite? && b.Finite? && Abs(a.value - b.value) < Tolerance
  }

  /** The report's line for one item. */
  datatype ItemCheck = ItemCheck(
    name: string, unitPrice: Num, quantity: Num,
    expectedSubtotal: Num, actualSubtotal: Num, isCorrect: bool)

  /** The report `verifyPriceCalculations` returns. */
  datatype PriceReport = PriceReport(
    items: seq<ItemCheck>,
    calculatedSubtotal: Num, orderSubtotal: Num, subtotalMatch: bool,
    shipping: Num, tax: Num, discount: Num,
    expectedTotal: Num, orderTotal: Num, totalMatch: bool,
    allCalculationsCorrect: bool)

  /** The check of one item: unit price times quantity against the displayed subtotal. */
  function CheckItem(item: CartItem): (c: ItemCheck)
    ensures c.name == item.name && c.unitPrice == item.unitPrice && c.quantity == item.quantity
    ensures c.actualSubtotal == item.subtotal
    ensures c.expectedSubtotal.Finite? <==> item.unitPrice.Finite? && item.quantity.Finite?
    ensures c.expectedSubtotal.Finite? ==> c.expectedSubtotal.value == item.unitPrice.value * item.quantity.value
    ensures c.isCorrect <==>
              item.unitPrice.Finite? && item.quantity.Finite? && item.subtotal.Finite?
              && Abs(item.unitPrice.value * item.quantity.value - item.subtotal.value) < Tolerance
  {
    var expected := Mul(item.unitPrice, item.quantity);
    ItemCheck(item.name, item.unitPrice, item.quantity, expected, item.subtotal,
              StrictlyClose(expected, item.subtotal))
  }

  /** One check per item, in item order. */
  function CheckItems(items: seq<CartItem>): (checks: seq<ItemCheck>)
    ensures |checks| == |items|
    ensures forall i :: 0 <= i < |items| ==> checks[i] == CheckItem(items[i])
    decreases |items|
  {
    if |items| == 0 then []
    else CheckItems(items[..|items| - 1]) + [CheckItem(items[|items| - 1])]
  }

  /** `checks.every((i) => i.isCorrect)`. */
  function EveryCorrect(checks: seq<ItemCheck>): (b: bool)
    ensures b <==> forall i :: 0 <= i < |checks| ==> checks[i].isCorrect
    decreases |checks|
  {
    |checks| == 0 || (checks[0].isCorrect && EveryCorrect(checks[1..]))
  }

  /** `calculatedSubtotal += item.subtotal` from 0, over the items in order. */
  function SumSubtotals(items: seq<CartItem>): Num
    decreases |items|
  {
    if |items| == 0 then Finite(0.0)
    else Add(SumSubtotals(items[..|items| - 1]), items[|items| - 1].subtotal)
  }

  /** Every displayed subtotal is a number. */
  predicate AllSubtotalsFinite(items: seq<CartItem>) {
    forall i :: 0 <= i < |items| ==> items[i].subtotal.Finite?
  }

  /** The sum of the displayed subtotals, first to last. */
  function DisplayedSum(items: seq<CartItem>): real
    requires AllSubtotalsFinite(items)
    decreases |items|
  {
    if |items| == 0 then 0.0 else items[0].subtotal.value + DisplayedSum(items[1..])
  }

  lemma {:induction false} DisplayedSumAppend(a: seq<CartItem>, b: seq<CartItem>)
    requires AllSubtotalsFinite(a) && AllSubtotalsFinite(b)
    ensures AllSubtotalsFinite(a + b)
    ensures DisplayedSum(a + b) == DisplayedSum(a) + DisplayedSum(b)
    decreases |a|
  {
    if |a| == 0 {
      assert a + b == b;
    } else {
      assert (a + b)[1..] == a[1..] + b;
      DisplayedSumAppend(a[1..], b);
    }
  }

  /**
   * The running subtotal is NaN exactly when some displayed subtotal is
   * NaN, and otherwise the sum of the displayed subtotals.
   */
  lemma {:induction false} SumSubtotalsIsDisplayedSum(items: seq<CartItem>)
    ensures SumSubtotals(items).NaN? <==> !AllSubtotalsFinite(items)
    ensures AllSubtotalsFinite(items) ==> SumSubtotals(items) == Finite(DisplayedSum(items))
    decreases |items|
  {
    if |items| > 0 {
      var n := |items| - 1;
      var front := items[..n];
      SumSubtotalsIsDisplayedSum(front);
      assert items == front + [items[n]];
      assert AllSubtotalsFinite(items) <==> AllSubtotalsFinite(front) && items[n].subtotal.Finite?;
      if AllSubtotalsFinite(items) {
        DisplayedSumAppend(front, [items[n]]);
        assert DisplayedSum([items[n]]) == items[n].subtotal.value + DisplayedSum([items[n]][1..]);
        assert [items[n]][1..] == [];
      }
    }
  }

  /** `orderSubtotal + shipping + tax - discount`: NaN when any of them is. */
  function ExpectedTotal(summary: Summary): (e: Num)
    ensures e.Finite? <==>
              summary.subtotal.Finite? && summary.shipping.Finite? && summary.tax.Finite? && summary.discount.Finite?
    ensures e.Finite? ==>
              e.value == summary.subtotal.value + summary.shipping.value + summary.tax.value - summary.discount.value
  {
    Sub(Add(Add(summary.subtotal, summary.shipping), summary.tax), summary.discount)
  }

  /** `verifyPriceCalculations`, given the items and summary amounts it reads. */
  function VerifyPriceCalculations(items: seq<CartItem>, summary: Summary): (r: PriceReport)
    ensures |r.items| == |items|
    ensures forall i :: 0 <= i < |items| ==>
              && r.items[i].name == items[i].name
              && r.items[i].unitPrice == items[i].unitPrice
              && r.items[i].quantity == items[i].quantity
              && r.items[i].actualSubtotal == items[i].subtotal
    ensures forall i :: 0 <= i < |items| ==>
              (r.items[i].expectedSubtotal.Finite? <==> items[i].unitPrice.Finite? && items[i].quantity.Finite?)
              && (r.items[i].expectedSubtotal.Finite? ==>
                    r.items[i].expectedSubtotal.value == items[i].unitPrice.value * items[i].quantity.value)
    ensures forall i :: 0 <= i < |items| ==>
              (r.items[i].isCorrect <==>
                 items[i].unitPrice.Finite? && items[i].quantity.Finite? && items[i].subtotal.Finite?
                 && Abs(items[i].unitPrice.value * items[i].quantity.value - items[i].subtotal.value) < Tolerance)
    ensures r.calculatedSubtotal.Finite? <==> AllSubtotalsFinite(items)
    ensures AllSubtotalsFinite(items) ==> r.calculatedSubtotal.value == DisplayedSum(items)
    ensures r.orderSubtotal == summary.subtotal && r.shipping == summary.shipping && r.tax == summary.tax
    ensures r.discount == summary.discount && r.orderTotal == summary.total
    ensures r.subtotalMatch <==>
              AllSubtotalsFinite(items) && summary.subtotal.Finite?
              && Abs(DisplayedSum(items) - summary.subtotal.value) < Tolerance
    ensures r.expectedTotal.Finite? <==>
              summary.subtotal.Finite? && summary.shipping.Finite? && summary.tax.Finite? && summary.discount.Finite?
    ensures r.expectedTotal.Finite? ==>
              r.expectedTotal.value
              == summary.subtotal.value + summary.shipping.value + summary.tax.value - summary.discount.value
    ensures r.totalMatch <==>
              r.expectedTotal.Finite? && summary.total.Finite?
              && Abs(r.expectedTotal.value - summary.total.value) < Tolerance
    ensures r.allCalculationsCorrect <==>
              r.subtotalMatch && r.totalMatch && forall i :: 0 <= i < |items| ==> r.items[i].isCorrect
  {
    var checks := CheckItems(items);
    var calculated := SumSubtotals(items);
    SumSubtotalsIsDisplayedSum(items);
    var subtotalMatch := StrictlyClose(calculated, summary.subtotal);
    var expectedTotal := ExpectedTotal(summary);
    var totalMatch := StrictlyClose(expectedTotal, summary.total);
    PriceReport(checks, calculated, summary.subtotal, subtotalMatch,
                summary.shipping, summary.tax, summary.discount,
                expectedTotal, summary.total, totalMatch,
                subtotalMatch && totalMatch && EveryCorrect(checks))
  }

  /** A cart whose displayed figures are exactly consistent passes every check. */
  lemma ConsistentCartPasses(items: seq<CartItem>, summary: Summary)
    requires forall i :: 0 <= i < |items| ==>
               items[i].unitPrice.Finite? && items[i].quantity.Finite?
               && items[i].subtotal == Finite(items[i].unitPrice.value * items[i].quantity.value)
    requires AllSubtotalsFinite(items) && summary.subtotal == Finite(DisplayedSum(items))
    requires summary.shipping.Finite? && summary.tax.Finite? && summary.discount.Finite?
    requires summary.total == Finite(summary.subtotal.value + summary.shipping.value + summary.tax.value - summary.discount.value)
    ensures VerifyPriceCalculations(items, summary).allCalculationsCorrect
  {
  }

  /** A difference of exactly one cent fails the strict comparison; anything smaller passes. */
  lemma ToleranceIsStrict(price: real, qty: real, shown: real)
    ensures var item := CartItem("item", Finite(price), Finite(qty), Finite(shown));
            var check := VerifyPriceCalculations([item], Summary(Finite(shown), Finite(0.0), Finite(0.0), Finite(0.0), Finite(shown))).items[0];
            check.isCorrect <==> Abs(price * qty - shown) < 0.01
  {
  }

  /**
   * The report's strict comparison accepts less than the shared helper
   * `comparePrices` with its default tolerance: the two agree everywhere
   * except at a difference of exactly one cent, which the helper accepts
   * and the report rejects.
   */
  lemma StrictlyCloseVersusComparePrices(a: Num, b: Num)
    ensures StrictlyClose(a, b) ==> Helpers.ComparePrices(a, b)
    ensures StrictlyClose(a, b) <==>
              Helpers.ComparePrices(a, b) && Abs(a.value - b.value) != Tolerance
    ensures a.Finite? && b.Finite? && a.value == b.value + Tolerance ==>
              Helpers.ComparePrices(a, b) && !StrictlyClose(a, b)
  {
    assert Helpers.DefaultTolerance == Tolerance;
  }

  /** A line priced 10.00 × 3 shown as 30.01 is reported incorrect, shown as 30.005 correct. */
  lemma OneCentOffIsIncorrect(off: CartItem, close: CartItem)
    requires off == CartItem("item", Finite(10.0), Finite(3.0), Finite(30.01))
    requires close == CartItem("item", Finite(10.0), Finite(3.0), Finite(30.005))
    ensures !VerifyPriceCalculations([off], Summary(Finite(30.01), Finite(0.0), Finite(0.0), Finite(0.0), Finite(30.01))).items[0].isCorrect
    ensures VerifyPriceCalculations([close], Summary(Finite(30.005), Finite(0.0), Finite(0.0), Finite(0.0), Finite(30.005))).items[0].isCorrect
  {
    ToleranceIsStrict(10.0, 3.0, 30.01);
    ToleranceIsStrict(10.0, 3.0, 30.005);
  }

  /** An empty cart with an all-zero summary is reported correct. */
  lemma EmptyCartIsCorrect(items: seq<CartItem>, summary: Summary)
    requires items == [] && summary == Summary(Finite(0.0), Finite(0.0), Finite(0.0), Finite(0.0), Finite(0.0))
    ensures var r := VerifyPriceCalculations(items, summary);
            r.items == [] && r.calculatedSubtotal == Finite(0.0) && r.allCalculationsCorrect
  {
    assert DisplayedSum(items) == 0.0;
  }

  /** A summary subtotal off by more than a cent from the sum of the lines makes the report fail. */
  lemma SubtotalMismatchFails(items: seq<CartItem>, summary: Summary)
    requires AllSubtotalsFinite(items) && summary.subtotal.Finite?
    requires Abs(DisplayedSum(items) - summary.subtotal.value) >= Tolerance
    ensures !VerifyPriceCalculations(items, summary).subtotalMatch
    ensures !VerifyPriceCalculations(items, summary).allCalculationsCorrect
  {
  }

  /** A NaN anywhere in the figures the report compares makes it fail. */
  lemma NaNFails(items: seq<CartItem>, summary: Summary)
    requires summary.subtotal.NaN? || summary.total.NaN? || exists i :: 0 <= i < |items| && items[i].subtotal.NaN?
    ensures !VerifyPriceCalculations(items, summary).allCalculationsCorrect
  {
  }

  /**
   * The sum the report checks is of the displayed line subtotals, not of
   * the expected ones: a wrong line whose wrong amount also appears in
   * the summary still matches the subtotal.
   */
  lemma SubtotalSumsDisplayedLines()
    ensures var r := VerifyPriceCalculations([CartItem("item", Finite(10.0), Finite(3.0), Finite(25.0))],
                                             Summary(Finite(25.0), Finite(0.0), Finite(0.0), Finite(0.0), Finite(25.0)));
            r.subtotalMatch && r.totalMatch && !r.items[0].isCorrect && !r.allCalculationsCorrect
  {
  }

  /**
   * A consistent two-line cart: 10.00 × 2 = 20.00 and 5.50 × 1 = 5.50,
   * summary 25.50 + 5.00 shipping + 2.55 tax = 33.05, passes.
   */
  lemma TwoLineCartPasses()
    ensures VerifyPriceCalculations(
              [CartItem("A", Finite(10.0), Finite(2.0), Finite(20.0)), CartItem("B", Finite(5.5), Finite(1.0), Finite(5.5))],
              Summary(Finite(25.5), Finite(5.0), Finite(2.55), Finite(0.0), Finite(33.05))).allCalculationsCorrect
  {
    var items := [CartItem("A", Finite(10.0), Finite(2.0), Finite(20.0)), CartItem("B", Finite(5.5), Finite(1.0), Finite(5.5))];
    assert DisplayedSum(items) == 20.0 + DisplayedSum(items[1..]);
    assert items[1..][1..] == [];
  }

  /**
   * With the discount cell showing "-" and an amount, the as-written
   * report adds the discount: the expected total is subtotal + shipping +
   * tax + the amount.
   */
  lemma SignedDiscountIsAdded(items: seq<CartItem>, t: SummaryTexts, w: string, f: string)
    requires AllDigits(w) && AllDigits(f) && |w| > 0
    requires t.discount == Some(['-'] + w + ['.'] + f)
    ensures var s := ReadSummary(t);
            var r := VerifyPriceCalculations(items, s);
            s.subtotal.Finite? && s.shipping.Finite? && s.tax.Finite? ==>
              r.expectedTotal == Finite(s.subtotal.value + s.shipping.value + s.tax.value + DecimalValue(w, f))
  {
    SignedDiscountReadsNegative(w, f, t);
  }

  /** Read as intended, the same cell is subtracted. */
  lemma IntendedDiscountIsSubtracted(items: seq<CartItem>, t: SummaryTexts, w: string, f: string)
    requires AllDigits(w) && AllDigits(f) && |w| > 0
    requires t.discount == Some(['-'] + w + ['.'] + f)
    ensures var s := ReadSummaryIntended(t);
            var r := VerifyPriceCalculations(items, s);
            s.subtotal.Finite? && s.shipping.Finite? && s.tax.Finite? ==>
              r.expectedTotal == Finite(s.subtotal.value + s.shipping.value + s.tax.value - DecimalValue(w, f))
  {
    IntendedDiscountIgnoresSign(w, f);
  }
}

=== FILE: checkout_page.dfy ===
/**
 * The decision logic of the checkout page object: which radio button a
 * shipping or payment method name selects, which fields the address
 * forms fill, and which steps `completeCheckout` takes or where it stops
 * with an error.
 */
module CheckoutPage {
  import opened Values
  import opened JsText
  import opened JsObject

  // ---------------------------------------------------------------------
  // Method names and selectors
  // ---------------------------------------------------------------------

  const Ground := "ground"
  const NextDay := "nextday"
  const SecondDay := "secondday"

  const Cod := "cod"
  const Check := "check"
  const CreditCard := "creditcard"
  const PurchaseOrder := "purchaseorder"

  const ShippingMethodRadio := "input[name=\"shippingmethod\"]"
  const GroundShipping := "input[id=\"shippingoption_0\"]"
  const NextDayAir := "input[id=\"shippingoption_1\"]"
  const SecondDayAir := "input[id=\"shippingoption_2\"]"

  const PaymentMethodRadio := "input[name=\"paymentmethod\"]"
  const CashOnDelivery := "#paymentmethod_0"
  const CheckMoneyOrder := "#paymentmethod_1"
  const CreditCardOption := "#paymentmethod_2"
  const PurchaseOrderOption := "#paymentmethod_3"

  /** The `methodMap` of `selectShippingMethod`. */
  const ShippingMethodMap: map<string, string> :=
    map[Ground := GroundShipping, NextDay := NextDayAir, SecondDay := SecondDayAir]

  /** The `methodMap` of `selectPaymentMethod`. */
  const PaymentMethodMap: map<string, string> :=
    map[Cod := CashOnDelivery, Check := CheckMoneyOrder, CreditCard := CreditCardOption, PurchaseOrder := PurchaseOrderOption]

  /** What the page is asked to wait for and click: a CSS selector, or a value that is not a string at all. */
  datatype Selector = Css(css: string) | NotAString

  /** `table[key] || fallback`: a truthy own string, an inherited member, or else the fallback. */
  function LookupOr(table: map<string, string>, key: string, fallback: string): (sel: Selector)
    ensures sel.Css? ==> sel.css == fallback || sel.css in table.Values
    ensures sel == NotAString <==> key !in table && key in PrototypeNames
  {
    match Get(table, key)
    case Own(v) => if v != "" then Css(v) else Css(fallback)
    case Inherited => NotAString
    case Missing => Css(fallback)
  }

  /** `methodMap[method.toLowerCase()] || groundShipping`. */
  function ShippingSelector(choice: string := Ground): (sel: Selector)
    ensures sel.Css? ==> sel.css in ShippingMethodMap.Values
  {
    assert ShippingMethodMap[Ground] == GroundShipping;
    LookupOr(ShippingMethodMap, ToLower(choice), GroundShipping)
  }

  /** `methodMap[method.toLowerCase()] || cashOnDelivery`. */
  function PaymentSelector(choice: string := Cod): (sel: Selector)
    ensures sel.Css? ==> sel.css in PaymentMethodMap.Values
  {
    assert PaymentMethodMap[Cod] == CashOnDelivery;
    LookupOr(PaymentMethodMap, ToLower(choice), CashOnDelivery)
  }

  /**
   * The option actually clicked: the chosen selector when it becomes
   * visible within the wait, otherwise (including a selector that is not
   * a string, which makes the wait throw) the first radio of the group.
   */
  function ClickedOption(sel: Selector, firstRadio: string, visible: set<string>): (clicked: string)
    ensures clicked == firstRadio || (sel.Css? && clicked == sel.css && sel.css in visible)
    ensures sel.Css? && sel.css in visible ==> clicked == sel.css
  {
    match sel
    case Css(s) => if s in visible then s else firstRadio
    case NotAString => firstRadio
  }

  /** `selectShippingMethod`: the shipping option clicked, given which selectors become visible. */
  function SelectShippingMethod(choice: string, visible: set<string>): (clicked: string)
    ensures clicked in ShippingMethodMap.Values || clicked == ShippingMethodRadio
  {
    ClickedOption(ShippingSelector(choice), ShippingMethodRadio, visible)
  }

  /** `selectPaymentMethod`: the payment option clicked, given which selectors become visible. */
  function SelectPaymentMethod(choice: string, visible: set<string>): (clicked: string)
    ensures clicked in PaymentMethodMap.Values || clicked == PaymentMethodRadio
  {
    ClickedOption(PaymentSelector(choice), PaymentMethodRadio, visible)
  }

  /**
   * Each shipping method name selects its option whatever the case of its
   * letters; every other name selects ground shipping, except the two
   * inherited names "constructor" and "__proto__", which select no
   * string at all.
   */
  lemma ShippingSelectorByName(choice: string)
    ensures MatchesIgnoringCase(choice, Ground) ==> ShippingSelector(choice) == Css(GroundShipping)
    ensures MatchesIgnoringCase(choice, NextDay) ==> ShippingSelector(choice) == Css(NextDayAir)
    ensures MatchesIgnoringCase(choice, SecondDay) ==> ShippingSelector(choice) == Css(SecondDayAir)
    ensures ShippingSelector(choice) == NotAString <==>
              MatchesIgnoringCase(choice, "constructor") || MatchesIgnoringCase(choice, "__proto__")
    ensures !MatchesIgnoringCase(choice, NextDay) && !MatchesIgnoringCase(choice, SecondDay)
            && !MatchesIgnoringCase(choice, "constructor") && !MatchesIgnoringCase(choice, "__proto__")
            ==> ShippingSelector(choice) == Css(GroundShipping)
    ensures ShippingSelector() == Css(GroundShipping)
  {
    var key := ToLower(choice);
    ToLowerMatchesKey(choice, Ground);
    ToLowerMatchesKey(choice, NextDay);
    ToLowerMatchesKey(choice, SecondDay);
    ToLowerMatchesKey(choice, "constructor");
    ToLowerMatchesKey(choice, "__proto__");
    InheritedAfterLowerCase(ShippingMethodMap, choice);
    ToLowerOfLowerKey(Ground);
  }

  /**
   * Each payment method name selects its option whatever the case of its
   * letters; every other name selects cash on delivery, except the two
   * inherited names, which select no string at all.
   */
  lemma PaymentSelectorByName(choice: string)
    ensures MatchesIgnoringCase(choice, Cod) ==> PaymentSelector(choice) == Css(CashOnDelivery)
    ensures MatchesIgnoringCase(choice, Check) ==> PaymentSelector(choice) == Css(CheckMoneyOrder)
    ensures MatchesIgnoringCase(choice, CreditCard) ==> PaymentSelector(choice) == Css(CreditCardOption)
    ensures MatchesIgnoringCase(choice, PurchaseOrder) ==> PaymentSelector(choice) == Css(PurchaseOrderOption)
    ensures PaymentSelector(choice) == NotAString <==>
              MatchesIgnoringCase(choice, "constructor") || MatchesIgnoringCase(choice, "__proto__")
    ensures !MatchesIgnoringCase(choice, Check) && !MatchesIgnoringCase(choice, CreditCard)
            && !MatchesIgnoringCase(choice, PurchaseOrder)
            && !MatchesIgnoringCase(choice, "constructor") && !MatchesIgnoringCase(choice, "__proto__")
            ==> PaymentSelector(choice) == Css(CashOnDelivery)
    ensures PaymentSelector() == Css(CashOnDelivery)
  {
    ToLowerMatchesKey(choice, Cod);
    ToLowerMatchesKey(choice, Check);
    ToLowerMatchesKey(choice, CreditCard);
    ToLowerMatchesKey(choice, PurchaseOrder);
    ToLowerMatchesKey(choice, "constructor");
    ToLowerMatchesKey(choice, "__proto__");
    InheritedAfterLowerCase(PaymentMethodMap, choice);
    ToLowerOfLowerKey(Cod);
  }

  /** Lower-casing a key that is already lower case changes nothing. */
  lemma ToLowerOfLowerKey(key: string)
    requires IsLowerKey(key)
    ensures ToLower(key) == key
  {
    ToLowerMatchesKey(key, key);
  }

  // ---------------------------------------------------------------------
  // Address forms
  // ---------------------------------------------------------------------

  /** The fields of an address as the test data gives them; each may be missing. */
  datatype Address = Address(
    firstName: Option<string>, lastName: Option<string>, email: Option<string>,
    country: Option<string>, state: Option<string>, city: Option<string>,
    address1: Option<string>, zip: Option<string>, phone: Option<string>)

  /** The selectors of one address form; the shipping form has no email field. */
  datatype FormSelectors = FormSelectors(
    dropdown: string, firstName: string, lastName: string, email: Option<string>,
    country: string, state: string, city: string, address1: string, zip: string, phone: string)

  const BillingSelectors := FormSelectors(
    "#billing-address-select", "#BillingNewAddress_FirstName", "#BillingNewAddress_LastName",
    Some("#BillingNewAddress_Email"), "#BillingNewAddress_CountryId", "#BillingNewAddress_StateProvinceId",
    "#BillingNewAddress_City", "#BillingNewAddress_Address1", "#BillingNewAddress_ZipPostalCode",
    "#BillingNewAddress_PhoneNumber")

  const ShippingSelectors := FormSelectors(
    "#shipping-address-select", "#ShippingNewAddress_FirstName", "#ShippingNewAddress_LastName",
    None, "#ShippingNewAddress_CountryId", "#ShippingNewAddress_StateProvinceId",
    "#ShippingNewAddress_City", "#ShippingNewAddress_Address1", "#ShippingNewAddress_ZipPostalCode",
    "#ShippingNewAddress_PhoneNumber")

  /** One interaction with a form. */
  datatype FormAction =
    | Fill(input: Option<string>, value: Option<string>)  // `fillInput`; `input` is `None` for an undefined selector
    | Choose(field: string, option: Option<string>)       // `selectOption`
    | AwaitVisible(field: string)                         // `waitForSelector(..., {state: 'visible'})`

  /**
   * `_fillAddressForm`: `dropdownOptions` is the number of options of the
   * saved-address dropdown, `None` when the form has none. The dropdown
   * is reset to "new address" only when it offers more than one option.
   * Seven actions are always taken, at most eleven, and the phone number
   * is filled last.
   */
  function FillAddressForm(address: Address, sels: FormSelectors, includeEmail: bool, dropdownOptions: Option<nat>): (acts: seq<FormAction>)
    ensures 7 <= |acts| <= 11
    ensures acts[|acts| - 1] == Fill(Some(sels.phone), address.phone)
  {
    (if dropdownOptions.Some? && dropdownOptions.value > 1 then [Choose(sels.dropdown, Some(""))] else [])
    + [Fill(Some(sels.firstName), address.firstName), Fill(Some(sels.lastName), address.lastName)]
    + (if includeEmail && Truthy(address.email) then [Fill(sels.email, address.email)] else [])
    + [Choose(sels.country, address.country)]
    + (if Truthy(address.state) then [AwaitVisible(sels.state), Choose(sels.state, address.state)] else [])
    + [Fill(Some(sels.city), address.city), Fill(Some(sels.address1), address.address1),
       Fill(Some(sels.zip), address.zip), Fill(Some(sels.phone), address.phone)]
  }

  /**
   * `fillBillingAddress`: the billing form, email included. It fills the
   * email exactly when the address has a non-empty email, waits for and
   * chooses a state exactly when the address has a non-empty state, and
   * always fills the names and phone and chooses the country.
   */
  function FillBillingAddress(address: Address, dropdownOptions: Option<nat>): (acts: seq<FormAction>)
    ensures Fill(Some("#BillingNewAddress_Email"), address.email) in acts <==> Truthy(address.email)
    ensures Choose("#BillingNewAddress_StateProvinceId", address.state) in acts <==> Truthy(address.state)
    ensures Fill(Some("#BillingNewAddress_FirstName"), address.firstName) in acts
    ensures Fill(Some("#BillingNewAddress_PhoneNumber"), address.phone) in acts
    ensures Choose("#BillingNewAddress_CountryId", address.country) in acts
  {
    FormFields(address, BillingSelectors, true, dropdownOptions);
    FillAddressForm(address, BillingSelectors, true, dropdownOptions)
  }

  /**
   * `fillShippingAddress`: the shipping form, email left out, so the
   * undefined email selector is never filled; it chooses a state exactly
   * when the address has one, and always chooses the country.
   */
  function FillShippingAddress(address: Address, dropdownOptions: Option<nat>): (acts: seq<FormAction>)
    ensures forall i :: 0 <= i < |acts| && acts[i].Fill? ==> acts[i].input.Some?
    ensures Choose("#ShippingNewAddress_StateProvinceId", address.state) in acts <==> Truthy(address.state)
    ensures Choose("#ShippingNewAddress_CountryId", address.country) in acts
  {
    FormFields(address, ShippingSelectors, false, dropdownOptions);
    FillAddressForm(address, ShippingSelectors, false, dropdownOptions)
  }

  /** The field rules of one form, for any selectors whose dropdowns and email field are distinct. */
  lemma FormFields(address: Address, sels: FormSelectors, includeEmail: bool, dropdownOptions: Option<nat>)
    requires DistinctFields(sels)
    ensures var acts := FillAddressForm(address, sels, includeEmail, dropdownOptions);
            && (Choose(sels.dropdown, Some("")) in acts <==> dropdownOptions.Some? && dropdownOptions.value > 1)
            && (Fill(sels.email, address.email) in acts <==> includeEmail && Truthy(address.email))
            && (!includeEmail ==> forall i :: 0 <= i < |acts| && acts[i].Fill? ==> acts[i].input.Some?)
            && (AwaitVisible(sels.state) in acts <==> Truthy(address.state))
            && (Choose(sels.state, address.state) in acts <==> Truthy(address.state))
            && Fill(Some(sels.firstName), address.firstName) in acts
            && Fill(Some(sels.lastName), address.lastName) in acts
            && Choose(sels.country, address.country) in acts
            && Fill(Some(sels.city), address.city) in acts
            && Fill(Some(sels.address1), address.address1) in acts
            && Fill(Some(sels.zip), address.zip) in acts
            && Fill(Some(sels.phone), address.phone) in acts
  {
    ResetAndEmailFields(address, sels, includeEmail, dropdownOptions);
    StateFields(address, sels, includeEmail, dropdownOptions);
    if !includeEmail {
      NoUndefinedField(address, sels, dropdownOptions);
    }
    FixedFormFields(address, sels, includeEmail, dropdownOptions);
  }

  /** The six parts `_fillAddressForm` strings together. */
  lemma FormParts(address: Address, sels: FormSelectors, includeEmail: bool, dropdownOptions: Option<nat>)
    returns (reset: seq<FormAction>, names: seq<FormAction>, email: seq<FormAction>,
             country: seq<FormAction>, state: seq<FormAction>, rest: seq<FormAction>)
    ensures FillAddressForm(address, sels, includeEmail, dropdownOptions) == reset + names + email + country + state + rest
    ensures reset == if dropdownOptions.Some? && dropdownOptions.value > 1 then [Choose(sels.dropdown, Some(""))] else []
    ensures names == [Fill(Some(sels.firstName), address.firstName), Fill(Some(sels.lastName), address.lastName)]
    ensures email == if includeEmail && Truthy(address.email) then [Fill(sels.email, address.email)] else []
    ensures country == [Choose(sels.country, address.country)]
    ensures state == if Truthy(address.state) then [AwaitVisible(sels.state), Choose(sels.state, address.state)] else []
    ensures rest == [Fill(Some(sels.city), address.city), Fill(Some(sels.address1), address.address1),
                     Fill(Some(sels.zip), address.zip), Fill(Some(sels.phone), address.phone)]
  {
    reset := if dropdownOptions.Some? && dropdownOptions.value > 1 then [Choose(sels.dropdown, Some(""))] else [];
    names := [Fill(Some(sels.firstName), address.firstName), Fill(Some(sels.lastName), address.lastName)];
    email := if includeEmail && Truthy(address.email) then [Fill(sels.email, address.email)] else [];
    country := [Choose(sels.country, address.country)];
    state := if Truthy(address.state) then [AwaitVisible(sels.state), Choose(sels.state, address.state)] else [];
    rest := [Fill(Some(sels.city), address.city), Fill(Some(sels.address1), address.address1),
             Fill(Some(sels.zip), address.zip), Fill(Some(sels.phone), address.phone)];
  }

  /** The dropdown is reset exactly when it offers more than one option, and the email filled exactly when asked for and present. */
  lemma ResetAndEmailFields(address: Address, sels: FormSelectors, includeEmail: bool, dropdownOptions: Option<nat>)
    requires DistinctFields(sels)
    ensures var acts := FillAddressForm(address, sels, includeEmail, dropdownOptions);
            && (Choose(sels.dropdown, Some("")) in acts <==> dropdownOptions.Some? && dropdownOptions.value > 1)
            && (Fill(sels.email, address.email) in acts <==> includeEmail && Truthy(address.email))
  {
    var reset, names, email, country, state, rest := FormParts(address, sels, includeEmail, dropdownOptions);
    InSix(reset, names, email, country, state, rest, Choose(sels.dropdown, Some("")));
    InSix(reset, names, email, country, state, rest, Fill(sels.email, address.email));
  }

  /** The state is awaited and chosen exactly when the address has a non-empty one. */
  lemma StateFields(address: Address, sels: FormSelectors, includeEmail: bool, dropdownOptions: Option<nat>)
    requires DistinctFields(sels)
    ensures var acts := FillAddressForm(address, sels, includeEmail, dropdownOptions);
            && (AwaitVisible(sels.state) in acts <==> Truthy(address.state))
            && (Choose(sels.state, address.state) in acts <==> Truthy(address.state))
  {
    var reset, names, email, country, state, rest := FormParts(address, sels, includeEmail, dropdownOptions);
    InSix(reset, names, email, country, state, rest, AwaitVisible(sels.state));
    InSix(reset, names, email, country, state, rest, Choose(sels.state, address.state));
  }

  /** Without the email, every field filled has a selector. */
  lemma NoUndefinedField(address: Address, sels: FormSelectors, dropdownOptions: Option<nat>)
    ensures var acts := FillAddressForm(address, sels, false, dropdownOptions);
            forall i :: 0 <= i < |acts| && acts[i].Fill? ==> acts[i].input.Some?
  {
    var acts := FillAddressForm(address, sels, false, dropdownOptions);
    var reset, names, email, country, state, rest := FormParts(address, sels, false, dropdownOptions);
    forall i | 0 <= i < |acts| && acts[i].Fill?
      ensures acts[i].input.Some?
    {
      InSix(reset, names, email, country, state, rest, acts[i]);
    }
  }

  /** The names, country, city, street, zip and phone are always filled. */
  lemma FixedFormFields(address: Address, sels: FormSelectors, includeEmail: bool, dropdownOptions: Option<nat>)
    ensures var acts := FillAddressForm(address, sels, includeEmail, dropdownOptions);
            && Fill(Some(sels.firstName), address.firstName) in acts
            && Fill(Some(sels.lastName), address.lastName) in acts
            && Choose(sels.country, address.country) in acts
            && Fill(Some(sels.city), address.city) in acts
            && Fill(Some(sels.address1), address.address1) in acts
            && Fill(Some(sels.zip), address.zip) in acts
            && Fill(Some(sels.phone), address.phone) in acts
  {
    var reset, names, email, country, state, rest := FormParts(address, sels, includeEmail, dropdownOptions);
    InSix(reset, names, email, country, state, rest, names[0]);
    InSix(reset, names, email, country, state, rest, names[1]);
    InSix(reset, names, email, country, state, rest, country[0]);
    InSix(reset, names, email, country, state, rest, rest[0]);
    InSix(reset, names, email, country, state, rest, rest[1]);
    InSix(reset, names, email, country, state, rest, rest[2]);
    InSix(reset, names, email, country, state, rest, rest[3]);
  }

  /** Membership in six concatenated parts. */
  lemma InSix<T>(a: seq<T>, b: seq<T>, c: seq<T>, d: seq<T>, e: seq<T>, f: seq<T>, x: T)
    ensures x in a + b + c + d + e + f <==> x in a || x in b || x in c || x in d || x in e || x in f
  {
  }

  /** The three drop-downs of a form differ, and the email field is none of the other text fields. */
  predicate DistinctFields(sels: FormSelectors) {
    && sels.dropdown != sels.country && sels.dropdown != sels.state && sels.country != sels.state
    && sels.email !in {Some(sels.firstName), Some(sels.lastName), Some(sels.city), Some(sels.address1), Some(sels.zip), Some(sels.phone)}
  }

  // ---------------------------------------------------------------------
  // completeCheckout
  // ---------------------------------------------------------------------

  /** The payment details a caller may pass. */
  datatype PaymentDetails = PaymentDetails(
    cardType: Option<string>, name: Option<string>, number: Option<string>,
    expMonth: Option<string>, expYear: Option<string>, cvv: Option<string>, poNumber: Option<string>)

  /** What the page shows at the moments `completeCheckout` looks. */
  datatype PageView = PageView(inStorePickupVisible: bool, shippingContinueVisible: bool, shippingMethodVisible: bool)

  /** The steps of the checkout, in the order `completeCheckout` takes them. */
  datatype Step =
    | FillBilling(address: Address)
    | ContinueBilling
    | CheckInStorePickup
    | ContinueShippingAddress
    | SelectShipping(shippingMethod: string)
    | ContinueShippingMethod
    | SelectPayment(paymentMethod: string)
    | ContinuePaymentMethod
    | FillCreditCardInfo(details: PaymentDetails)
    | FillPurchaseOrderNumber(poNumber: string)
    | ContinuePaymentInfo
    | ConfirmOrder

  /** The steps taken, and the error thrown if the checkout stopped. */
  datatype Outcome = Outcome(steps: seq<Step>, error: Option<string>)

  const BillingRequired := "Billing address is required for checkout"
  const CardDetailsRequired := "Credit card details are required when using credit card payment method"
  const PurchaseOrderRequired := "Purchase order number is required when using purchase order payment method"

  /**
   * The steps up to and including the payment-method step: the billing
   * address first, and no confirmation among them.
   */
  function StepsBeforePaymentInfo(billing: Address, shippingMethod: string, paymentMethod: string, view: PageView): (steps: seq<Step>)
    ensures |steps| >= 4 && steps[0] == FillBilling(billing)
    ensures ConfirmOrder !in steps
  {
    [FillBilling(billing), ContinueBilling]
    + (if view.inStorePickupVisible then [CheckInStorePickup] else [])
    + (if view.shippingContinueVisible then [ContinueShippingAddress] else [])
    + (if view.shippingMethodVisible then [SelectShipping(shippingMethod), ContinueShippingMethod] else [])
    + [SelectPayment(paymentMethod), ContinuePaymentMethod]
  }

  /**
   * `completeCheckout`: a missing billing address throws before any step;
   * otherwise the address, shipping and payment steps are taken, then the
   * payment information for the chosen method, then the order is
   * confirmed. Credit card without details, and purchase order without
   * a non-empty order number, throw after the payment-method step.
   */
  function CompleteCheckout(billing: Option<Address>, view: PageView, shippingMethod: string := Ground,
                            paymentMethod: string := Cod, details: Option<PaymentDetails> := None): (o: Outcome)
    ensures billing.None? ==> o == Outcome([], Some(BillingRequired))
    ensures billing.Some? ==> StepsBeforePaymentInfo(billing.value, shippingMethod, paymentMethod, view) <= o.steps
    ensures o.error.None? <==> ConfirmOrder in o.steps
    ensures o.error.None? ==> |o.steps| > 0 && o.steps[|o.steps| - 1] == ConfirmOrder
  {
    if billing.None? then Outcome([], Some(BillingRequired))
    else
      var before := StepsBeforePaymentInfo(billing.value, shippingMethod, paymentMethod, view);
      var choice := ToLower(paymentMethod);
      if choice == CreditCard then
        if details.None? then Outcome(before, Some(CardDetailsRequired))
        else Outcome(before + [FillCreditCardInfo(details.value), ContinuePaymentInfo, ConfirmOrder], None)
      else if choice == PurchaseOrder then
        if details.None? || !Truthy(details.value.poNumber) then Outcome(before, Some(PurchaseOrderRequired))
        else Outcome(before + [FillPurchaseOrderNumber(details.value.poNumber.value), ContinuePaymentInfo, ConfirmOrder], None)
      else
        Outcome(before + [ContinuePaymentInfo, ConfirmOrder], None)
  }

  /** The checkout needs details exactly for these two methods. */
  predicate NeedsCardDetails(paymentMethod: string) {
    MatchesIgnoringCase(paymentMethod, CreditCard)
  }

  predicate NeedsOrderNumber(paymentMethod: string) {
    MatchesIgnoringCase(paymentMethod, PurchaseOrder)
  }

  /**
   * The checkout throws exactly when the billing address is missing, or
   * the method is credit card (in any letter case) without details, or
   * purchase order without a non-empty order number; each case has its
   * own message.
   */
  lemma CheckoutFailsExactlyWhen(billing: Option<Address>, view: PageView, shippingMethod: string,
                                 paymentMethod: string, details: Option<PaymentDetails>)
    ensures var o := CompleteCheckout(billing, view, shippingMethod, paymentMethod, details);
            && (o.error == Some(BillingRequired) <==> billing.None?)
            && (billing.None? ==> o.steps == [])
            && (o.error == Some(CardDetailsRequired) <==>
                  billing.Some? && NeedsCardDetails(paymentMethod) && details.None?)
            && (o.error == Some(PurchaseOrderRequired) <==>
                  billing.Some? && NeedsOrderNumber(paymentMethod) && (details.None? || !Truthy(details.value.poNumber)))
            && (o.error.Some? ==> o.error.value in {BillingRequired, CardDetailsRequired, PurchaseOrderRequired})
  {
    ToLowerMatchesKey(paymentMethod, CreditCard);
    ToLowerMatchesKey(paymentMethod, PurchaseOrder);
  }

  /** The order is confirmed exactly when no error is thrown, and then confirming is the last step. */
  lemma ConfirmedExactlyWithoutError(billing: Option<Address>, view: PageView, shippingMethod: string,
                                     paymentMethod: string, details: Option<PaymentDetails>)
    ensures var o := CompleteCheckout(billing, view, shippingMethod, paymentMethod, details);
            && (ConfirmOrder in o.steps <==> o.error.None?)
            && (o.error.None? ==> |o.steps| > 0 && o.steps[|o.steps| - 1] == ConfirmOrder)
  {
    var o := CompleteCheckout(billing, view, shippingMethod, paymentMethod, details);
    if billing.Some? {
      var before := StepsBeforePaymentInfo(billing.value, shippingMethod, paymentMethod, view);
      assert ConfirmOrder !in before;
    }
  }

  /**
   * Cash on delivery, check and any unrecognised method fill no payment
   * information: they continue straight to confirmation.
   */
  lemma OtherMethodsFillNoPaymentInfo(billing: Address, view: PageView, shippingMethod: string,
                                      paymentMethod: string, details: Option<PaymentDetails>)
    requires !NeedsCardDetails(paymentMethod) && !NeedsOrderNumber(paymentMethod)
    ensures var o := CompleteCheckout(Some(billing), view, shippingMethod, paymentMethod, details);
            && o.error.None?
            && o.steps == StepsBeforePaymentInfo(billing, shippingMethod, paymentMethod, view) + [ContinuePaymentInfo, ConfirmOrder]
            && forall i :: 0 <= i < |o.steps| ==> !o.steps[i].FillCreditCardInfo? && !o.steps[i].FillPurchaseOrderNumber?
  {
    ToLowerMatchesKey(paymentMethod, CreditCard);
    ToLowerMatchesKey(paymentMethod, PurchaseOrder);
    var before := StepsBeforePaymentInfo(billing, shippingMethod, paymentMethod, view);
    var steps := before + [ContinuePaymentInfo, ConfirmOrder];
    assert CompleteCheckout(Some(billing), view, shippingMethod, paymentMethod, details).steps == steps;
    NoPaymentInfoBefore(billing, shippingMethod, paymentMethod, view);
    forall i | 0 <= i < |steps|
      ensures !steps[i].FillCreditCardInfo? && !steps[i].FillPurchaseOrderNumber?
    {
      if i < |before| {
        assert steps[i] == before[i];
      }
    }
  }

  /** The steps before the payment information fill no payment information. */
  lemma NoPaymentInfoBefore(billing: Address, shippingMethod: string, paymentMethod: string, view: PageView)
    ensures var before := StepsBeforePaymentInfo(billing, shippingMethod, paymentMethod, view);
            forall i :: 0 <= i < |before| ==> !before[i].FillCreditCardInfo? && !before[i].FillPurchaseOrderNumber?
  {
  }

  /** The shipping method is chosen only when the shipping-method step is showing. */
  lemma ShippingChosenOnlyWhenShown(billing: Address, view: PageView, shippingMethod: string,
                                    paymentMethod: string, details: Option<PaymentDetails>)
    ensures var o := CompleteCheckout(Some(billing), view, shippingMethod, paymentMethod, details);
            SelectShipping(shippingMethod) in o.steps <==> view.shippingMethodVisible
  {
    var before := StepsBeforePaymentInfo(billing, shippingMethod, paymentMethod, view);
    if !view.shippingMethodVisible {
      assert forall i :: 0 <= i < |before| ==> !before[i].SelectShipping?;
    }
  }
}

=== FILE: helpers.dfy ===
/**
 * The pure helpers of the test utilities: environment-variable
 * placeholders in test data, price comparison with a tolerance, and the
 * expected total of a list of priced items.
 */
module Helpers {
  import opened Values
  import opened JsText
  import opened JsNumber

  // ---------------------------------------------------------------------
  // Test data and the environment
  // ---------------------------------------------------------------------

  /** A value as `JSON.parse` yields it. */
  datatype Json =
    | JString(s: string)
    | JArray(items: seq<Json>)
    | JObject(fields: map<string, Json>)
    | JNumber(n: real)
    | JBool(b: bool)
    | JNull

  /** The process environment: variable name to value; unset names are absent. */
  type Env = map<string, string>

  /** `process.env[name] || ''`: the value of a set variable, "" for an unset one. */
  function Lookup(env: Env, name: string): (v: string)
    ensures name in env ==> v == env[name]
    ensures name !in env ==> v == ""
  {
    if name in env && env[name] != "" then env[name] else ""
  }

  // ---------------------------------------------------------------------
  // Placeholders: /\$\{([^}]+)\}/g
  // ---------------------------------------------------------------------

  /** A single match of the placeholder pattern: "${", at least one character other than '}', then '}'. */
  predicate IsPlaceholder(m: string) {
    && |m| >= 4 && m[0] == '$' && m[1] == '{' && m[|m| - 1] == '}'
    && forall k :: 2 <= k < |m| - 1 ==> m[k] != '}'
  }

  /** The position of the first '}' in `s`, if any. */
  function FirstBrace(s: string): (k: Option<nat>)
    ensures k.Some? ==> k.value < |s| && s[k.value] == '}'
    ensures k.Some? ==> forall j :: 0 <= j < k.value ==> s[j] != '}'
    ensures k.None? ==> forall j :: 0 <= j < |s| ==> s[j] != '}'
    decreases |s|
  {
    if |s| == 0 then None
    else if s[0] == '}' then Some(0)
    else match FirstBrace(s[1..])
      case None => None
      case Some(k) => Some(k + 1)
  }

  /**
   * The length of the placeholder match at the very start of `s`, if the
   * pattern matches there: "${" followed by a first '}' that is not
   * immediately after it.
   */
  function PlaceholderLength(s: string): (n: Option<nat>)
    ensures n.Some? ==> 4 <= n.value <= |s| && IsPlaceholder(s[..n.value])
    ensures n.None? && |s| >= 2 && s[0] == '$' && s[1] == '{' ==>
              forall m :: 4 <= m <= |s| ==> !IsPlaceholder(s[..m])
  {
    if |s| >= 2 && s[0] == '$' && s[1] == '{' then
      match FirstBrace(s[2..])
      case Some(k) =>
        if k > 0 then
          var m := s[..k + 3];
          assert forall j :: 2 <= j < k + 2 ==> m[j] == s[2..][j - 2];
          Some(k + 3)
        else
          assert forall m :: 4 <= m <= |s| ==> s[..m][2] == s[2..][0];
          None
      case None =>
        assert forall m, j :: 4 <= m <= |s| && 2 <= j < m ==> s[..m][j] == s[2..][j - 2];
        None
    else None
  }

  /** `s.match(/\$\{([^}]+)\}/g)`: the matches, left to right, each search resuming after the previous match. */
  function Placeholders(s: string): (ms: seq<string>)
    ensures forall j :: 0 <= j < |ms| ==> IsPlaceholder(ms[j])
    decreases |s|
  {
    if |s| == 0 then []
    else match PlaceholderLength(s)
      case Some(n) => [s[..n]] + Placeholders(s[n..])
      case None => Placeholders(s[1..])
  }

  /** Text in which no slice is a placeholder match: "$5", "${}" and "${open" are such text. */
  predicate NoPlaceholder(s: string) {
    forall i, j :: 0 <= i <= j <= |s| ==> !IsPlaceholder(s[i..j])
  }

  /** Every match starts with '$', so text without '$' has no placeholder. */
  lemma DollarFreeHasNoPlaceholder(s: string)
    requires '$' !in s
    ensures NoPlaceholder(s)
  {
    forall i, j | 0 <= i <= j <= |s| && |s[i..j]| > 0
      ensures s[i..j][0] != '$'
    {
      assert s[i..j][0] == s[i];
    }
  }

  /** A slice of the tail is a slice of the text, so the tail of placeholder-free text is placeholder-free. */
  lemma NoPlaceholderInTail(s: string)
    requires |s| > 0 && NoPlaceholder(s)
    ensures NoPlaceholder(s[1..])
  {
    forall i, j | 0 <= i <= j <= |s| - 1
      ensures !IsPlaceholder(s[1..][i..j])
    {
      assert s[1..][i..j] == s[i + 1..j + 1];
    }
  }

  /** Placeholder-free text does not start with a match. */
  lemma NoPlaceholderAtStart(s: string)
    requires NoPlaceholder(s)
    ensures PlaceholderLength(s).None?
  {
    assert forall n :: 0 <= n <= |s| ==> s[..n] == s[0..n];
  }

  /** The scan is complete: it finds no match exactly in text without a placeholder. */
  lemma {:induction false} PlaceholdersWithoutPlaceholder(s: string)
    requires NoPlaceholder(s)
    ensures Placeholders(s) == []
    decreases |s|
  {
    if |s| > 0 {
      NoPlaceholderAtStart(s);
      NoPlaceholderInTail(s);
      PlaceholdersWithoutPlaceholder(s[1..]);
    }
  }

  /** The one-pass substitution copies text without a placeholder. */
  lemma {:induction false} SubstituteWithoutPlaceholder(s: string, env: Env)
    requires NoPlaceholder(s)
    ensures SubstitutePlaceholders(s, env) == s
    decreases |s|
  {
    if |s| > 0 {
      NoPlaceholderAtStart(s);
      NoPlaceholderInTail(s);
      SubstituteWithoutPlaceholder(s[1..], env);
      assert s == [s[0]] + s[1..];
    }
  }

  /** `match.slice(2, -1)`: the variable name inside a placeholder. */
  function NameOf(m: string): string {
    if |m| >= 3 then m[2..|m| - 1] else ""
  }

  // ---------------------------------------------------------------------
  // replaceEnvVariables
  // ---------------------------------------------------------------------

  /** The `forEach` over the matches: each one in turn replaced, by `String.prototype.replace`, in the text built so far. */
  function ReplaceEach(result: string, matches: seq<string>, env: Env): string
    decreases |matches|
  {
    if |matches| == 0 then result
    else
      var m := matches[0];
      ReplaceEach(ReplaceFirst(result, m, Lookup(env, NameOf(m))), matches[1..], env)
  }

  /**
   * The string case of `replaceEnvVariables`; text without a placeholder,
   * in particular text without '$', comes back as it is.
   */
  function ReplaceEnvString(s: string, env: Env): (r: string)
    ensures '$' !in s ==> r == s
    ensures NoPlaceholder(s) ==> r == s
  {
    var matches := Placeholders(s);
    assert '$' !in s ==> matches == [] by {
      if '$' !in s {
        PlaceholdersSkipPlainText(s, "");
        assert s + "" == s;
      }
    }
    assert NoPlaceholder(s) ==> matches == [] by {
      if NoPlaceholder(s) {
        PlaceholdersWithoutPlaceholder(s);
      }
    }
    if |matches| == 0 then s else ReplaceEach(s, matches, env)
  }

  /**
   * The one key `result[key] = …` does not create: assigning to
   * "__proto__" calls the setter inherited from `Object.prototype`, which
   * replaces the prototype of the result (or ignores a value that is not
   * an object) instead of adding an own property.
   */
  const ProtoKey := "__proto__"

  /**
   * Two values with the same structure: same kind, same array lengths,
   * the same object keys except that "__proto__" is not carried over,
   * same non-string scalars.
   */
  predicate SameShape(a: Json, b: Json) {
    match (a, b)
    case (JString(_), JString(_)) => true
    case (JArray(xs), JArray(ys)) =>
      |xs| == |ys| && forall i :: 0 <= i < |xs| ==> SameShape(xs[i], ys[i])
    case (JObject(f), JObject(g)) =>
      g.Keys == f.Keys - {ProtoKey} && forall k :: k in g ==> SameShape(f[k], g[k])
    case _ => a == b
  }

  /**
   * `replaceEnvVariables`: strings have their placeholders replaced,
   * arrays and objects are rebuilt element by element, everything else is
   * returned as it is. A "__proto__" key of the data is not copied.
   */
  function ReplaceEnvVariables(v: Json, env: Env): (r: Json)
    ensures SameShape(v, r)
    ensures v.JString? ==> r == JString(ReplaceEnvString(v.s, env))
    ensures v.JArray? ==> forall i :: 0 <= i < |v.items| ==> r.items[i] == ReplaceEnvVariables(v.items[i], env)
    ensures v.JObject? ==> ProtoKey !in r.fields
    ensures v.JObject? ==> forall k :: k in v.fields && k != ProtoKey ==> r.fields[k] == ReplaceEnvVariables(v.fields[k], env)
    decreases v
  {
    match v
    case JString(s) => JString(ReplaceEnvString(s, env))
    case JArray(items) => JArray(seq(|items|, i requires 0 <= i < |items| => ReplaceEnvVariables(items[i], env)))
    case JObject(fields) => JObject(map k | k in fields && k != ProtoKey :: ReplaceEnvVariables(fields[k], env))
    case _ => v
  }

  // ---------------------------------------------------------------------
  // The substitution the helper evidently intends
  // ---------------------------------------------------------------------

  /** Every placeholder match replaced, in one left-to-right pass, by its variable's value taken literally. */
  function SubstitutePlaceholders(s: string, env: Env): string
    decreases |s|
  {
    if |s| == 0 then ""
    else match PlaceholderLength(s)
      case Some(n) => Lookup(env, NameOf(s[..n])) + SubstitutePlaceholders(s[n..], env)
      case None => [s[0]] + SubstitutePlaceholders(s[1..], env)
  }

  // ---------------------------------------------------------------------
  // Templates: literal text interleaved with placeholders
  // ---------------------------------------------------------------------

  /** The placeholder for variable `name`. */
  function Placeholder(name: string): string {
    "${" + name + "}"
  }

  /** `lits[0] ${names[0]} lits[1] ... ${names[n-1]} lits[n]`. */
  function Render(lits: seq<string>, names: seq<string>): (s: string)
    requires |lits| == |names| + 1
    decreases |names|
  {
    if |names| == 0 then lits[0]
    else lits[0] + (Placeholder(names[0]) + Render(lits[1..], names[1..]))
  }

  /** `lits[0] vals[0] lits[1] ... vals[n-1] lits[n]`. */
  function Interleave(lits: seq<string>, vals: seq<string>): string
    requires |lits| == |vals| + 1
    decreases |vals|
  {
    if |vals| == 0 then lits[0]
    else lits[0] + (vals[0] + Interleave(lits[1..], vals[1..]))
  }

  /** The template's literals contain no '$', and every name is non-empty and free of '}'. */
  predicate IsTemplate(lits: seq<string>, names: seq<string>) {
    && |lits| == |names| + 1
    && (forall i :: 0 <= i < |lits| ==> '$' !in lits[i])
    && (forall i :: 0 <= i < |names| ==> |names[i]| > 0 && '}' !in names[i])
  }

  /** The values of the named variables. */
  function ValuesOf(names: seq<string>, env: Env): (vals: seq<string>)
    ensures |vals| == |names|
    ensures forall i :: 0 <= i < |names| ==> vals[i] == Lookup(env, names[i])
  {
    seq(|names|, i requires 0 <= i < |names| => Lookup(env, names[i]))
  }

  /** The placeholders of the named variables. */
  function PlaceholdersOf(names: seq<string>): (ms: seq<string>)
    ensures |ms| == |names|
    ensures forall i :: 0 <= i < |names| ==> ms[i] == Placeholder(names[i])
  {
    seq(|names|, i requires 0 <= i < |names| => Placeholder(names[i]))
  }

  /** A placeholder is matched whole at the start of the text, and names its variable. */
  lemma PlaceholderIsMatched(name: string, rest: string)
    requires |name| > 0 && '}' !in name
    ensures PlaceholderLength(Placeholder(name) + rest) == Some(|name| + 3)
    ensures (Placeholder(name) + rest)[..|name| + 3] == Placeholder(name)
    ensures (Placeholder(name) + rest)[|name| + 3..] == rest
    ensures NameOf(Placeholder(name)) == name
  {
    var s := Placeholder(name) + rest;
    assert s[2..] == name + ("}" + rest);
    FirstBraceAfter(name, "}" + rest);
  }

  /** The first '}' of `x + y` is that of `y` when `x` has none. */
  lemma {:induction false} FirstBraceAfter(x: string, y: string)
    requires '}' !in x && |y| > 0 && y[0] == '}'
    ensures FirstBrace(x + y) == Some(|x|)
    decreases |x|
  {
    if |x| > 0 {
      assert (x + y)[1..] == x[1..] + y;
      assert x[0] in x;
      assert forall c :: c in x[1..] ==> c in x;
      FirstBraceAfter(x[1..], y);
    } else {
      assert x + y == y;
    }
  }

  /** Scanning skips a prefix without '$'. */
  lemma {:induction false} PlaceholdersSkipPlainText(x: string, t: string)
    requires '$' !in x
    ensures Placeholders(x + t) == Placeholders(t)
    decreases |x|
  {
    if |x| > 0 {
      assert x[0] in x;
      assert (x + t)[0] == x[0];
      assert (x + t)[1..] == x[1..] + t;
      assert forall c :: c in x[1..] ==> c in x;
      PlaceholdersSkipPlainText(x[1..], t);
    } else {
      assert x + t == t;
    }
  }

  /** The step of `SubstituteSkipsPlainText` that puts the first plain character back in front. */
  lemma PrependOne<T>(a: T, b: seq<T>, c: seq<T>)
    ensures [a] + (b + c) == ([a] + b) + c
  {
  }

  /** The one-pass substitution copies a prefix without '$'. */
  lemma {:induction false} SubstituteSkipsPlainText(x: string, t: string, env: Env)
    requires '$' !in x
    ensures SubstitutePlaceholders(x + t, env) == x + SubstitutePlaceholders(t, env)
    decreases |x|
  {
    if |x| > 0 {
      var s := x + t;
      assert x[0] in x;
      assert s[0] == x[0];
      assert PlaceholderLength(s).None?;
      assert s[1..] == x[1..] + t;
      assert SubstitutePlaceholders(s, env) == [x[0]] + SubstitutePlaceholders(x[1..] + t, env);
      assert forall c :: c in x[1..] ==> c in x;
      SubstituteSkipsPlainText(x[1..], t, env);
      assert x == [x[0]] + x[1..];
      PrependOne(x[0], x[1..], SubstitutePlaceholders(t, env));
    } else {
      assert x + t == t;
    }
  }

  /** The matches found in a rendered template are its placeholders, in order. */
  lemma {:induction false} PlaceholdersOfTemplate(lits: seq<string>, names: seq<string>)
    requires IsTemplate(lits, names)
    ensures Placeholders(Render(lits, names)) == PlaceholdersOf(names)
    decreases |names|
  {
    if |names| == 0 {
      PlaceholdersSkipPlainText(lits[0], "");
      assert lits[0] + "" == lits[0];
    } else {
      var rest := Render(lits[1..], names[1..]);
      var ph := Placeholder(names[0]);
      PlaceholdersSkipPlainText(lits[0], ph + rest);
      PlaceholderIsMatched(names[0], rest);
      assert IsTemplate(lits[1..], names[1..]);
      PlaceholdersOfTemplate(lits[1..], names[1..]);
      assert PlaceholdersOf(names) == [ph] + PlaceholdersOf(names[1..]);
    }
  }

  /** The one-pass substitution puts each variable's value in place of its placeholder, whatever the values contain. */
  lemma {:induction false} SubstituteTemplate(lits: seq<string>, names: seq<string>, env: Env)
    requires IsTemplate(lits, names)
    ensures SubstitutePlaceholders(Render(lits, names), env) == Interleave(lits, ValuesOf(names, env))
    decreases |names|
  {
    if |names| == 0 {
      SubstituteSkipsPlainText(lits[0], "", env);
      assert lits[0] + "" == lits[0];
    } else {
      var rest := Render(lits[1..], names[1..]);
      var ph := Placeholder(names[0]);
      SubstituteSkipsPlainText(lits[0], ph + rest, env);
      PlaceholderIsMatched(names[0], rest);
      assert IsTemplate(lits[1..], names[1..]);
      SubstituteTemplate(lits[1..], names[1..], env);
      assert ValuesOf(names, env)[1..] == ValuesOf(names[1..], env);
    }
  }

  /**
   * The sequential replacement, started behind a '$'-free prefix `p`,
   * puts each value in place of its placeholder when no value contains
   * '$'.
   */
  lemma {:induction false} ReplaceEachOfTemplate(p: string, lits: seq<string>, names: seq<string>, env: Env)
    requires IsTemplate(lits, names) && '$' !in p
    requires forall i :: 0 <= i < |names| ==> '$' !in Lookup(env, names[i])
    ensures ReplaceEach(p + Render(lits, names), PlaceholdersOf(names), env) == p + Interleave(lits, ValuesOf(names, env))
    decreases |names|
  {
    if |names| > 0 {
      var rest := Render(lits[1..], names[1..]);
      var v := Lookup(env, names[0]);
      var vals := ValuesOf(names, env);
      var p' := p + lits[0] + v;
      ReplaceStep(p, lits[0], names[0], rest, v);
      assert IsTemplate(lits[1..], names[1..]);
      assert PlaceholdersOf(names)[1..] == PlaceholdersOf(names[1..]);
      assert vals[1..] == ValuesOf(names[1..], env);
      ReplaceEachOfTemplate(p', lits[1..], names[1..], env);
      TemplatePartsFlattened(p, lits[0], v, Interleave(lits[1..], vals[1..]));
    } else {
      assert ReplaceEach(p + lits[0], [], env) == p + lits[0];
    }
  }

  /** One replacement step on a template: the first placeholder gives way to its '$'-free value. */
  lemma ReplaceStep(p: string, lit: string, name: string, rest: string, v: string)
    requires '$' !in p && '$' !in lit && '$' !in v
    requires |name| > 0 && '}' !in name
    ensures '$' !in p + lit + v
    ensures NameOf(Placeholder(name)) == name
    ensures ReplaceFirst(p + (lit + (Placeholder(name) + rest)), Placeholder(name), v) == p + lit + v + rest
  {
    var ph := Placeholder(name);
    var x := p + lit;
    assert '$' !in x by {
      assert forall c :: c in x ==> c in p || c in lit;
    }
    assert '$' !in x + v by {
      assert forall c :: c in x + v ==> c in x || c in v;
    }
    PlaceholderIsMatched(name, rest);
    TemplatePartsFlattened(p, lit, ph, rest);
    ReplaceFirstBehindDollarFreePrefix(x, ph, rest, v);
    SubstitutionOfPlainText(v, ph, x, rest);
  }

  /** A rendered template, flattened: the text so far, a literal, a value or placeholder, and the rest. */
  lemma TemplatePartsFlattened<T>(a: seq<T>, b: seq<T>, c: seq<T>, d: seq<T>)
    ensures a + (b + (c + d)) == a + b + c + d
  {
  }

  /**
   * On a template whose literals and variable values are free of '$',
   * `replaceEnvVariables` puts each variable's value in place of its
   * placeholder, as the one-pass substitution does.
   */
  lemma ReplaceEnvStringOfTemplate(lits: seq<string>, names: seq<string>, env: Env)
    requires IsTemplate(lits, names)
    requires forall i :: 0 <= i < |names| ==> '$' !in Lookup(env, names[i])
    ensures ReplaceEnvString(Render(lits, names), env) == Interleave(lits, ValuesOf(names, env))
    ensures ReplaceEnvString(Render(lits, names), env) == SubstitutePlaceholders(Render(lits, names), env)
  {
    PlaceholdersOfTemplate(lits, names);
    ReplaceEachOfTemplate("", lits, names, env);
    assert "" + Render(lits, names) == Render(lits, names);
    assert "" + Interleave(lits, ValuesOf(names, env)) == Interleave(lits, ValuesOf(names, env));
    SubstituteTemplate(lits, names, env);
    if |names| == 0 {
      assert ReplaceEach(Render(lits, names), [], env) == Render(lits, names);
    }
  }

  /**
   * Text without a placeholder comes back unchanged, from both the page
   * helper and the one-pass substitution, and the scan finds no match in it.
   */
  lemma ReplaceEnvStringWithoutPlaceholders(s: string, env: Env)
    requires NoPlaceholder(s)
    ensures Placeholders(s) == []
    ensures ReplaceEnvString(s, env) == s
    ensures SubstitutePlaceholders(s, env) == s
  {
    PlaceholdersWithoutPlaceholder(s);
    SubstituteWithoutPlaceholder(s, env);
  }

  // ---------------------------------------------------------------------
  // Where the sequential replacement departs from the one-pass substitution
  // ---------------------------------------------------------------------

  /** A text that is a single placeholder: one match, replaced by the value read as a `replace` template. */
  lemma SinglePlaceholder(name: string, env: Env)
    requires |name| > 0 && '}' !in name
    ensures Placeholders(Placeholder(name)) == [Placeholder(name)]
    ensures ReplaceEnvString(Placeholder(name), env) == Substitution(Lookup(env, name), Placeholder(name), "", "")
    ensures SubstitutePlaceholders(Placeholder(name), env) == Lookup(env, name)
  {
    var ph := Placeholder(name);
    var v := Lookup(env, name);
    PlaceholderIsMatched(name, "");
    assert ph + "" == ph;
    assert ph[|name| + 3..] == "";
    ReplaceFirstBehindDollarFreePrefix("", ph, "", v);
    assert "" + ph + "" == ph;
    assert "" + Substitution(v, ph, "", "") + "" == Substitution(v, ph, "", "");
    assert Placeholders(ph) == [ph];
    assert [ph][1..] == [];
    assert ph[..|name| + 3] == ph;
    assert SubstitutePlaceholders(ph[|name| + 3..], env) == "";
    assert SubstitutePlaceholders(ph, env) == Lookup(env, NameOf(ph)) + "";
    assert v + "" == v;
    assert ReplaceEach(ph, [ph], env) == ReplaceEach(ReplaceFirst(ph, ph, v), [], env);
  }

  /**
   * A value containing "$$" loses a '$': with PASSWORD set to "pa$$w0rd",
   * "${PASSWORD}" becomes "pa$w0rd", because `replace` reads "$$" in its
   * replacement text as an escaped '$'. The one-pass substitution keeps
   * the value as it is.
   */
  lemma DollarPairInValueIsHalved(name: string, env: Env)
    requires name == "PASSWORD"
    requires env == map[name := "pa$$w0rd"]
    ensures ReplaceEnvString(Placeholder(name), env) == "pa$w0rd"
    ensures SubstitutePlaceholders(Placeholder(name), env) == "pa$$w0rd"
  {
    assert "pa" + "$$" + "w0rd" == "pa$$w0rd";
    assert "pa" + "$" + "w0rd" == "pa$w0rd";
    DollarPairInValue(name, env, "pa", "w0rd");
  }

  /** A value x + "$$" + y, with '$'-free x and y, comes out as x + "$" + y. */
  lemma DollarPairInValue(name: string, env: Env, x: string, y: string)
    requires |name| > 0 && '}' !in name
    requires '$' !in x && '$' !in y
    requires name in env && env[name] == x + "$$" + y
    ensures ReplaceEnvString(Placeholder(name), env) == x + "$" + y
    ensures SubstitutePlaceholders(Placeholder(name), env) == x + "$$" + y
  {
    SinglePlaceholder(name, env);
    DollarPairIsEscaped(x, y, Placeholder(name));
  }

  /** In a `replace` template, "$$" between '$'-free texts stands for one '$'. */
  lemma DollarPairIsEscaped(x: string, y: string, matched: string)
    requires '$' !in x && '$' !in y
    ensures Substitution(x + "$$" + y, matched, "", "") == x + "$" + y
  {
    var t := "$$" + y;
    SubstitutionAfterPlainText(x, t, matched);
    assert x + "$$" + y == x + t;
    assert t[2..] == y;
    SubstitutionOfPlainText(y, matched, "", "");
  }

  /** A '$'-free head of a template is copied as it stands. */
  lemma {:induction false} SubstitutionAfterPlainText(x: string, t: string, matched: string)
    requires '$' !in x
    ensures Substitution(x + t, matched, "", "") == x + Substitution(t, matched, "", "")
    decreases |x|
  {
    if |x| > 0 {
      assert x[0] in x;
      assert (x + t)[0] == x[0];
      assert (x + t)[1..] == x[1..] + t;
      assert forall c :: c in x[1..] ==> c in x;
      SubstitutionAfterPlainText(x[1..], t, matched);
      assert [x[0]] + (x[1..] + Substitution(t, matched, "", "")) == x + Substitution(t, matched, "", "");
    } else {
      assert x + t == t;
    }
  }

  /**
   * A value that itself holds a later placeholder captures that later
   * replacement: with A set to "${B}" and B to "v", "${A}${B}" becomes
   * "v${B}", because the second `replace` finds the "${B}" that the first
   * one inserted. The one-pass substitution gives "${B}v".
   */
  lemma PlaceholderInValueIsReplacedAgain(x: string, y: string, w: string, env: Env)
    requires |x| > 0 && '}' !in x && |y| > 0 && '}' !in y && '$' !in y && '$' !in w
    requires Lookup(env, x) == Placeholder(y) && Lookup(env, y) == w
    ensures ReplaceEnvString(Placeholder(x) + Placeholder(y), env) == w + Placeholder(y)
    ensures SubstitutePlaceholders(Placeholder(x) + Placeholder(y), env) == Placeholder(y) + w
  {
    var a, b := Placeholder(x), Placeholder(y);
    TwoPlaceholders(x, y);
    SubstituteTwoPlaceholders(x, y, env);
    calc {
      ReplaceEnvString(a + b, env);
      ReplaceEach(a + b, [a, b], env);
      { assert [a, b][1..] == [b]; }
      ReplaceEach(ReplaceFirst(a + b, a, b), [b], env);
      { ReplaceFirstBehindDollarFreePrefix("", a, b, b);
        SubstitutionOfPlaceholder(y, a, "", b);
        NothingBeforeFirstMatch(a, b);
        NothingBeforeFirstMatch(b, b); }
      ReplaceEach(b + b, [b], env);
      { assert [b][1..] == []; }
      ReplaceFirst(b + b, b, w);
      { ReplaceFirstBehindDollarFreePrefix("", b, b, w);
        SubstitutionOfPlainText(w, b, "", b);
        NothingBeforeFirstMatch(b, b);
        NothingBeforeFirstMatch(w, b); }
      w + b;
    }
  }

  /**
   * A '$' in the literal text can join a value into a placeholder that a
   * later step replaces: with B set to "{A}" and A to "x", "$${B}${A}"
   * becomes "${A}${A}" after the first step and "x${A}" after the second,
   * although both values are free of '$'. The one-pass substitution gives
   * "${A}x".
   */
  lemma DollarBeforePlaceholderJoinsValue(x: string, y: string, w: string, env: Env)
    requires |x| > 0 && '}' !in x && '$' !in x && |y| > 0 && '}' !in y && '$' !in w
    requires Lookup(env, y) == "{" + x + "}" && Lookup(env, x) == w
    ensures ReplaceEnvString("$" + Placeholder(y) + Placeholder(x), env) == w + Placeholder(x)
    ensures SubstitutePlaceholders("$" + Placeholder(y) + Placeholder(x), env) == Placeholder(x) + w
  {
    var a, b := Placeholder(y), Placeholder(x);
    var v := "{" + x + "}";
    ValueAfterDollarIsPlaceholder(x);
    ScanBehindLoneDollar(y, x);
    calc {
      ReplaceEnvString("$" + a + b, env);
      ReplaceEach("$" + a + b, [a, b], env);
      { assert [a, b][1..] == [b]; }
      ReplaceEach(ReplaceFirst("$" + a + b, a, v), [b], env);
      { ReplaceFirstBehindLoneDollar(a, b, v);
        SubstitutionOfPlainText(v, a, "$", b); }
      ReplaceEach(b + b, [b], env);
      { assert [b][1..] == []; }
      ReplaceFirst(b + b, b, w);
      { ReplaceFirstBehindDollarFreePrefix("", b, b, w);
        SubstitutionOfPlainText(w, b, "", b);
        NothingBeforeFirstMatch(b, b);
        NothingBeforeFirstMatch(w, b); }
      w + b;
    }
    SubstituteJoinedValue(x, y, env);
  }

  /** The braced name, free of '$', becomes a placeholder once a '$' stands before it. */
  lemma ValueAfterDollarIsPlaceholder(x: string)
    requires '$' !in x
    ensures '$' !in "{" + x + "}"
    ensures "$" + ("{" + x + "}") == Placeholder(x)
  {
    assert forall c :: c in "{" + x + "}" ==> c == '{' || c in x || c == '}';
  }

  /** Behind a lone '$', two adjacent placeholders are still the two matches. */
  lemma ScanBehindLoneDollar(y: string, x: string)
    requires |y| > 0 && '}' !in y && |x| > 0 && '}' !in x
    ensures Placeholders("$" + Placeholder(y) + Placeholder(x)) == [Placeholder(y), Placeholder(x)]
    ensures NameOf(Placeholder(y)) == y && NameOf(Placeholder(x)) == x
  {
    var s := "$" + Placeholder(y) + Placeholder(x);
    assert s[1] == '$' && s[1..] == Placeholder(y) + Placeholder(x);
    assert PlaceholderLength(s).None?;
    TwoPlaceholders(y, x);
  }

  /** The one-pass substitution keeps the '$' and puts both values in place. */
  lemma SubstituteJoinedValue(x: string, y: string, env: Env)
    requires |x| > 0 && '}' !in x && '$' !in x && |y| > 0 && '}' !in y
    requires Lookup(env, y) == "{" + x + "}"
    ensures SubstitutePlaceholders("$" + Placeholder(y) + Placeholder(x), env) == Placeholder(x) + Lookup(env, x)
  {
    var a, b, w := Placeholder(y), Placeholder(x), Lookup(env, x);
    assert "$" + a + b == "$" + (a + b);
    SubstituteBehindLoneDollar(a + b, env);
    SubstituteTwoPlaceholders(y, x, env);
    ValueAfterDollarIsPlaceholder(x);
    assert "$" + (Lookup(env, y) + w) == ("$" + Lookup(env, y)) + w;
  }

  /** A '$' followed by another '$' starts no match, so the one-pass substitution copies it. */
  lemma SubstituteBehindLoneDollar(t: string, env: Env)
    requires |t| > 0 && t[0] == '$'
    ensures SubstitutePlaceholders("$" + t, env) == "$" + SubstitutePlaceholders(t, env)
  {
    var s := "$" + t;
    assert s[1] == '$' && s[1..] == t;
    assert PlaceholderLength(s).None?;
  }

  /** A match at the very start has an empty text before it, which the replacement leaves out. */
  lemma NothingBeforeFirstMatch<T>(x: seq<T>, y: seq<T>)
    ensures [] + x + y == x + y
  {
  }

  /** Two placeholders side by side are two matches. */
  lemma TwoPlaceholders(x: string, y: string)
    requires |x| > 0 && '}' !in x && |y| > 0 && '}' !in y
    ensures Placeholders(Placeholder(x) + Placeholder(y)) == [Placeholder(x), Placeholder(y)]
    ensures NameOf(Placeholder(x)) == x && NameOf(Placeholder(y)) == y
  {
    var a, b := Placeholder(x), Placeholder(y);
    PlaceholderIsMatched(x, b);
    PlaceholderIsMatched(y, "");
    assert b + "" == b;
    assert Placeholders(b) == [b] + Placeholders(b[|y| + 3..]);
    assert b[|y| + 3..] == "";
  }

  /** The one-pass substitution of two placeholders side by side. */
  lemma SubstituteTwoPlaceholders(x: string, y: string, env: Env)
    requires |x| > 0 && '}' !in x && |y| > 0 && '}' !in y
    ensures SubstitutePlaceholders(Placeholder(x) + Placeholder(y), env) == Lookup(env, x) + Lookup(env, y)
  {
    var a, b := Placeholder(x), Placeholder(y);
    PlaceholderIsMatched(x, b);
    SinglePlaceholder(y, env);
  }

  /** A placeholder in a `replace` template is copied as it stands: only "$$", "$&", "$`" and "$'" are special. */
  lemma SubstitutionOfPlaceholder(name: string, matched: string, before: string, after: string)
    requires '$' !in name
    ensures Substitution(Placeholder(name), matched, before, after) == Placeholder(name)
  {
    var t := Placeholder(name);
    assert t[1..] == "{" + name + "}";
    assert '$' !in t[1..] by {
      assert forall c :: c in t[1..] ==> c == '{' || c == '}' || c in name;
    }
    SubstitutionOfPlainText(t[1..], matched, before, after);
    assert [t[0]] + t[1..] == t;
  }

  /** No string anywhere in the value contains '$'. */
  predicate DollarFree(v: Json)
    decreases v
  {
    match v
    case JString(s) => '$' !in s
    case JArray(items) => forall i :: 0 <= i < |items| ==> DollarFree(items[i])
    case JObject(fields) => forall k :: k in fields ==> DollarFree(fields[k])
    case _ => true
  }

  /** No object anywhere in the value has a "__proto__" key. */
  predicate ProtoFree(v: Json)
    decreases v
  {
    match v
    case JArray(items) => forall i :: 0 <= i < |items| ==> ProtoFree(items[i])
    case JObject(fields) => ProtoKey !in fields && forall k :: k in fields ==> ProtoFree(fields[k])
    case _ => true
  }

  /**
   * Data without any placeholder and without a "__proto__" key comes back
   * from `replaceEnvVariables` unchanged, whatever the environment.
   */
  lemma {:induction false} ReplaceEnvVariablesOfPlainData(v: Json, env: Env)
    requires DollarFree(v)
    ensures ProtoFree(v) ==> ReplaceEnvVariables(v, env) == v
    decreases v
  {
    if ProtoFree(v) {
      match v
      case JString(s) =>
      case JArray(items) =>
        forall i | 0 <= i < |items|
          ensures ReplaceEnvVariables(items[i], env) == items[i]
        {
          ReplaceEnvVariablesOfPlainData(items[i], env);
        }
        assert ReplaceEnvVariables(v, env).items == items;
      case JObject(fields) =>
        forall k | k in fields
          ensures ReplaceEnvVariables(fields[k], env) == fields[k]
        {
          ReplaceEnvVariablesOfPlainData(fields[k], env);
        }
        assert ReplaceEnvVariables(v, env).fields == fields;
      case _ =>
    }
  }

  /**
   * Data with a "__proto__" key anywhere never comes back as it was: the
   * key is missing from the rebuilt object.
   */
  lemma {:induction false} ProtoKeyIsNotCopied(v: Json, env: Env)
    ensures !ProtoFree(v) ==> ReplaceEnvVariables(v, env) != v
    decreases v
  {
    if !ProtoFree(v) {
      var r := ReplaceEnvVariables(v, env);
      match v
      case JArray(items) =>
        var i :| 0 <= i < |items| && !ProtoFree(items[i]);
        ProtoKeyIsNotCopied(items[i], env);
        assert r.items[i] != items[i];
      case JObject(fields) =>
        if ProtoKey !in fields {
          var k :| k in fields && !ProtoFree(fields[k]);
          ProtoKeyIsNotCopied(fields[k], env);
          assert r.fields[k] != fields[k];
        } else {
          assert ProtoKey !in r.fields;
        }
    }
  }

  // ---------------------------------------------------------------------
  // comparePrices and calculateExpectedTotal
  // ---------------------------------------------------------------------

  /** The tolerance `comparePrices` uses when none is given. */
  const DefaultTolerance: real := 0.01

  /**
   * `comparePrices(actual, expected, tolerance = 0.01)`:
   * `Math.abs(actual - expected) <= tolerance`, false when either side is
   * NaN.
   */
  function ComparePrices(actual: Num, expected: Num, tolerance: real := DefaultTolerance): (close: bool)
    ensures close <==> actual.Finite? && expected.Finite?
                       && expected.value - tolerance <= actual.value <= expected.value + tolerance
  {
    match Sub(actual, expected)
    case NaN => false
    case Finite(d) => Abs(d) <= tolerance
  }

  /** Comparing prices does not depend on which one is called actual. */
  lemma ComparePricesSymmetric(a: Num, b: Num, tolerance: real)
    ensures ComparePrices(a, b, tolerance) == ComparePrices(b, a, tolerance)
  {
  }

  /** A difference of exactly the tolerance still counts as a match; any larger difference, either way, does not. */
  lemma ComparePricesAcceptsBoundary(expected: real, tolerance: real, excess: real)
    requires tolerance >= 0.0 && excess > 0.0
    ensures ComparePrices(Finite(expected + tolerance), Finite(expected), tolerance)
    ensures ComparePrices(Finite(expected - tolerance), Finite(expected), tolerance)
    ensures !ComparePrices(Finite(expected + tolerance + excess), Finite(expected), tolerance)
    ensures !ComparePrices(Finite(expected - tolerance - excess), Finite(expected), tolerance)
  {
  }

  /** An item of the list `calculateExpectedTotal` is given. */
  datatype PricedItem = PricedItem(price: real, quantity: real)

  /**
   * `items.reduce((total, item) => total + item.price * item.quantity, 0)`:
   * 0 for no items, and never negative when no price or quantity is.
   */
  function CalculateExpectedTotal(items: seq<PricedItem>): (total: real)
    ensures |items| == 0 ==> total == 0.0
    ensures NoNegativeFigures(items) ==> total >= 0.0
    decreases |items|
  {
    if |items| == 0 then 0.0
    else
      var last := items[|items| - 1];
      var front := items[..|items| - 1];
      var t := CalculateExpectedTotal(front);
      assert NoNegativeFigures(items) ==> t >= 0.0 && last.price * last.quantity >= 0.0 by {
        if NoNegativeFigures(items) {
          assert forall i :: 0 <= i < |front| ==> front[i] == items[i];
          assert NoNegativeFigures(front);
        }
      }
      t + last.price * last.quantity
  }

  /** No item has a negative price or quantity. */
  predicate NoNegativeFigures(items: seq<PricedItem>) {
    forall i :: 0 <= i < |items| ==> items[i].price >= 0.0 && items[i].quantity >= 0.0
  }

  /** The line amount of one item. */
  function LineAmount(item: PricedItem): real {
    item.price * item.quantity
  }

  /** The same total summed from the front: the reference the fold is compared with. */
  function SumOfLines(items: seq<PricedItem>): real
    decreases |items|
  {
    if |items| == 0 then 0.0 else LineAmount(items[0]) + SumOfLines(items[1..])
  }

  /** The expected total of a list split in two is the sum of the two totals. */
  lemma {:induction false} ExpectedTotalAppend(a: seq<PricedItem>, b: seq<PricedItem>)
    ensures CalculateExpectedTotal(a + b) == CalculateExpectedTotal(a) + CalculateExpectedTotal(b)
    decreases |b|
  {
    if |b| == 0 {
      assert a + b == a;
    } else {
      var n := |b| - 1;
      assert (a + b)[..|a + b| - 1] == a + b[..n];
      assert (a + b)[|a + b| - 1] == b[n];
      ExpectedTotalAppend(a, b[..n]);
      ExpectedTotalOfLast(a + b);
      ExpectedTotalOfLast(b);
    }
  }

  /** The fold's last step: the total of the items before the last, plus the last line. */
  lemma ExpectedTotalOfLast(items: seq<PricedItem>)
    requires |items| > 0
    ensures CalculateExpectedTotal(items) == CalculateExpectedTotal(items[..|items| - 1]) + LineAmount(items[|items| - 1])
  {
  }

  /** The fold from the left equals the sum of the line amounts from the front. */
  lemma {:induction false} ExpectedTotalIsSumOfLines(items: seq<PricedItem>)
    ensures CalculateExpectedTotal(items) == SumOfLines(items)
    decreases |items|
  {
    if |items| > 0 {
      ExpectedTotalIsSumOfLines(items[1..]);
      ExpectedTotalAppend([items[0]], items[1..]);
      assert [items[0]] + items[1..] == items;
      ExpectedTotalOfOne(items[0]);
    }
  }

  /** A single item totals its line amount. */
  lemma ExpectedTotalOfOne(item: PricedItem)
    ensures CalculateExpectedTotal([item]) == LineAmount(item)
  {
    assert [item][..0] == [];
  }

  /** An empty list totals 0, and the total does not depend on the order of the items. */
  lemma ExpectedTotalOfSwapped(a: seq<PricedItem>, b: seq<PricedItem>)
    ensures CalculateExpectedTotal([]) == 0.0
    ensures CalculateExpectedTotal(a + b) == CalculateExpectedTotal(b + a)
  {
    ExpectedTotalAppend(a, b);
    ExpectedTotalAppend(b, a);
  }
}

=== FILE: home_page.dfy ===
/**
 * The pure logic of the home page object: reading the item count out of
 * the header's cart badge, and choosing the top-menu link of a category.
 */
module HomePage {
  import opened Values
  import opened JsText
  import opened JsNumber
  import opened JsObject
  import opened BasePage

  // ---------------------------------------------------------------------
  // getCartQuantity
  // ---------------------------------------------------------------------

  /**
   * The error `null.match(...)` throws when the badge could not be read,
   * rendered as a string (`String(err)`, name included) in V8's wording;
   * other engines word the message differently.
   */
  const NullBadgeError := "TypeError: Cannot read properties of null (reading 'match')"

  /** `/\((\d+)\)/` matches at `p`: an opening parenthesis, one or more digits, a closing parenthesis. */
  predicate QuantityMatchAt(s: string, p: nat) {
    && p < |s|
    && s[p] == '('
    && var n := DigitRun(s[p + 1..]);
       n > 0 && p + 1 + n < |s| && s[p + 1 + n] == ')'
  }

  /** The digits captured by a match at `p`. */
  function Group(s: string, p: nat): (g: string)
    requires QuantityMatchAt(s, p)
    ensures |g| > 0 && AllDigits(g)
  {
    var n := DigitRun(s[p + 1..]);
    assert s[p + 1..][..n] == s[p + 1..p + 1 + n];
    s[p + 1..p + 1 + n]
  }

  /** The leftmost match at or after `from`, as the regular expression finds it. */
  function FirstQuantityMatch(s: string, from: nat): (r: Option<nat>)
    requires from <= |s|
    ensures r.Some? ==> from <= r.value < |s| && QuantityMatchAt(s, r.value)
    ensures r.Some? ==> forall q :: from <= q < r.value ==> !QuantityMatchAt(s, q)
    ensures r.None? ==> forall q :: from <= q < |s| ==> !QuantityMatchAt(s, q)
    decreases |s| - from
  {
    if from == |s| then None
    else if QuantityMatchAt(s, from) then Some(from)
    else FirstQuantityMatch(s, from + 1)
  }

  /**
   * `getCartQuantity`, given the badge text `getText` returned: null
   * throws; otherwise `parseInt` of the first parenthesised digit run, or
   * 0 when there is none.
   */
  function CartQuantity(text: Option<string>): (r: Result<Num, string>)
    ensures r.Failure? <==> text.None?
    ensures r.Failure? ==> r.error == NullBadgeError
    ensures r.Success? ==> r.value.Finite? && r.value.value >= 0.0
  {
    match text
    case None => Failure(NullBadgeError)
    case Some(s) =>
      match FirstQuantityMatch(s, 0)
      case None => Success(Finite(0.0))
      case Some(p) =>
        var g := Group(s, p);
        ParseIntOfDigits(g);
        Success(ParseInt(g))
  }

  /** `getCartQuantity` as a whole: the badge read, then its count. */
  function GetCartQuantity(read: Result<Option<string>, string>): (r: Result<Num, string>)
    ensures r.Failure? <==> read.Failure? || read.value.None?
  {
    CartQuantity(GetText(read))
  }

  /** The count is the value of the first parenthesised digit run. */
  lemma CartQuantityReadsFirstGroup(s: string, p: nat)
    requires QuantityMatchAt(s, p)
    requires forall q :: 0 <= q < p ==> !QuantityMatchAt(s, q)
    ensures CartQuantity(Some(s)) == Success(Finite(DigitsValue(Group(s, p)) as real))
  {
    assert FirstQuantityMatch(s, 0) == Some(p);
    ParseIntOfDigits(Group(s, p));
  }

  /** Text without a parenthesised digit run (such as "()" or "(x)") counts 0. */
  lemma CartQuantityWithoutGroup(s: string)
    ensures (forall q :: 0 <= q < |s| ==> !QuantityMatchAt(s, q)) <==> FirstQuantityMatch(s, 0).None?
    ensures FirstQuantityMatch(s, 0).None? ==> CartQuantity(Some(s)) == Success(Finite(0.0))
  {
  }

  /**
   * The badge the shop renders, "(n)" after text without an opening
   * parenthesis, reads back as n.
   */
  lemma CartQuantityOfBadge(lead: string, n: nat, rest: string)
    requires forall i :: 0 <= i < |lead| ==> lead[i] != '('
    ensures CartQuantity(Some(lead + "(" + NatToDigits(n) + ")" + rest)) == Success(Finite(n as real))
  {
    var d := NatToDigits(n);
    var s := lead + "(" + d + ")" + rest;
    var p := |lead|;
    assert s[p + 1..] == d + (")" + rest);
    DigitRunOfDigits(d, ")" + rest);
    assert s[p + 1 + |d|] == ')';
    assert QuantityMatchAt(s, p);
    assert Group(s, p) == d;
    forall q | 0 <= q < p
      ensures !QuantityMatchAt(s, q)
    {
      assert s[q] == lead[q];
    }
    CartQuantityReadsFirstGroup(s, p);
    NatToDigitsRoundTrip(n);
  }

  /** A badge that could not be read makes `getCartQuantity` throw instead of returning 0. */
  lemma UnreadableBadgeThrows(error: string)
    ensures GetCartQuantity(Failure(error)) == Failure(NullBadgeError)
  {
  }

  // ---------------------------------------------------------------------
  // goToCategory
  // ---------------------------------------------------------------------

  /** The link to a category's page in the top menu. */
  function TopMenuLink(path: string): string {
    ".top-menu a[href=\"/" + path + "\"]"
  }

  /** The `categoryMap` of `goToCategory`: the apparel link goes to "apparel-shoes". */
  const CategoryMap: map<string, string> := map[
    "books" := TopMenuLink("books"),
    "computers" := TopMenuLink("computers"),
    "electronics" := TopMenuLink("electronics"),
    "apparel" := TopMenuLink("apparel-shoes"),
    "digital-downloads" := TopMenuLink("digital-downloads"),
    "jewelry" := TopMenuLink("jewelry"),
    "gift-cards" := TopMenuLink("gift-cards")
  ]

  /** Why `goToCategory` throws. */
  datatype CategoryError =
    | NotFound(message: string)  // the error `goToCategory` throws itself
    | SelectorNotAString         // an inherited member reached `click`, which rejects it

  function NotFoundMessage(name: string): string {
    "Category \"" + name + "\" not found"
  }

  /** `goToCategory(name)`: the link clicked, or why it throws. */
  function GoToCategory(name: string): (r: Result<string, CategoryError>)
    ensures r.Success? ==> r.value in CategoryMap.Values
  {
    match Get(CategoryMap, ToLower(name))
    case Own(link) => if link != "" then Success(link) else Failure(NotFound(NotFoundMessage(name)))
    case Inherited => Failure(SelectorNotAString)
    case Missing => Failure(NotFound(NotFoundMessage(name)))
  }

  /**
   * A category is found exactly when its name matches a key of the map
   * ignoring letter case, and then the key's link is clicked; an unknown
   * name throws with the name as given; only "constructor" and
   * "__proto__" reach a member that is not a link.
   */
  lemma GoToCategoryByName(name: string)
    ensures GoToCategory(name).Success? <==> exists k :: k in CategoryMap && MatchesIgnoringCase(name, k)
    ensures forall k :: k in CategoryMap && MatchesIgnoringCase(name, k) ==> GoToCategory(name) == Success(CategoryMap[k])
    ensures GoToCategory(name) == Failure(SelectorNotAString) <==>
              MatchesIgnoringCase(name, "constructor") || MatchesIgnoringCase(name, "__proto__")
    ensures GoToCategory(name).Failure? && GoToCategory(name) != Failure(SelectorNotAString) ==>
              GoToCategory(name) == Failure(NotFound(NotFoundMessage(name)))
  {
    var key := ToLower(name);
    LowerIsLowerKey(name);
    ToLowerMatchesKey(name, key);
    forall k | k in CategoryMap
      ensures MatchesIgnoringCase(name, k) <==> key == k
    {
      CategoryKeysAreLower(k);
      ToLowerMatchesKey(name, k);
    }
    ToLowerMatchesKey(name, "constructor");
    ToLowerMatchesKey(name, "__proto__");
    InheritedAfterLowerCase(CategoryMap, name);
  }

  /** Every key of the category map is lower case. */
  lemma CategoryKeysAreLower(k: string)
    requires k in CategoryMap
    ensures IsLowerKey(k)
  {
  }

  /** The apparel category opens the "apparel-shoes" page, whatever the case of its name. */
  lemma ApparelOpensApparelShoes(name: string)
    requires MatchesIgnoringCase(name, "apparel")
    ensures GoToCategory(name) == Success(".top-menu a[href=\"/apparel-shoes\"]")
  {
    GoToCategoryByName(name);
    assert "apparel" in CategoryMap;
    assert CategoryMap["apparel"] == ".top-menu a[href=\"/apparel-shoes\"]";
  }
}

=== FILE: js_number.dfy ===
/**
 * JavaScript number reading as the page objects use it.
 *
 * Money is modelled with exact reals rather than IEEE-754 doubles: a
 * `Num` is either a finite real or NaN. The parsers here never produce an
 * infinity, because the model has no overflow.
 *
 * `ParseFloat` is `parseFloat` on text that has already been reduced to
 * digits, '.' and '-' (every caller in the source filters first). On such
 * text `parseFloat` reads the longest prefix that is a decimal literal:
 * an optional '-', then digits with at most one '.', with at least one digit.
 * `ParseInt` is `parseInt(text, 10)`.
 */
module JsNumber {
  import opened JsText

  /** A JavaScript number as far as this model needs one. */
  datatype Num = Finite(value: real) | NaN

  /** `a + b`; NaN absorbs. */
  function Add(a: Num, b: Num): Num {
    if a.Finite? && b.Finite? then Finite(a.value + b.value) else NaN
  }

  /** `a - b`; NaN absorbs. */
  function Sub(a: Num, b: Num): Num {
    if a.Finite? && b.Finite? then Finite(a.value - b.value) else NaN
  }

  /** `a * b`; NaN absorbs. */
  function Mul(a: Num, b: Num): Num {
    if a.Finite? && b.Finite? then Finite(a.value * b.value) else NaN
  }

  function Negate(a: Num): Num {
    if a.Finite? then Finite(-a.value) else NaN
  }

  function Abs(x: real): real {
    if x < 0.0 then -x else x
  }

  // ---------------------------------------------------------------------
  // Digits
  // ---------------------------------------------------------------------

  predicate IsDigit(c: char) { '0' <= c <= '9' }

  predicate AllDigits(s: string) {
    forall i :: 0 <= i < |s| ==> IsDigit(s[i])
  }

  /** `s` contains a decimal digit somewhere. */
  predicate HasDigit(s: string) {
    exists i :: 0 <= i < |s| && IsDigit(s[i])
  }

  function DigitValue(c: char): nat
    requires IsDigit(c)
  {
    c as int - '0' as int
  }

  function DigitChar(d: nat): char
    requires d < 10
  {
    (d + '0' as int) as char
  }

  /** The value of a run of decimal digits, most significant first. */
  function DigitsValue(s: string): nat
    requires AllDigits(s)
    decreases |s|
  {
    if |s| == 0 then 0 else DigitsValue(s[..|s| - 1]) * 10 + DigitValue(s[|s| - 1])
  }

  function Pow10(n: nat): (p: nat)
    ensures p >= 1
  {
    if n == 0 then 1 else 10 * Pow10(n - 1)
  }

  /** The length of the run of digits at the start of `s`. */
  function DigitRun(s: string): (n: nat)
    ensures n <= |s|
    ensures AllDigits(s[..n])
    ensures n < |s| ==> !IsDigit(s[n])
    decreases |s|
  {
    if |s| == 0 || !IsDigit(s[0]) then 0 else 1 + DigitRun(s[1..])
  }

  /** The decimal rendering of a natural number, without leading zeros. */
  function NatToDigits(n: nat): (s: string)
    ensures |s| > 0 && AllDigits(s)
    decreases n
  {
    if n < 10 then [DigitChar(n)] else NatToDigits(n / 10) + [DigitChar(n % 10)]
  }

  /** Reading back a rendered natural number gives the number. */
  lemma {:induction false} NatToDigitsRoundTrip(n: nat)
    ensures DigitsValue(NatToDigits(n)) == n
    decreases n
  {
    var s := NatToDigits(n);
    if n >= 10 {
      NatToDigitsRoundTrip(n / 10);
      assert s[..|s| - 1] == NatToDigits(n / 10);
    }
  }

  /** Digit strings compose positionally. */
  lemma {:induction false} DigitsValueAppend(a: string, b: string)
    requires AllDigits(a) && AllDigits(b)
    ensures AllDigits(a + b)
    ensures DigitsValue(a + b) == DigitsValue(a) * Pow10(|b|) + DigitsValue(b)
    decreases |b|
  {
    if |b| == 0 {
      assert a + b == a;
    } else {
      var b' := b[..|b| - 1];
      var d := DigitValue(b[|b| - 1]);
      assert (a + b)[..|a + b| - 1] == a + b';
      assert (a + b)[|a + b| - 1] == b[|b| - 1];
      DigitsValueAppend(a, b');
      assert DigitsValue(a + b) == DigitsValue(a + b') * 10 + d;
      assert DigitsValue(b) == DigitsValue(b') * 10 + d;
      assert Pow10(|b|) == 10 * Pow10(|b'|);
      ShiftDigit(DigitsValue(a), Pow10(|b'|), DigitsValue(b'), d);
    }
  }

  /** Shifting `x * p + y` one decimal place and appending digit `d`. */
  lemma ShiftDigit(x: nat, p: nat, y: nat, d: nat)
    ensures (x * p + y) * 10 + d == x * (10 * p) + (y * 10 + d)
  {
    assert (x * p) * 10 == x * (10 * p);
  }

  // ---------------------------------------------------------------------
  // The literal grammar parseFloat accepts on digits, '.' and '-'
  // ---------------------------------------------------------------------

  predicate IsNumericChar(c: char) {
    IsDigit(c) || c == '.' || c == '-'
  }

  predicate OnlyNumericChars(t: string) {
    forall i :: 0 <= i < |t| ==> IsNumericChar(t[i])
  }

  /** Digits with at most one '.', containing at least one digit. */
  predicate IsUnsignedLiteral(t: string) {
    && (forall i :: 0 <= i < |t| ==> IsDigit(t[i]) || t[i] == '.')
    && (forall i, j :: 0 <= i < j < |t| && t[i] == '.' ==> t[j] != '.')
    && (exists i :: 0 <= i < |t| && IsDigit(t[i]))
  }

  /** An unsigned literal, optionally preceded by '-'. */
  predicate IsLiteral(t: string) {
    || IsUnsignedLiteral(t)
    || (|t| > 0 && t[0] == '-' && IsUnsignedLiteral(t[1..]))
  }

  /** `t` without its '.' characters. */
  function RemoveDots(t: string): (r: string)
    ensures (forall i :: 0 <= i < |t| ==> IsDigit(t[i]) || t[i] == '.') ==> AllDigits(r)
    decreases |t|
  {
    if |t| == 0 then [] else (if t[0] == '.' then [] else [t[0]]) + RemoveDots(t[1..])
  }

  /** The number of characters after the first '.' of `t`, 0 when there is none. */
  function FractionDigits(t: string): nat
    decreases |t|
  {
    if |t| == 0 then 0 else if t[0] == '.' then |t| - 1 else FractionDigits(t[1..])
  }

  /** The value of an unsigned literal: its digits, scaled down by its fraction length. */
  function UnsignedLiteralValue(t: string): real
    requires IsUnsignedLiteral(t)
  {
    DigitsValue(RemoveDots(t)) as real / Pow10(FractionDigits(t)) as real
  }

  function LiteralValue(t: string): real
    requires IsLiteral(t)
  {
    if IsUnsignedLiteral(t) then UnsignedLiteralValue(t) else -UnsignedLiteralValue(t[1..])
  }

  predicate HasLiteralPrefix(t: string) {
    exists k :: 0 <= k <= |t| && IsLiteral(t[..k])
  }

  predicate IsLongestLiteralPrefix(t: string, n: nat) {
    && n <= |t|
    && IsLiteral(t[..n])
    && forall k :: n < k <= |t| ==> !IsLiteral(t[..k])
  }

  // ---------------------------------------------------------------------
  // parseFloat
  // ---------------------------------------------------------------------

  /** The scanner found a '.' right after the leading digits of `u`. */
  predicate DotAfterDigits(u: string) {
    DigitRun(u) < |u| && u[DigitRun(u)] == '.'
  }

  /** The leading digits of `u`. */
  function WholeText(u: string): (w: string)
    ensures AllDigits(w) && |w| <= |u| && w == u[..|w|]
  {
    u[..DigitRun(u)]
  }

  /** The digits after the '.' that follows the leading digits, empty when there is no such '.'. */
  function FractionText(u: string): (f: string)
    ensures AllDigits(f)
    ensures DotAfterDigits(u) ==> |WholeText(u)| + 1 + |f| <= |u|
    ensures !DotAfterDigits(u) ==> f == []
  {
    if DotAfterDigits(u) then
      var v := u[DigitRun(u) + 1..];
      v[..DigitRun(v)]
    else []
  }

  /** The length of the text the scanner reads at the start of `u`. */
  function ScannedLength(u: string): nat
  {
    if DotAfterDigits(u) then |WholeText(u)| + 1 + |FractionText(u)| else |WholeText(u)|
  }

  /** The scanner read at least one digit. */
  predicate ScannedDigit(u: string) {
    |WholeText(u)| + |FractionText(u)| > 0
  }

  /** The value of whole digits `w` followed by fraction digits `f`: w + f / 10^|f|. */
  function DecimalValue(w: string, f: string): real
    requires AllDigits(w) && AllDigits(f)
  {
    DigitsValue(w) as real + DigitsValue(f) as real / Pow10(|f|) as real
  }

  /** Without fraction digits the value is the whole part. */
  lemma DecimalValueOfWhole(w: string)
    requires AllDigits(w)
    ensures DecimalValue(w, []) == DigitsValue(w) as real
  {
    assert DigitsValue([]) == 0;
    assert Pow10(0) == 1;
    assert 0 as real / 1 as real == 0.0;
  }

  /** Reads digits, then optionally '.' and digits; NaN when neither run has a digit. */
  function ParseUnsigned(u: string): (n: Num)
    ensures n.Finite? ==> n.value >= 0.0 && HasDigit(u)
  {
    if !ScannedDigit(u) then NaN
    else
      var f := FractionText(u);
      ScannedDigitIsDigit(u);
      Finite(DecimalValue(WholeText(u), f))
  }

  /** What the scanner read contains a digit of `u`. */
  lemma ScannedDigitIsDigit(u: string)
    requires ScannedDigit(u)
    ensures HasDigit(u)
  {
    if |WholeText(u)| > 0 {
      assert IsDigit(u[0]);
    } else {
      var a := DigitRun(u);
      var v := u[a + 1..];
      assert FractionText(u) == v[..DigitRun(v)];
      assert IsDigit(u[a + 1]);
    }
  }

  /**
   * `parseFloat(t)` for `t` over digits, '.' and '-': a number only when
   * `t` has a digit, and negative only behind a leading '-'.
   */
  function ParseFloat(t: string): (n: Num)
    requires OnlyNumericChars(t)
    ensures n.Finite? ==> HasDigit(t)
    ensures n.Finite? && n.value < 0.0 ==> |t| > 0 && t[0] == '-'
    ensures n.Finite? && |t| > 0 && t[0] == '-' ==> n.value <= 0.0
  {
    if |t| > 0 && t[0] == '-' then
      var u := ParseUnsigned(t[1..]);
      assert u.Finite? ==> HasDigit(t) by {
        if u.Finite? {
          var i :| 0 <= i < |t[1..]| && IsDigit(t[1..][i]);
          assert t[i + 1] == t[1..][i];
        }
      }
      Negate(u)
    else ParseUnsigned(t)
  }

  /** The text the scanner reads: the leading digits, then '.' and the fraction digits when there is a '.'. */
  lemma ScannedText(u: string)
    ensures ScannedLength(u) <= |u|
    ensures DotAfterDigits(u) ==> u[..ScannedLength(u)] == WholeText(u) + ['.'] + FractionText(u)
    ensures !DotAfterDigits(u) ==> u[..ScannedLength(u)] == WholeText(u)
  {
    if DotAfterDigits(u) {
      var a := DigitRun(u);
      var v := u[a + 1..];
      var f := FractionText(u);
      assert f == v[..|f|];
      assert u[..ScannedLength(u)] == u[..a] + [u[a]] + v[..|f|];
    }
  }

  /** Digits, a '.', and digits form an unsigned literal when there is a digit at all. */
  lemma DigitsWithDotIsLiteral(x: string, f: string)
    requires AllDigits(x) && AllDigits(f) && |x| + |f| > 0
    ensures IsUnsignedLiteral(x + ['.'] + f)
  {
    var w := x + ['.'] + f;
    forall i | 0 <= i < |w|
      ensures IsDigit(w[i]) || w[i] == '.'
      ensures w[i] == '.' ==> i == |x|
    {
      if i < |x| {
        assert w[i] == x[i];
      } else if i > |x| {
        assert w[i] == f[i - |x| - 1];
      }
    }
    if |x| > 0 {
      assert w[0] == x[0];
    } else {
      assert w[1] == f[0];
    }
  }

  /** A non-empty digit run is an unsigned literal. */
  lemma DigitsIsLiteral(x: string)
    requires AllDigits(x) && |x| > 0
    ensures IsUnsignedLiteral(x)
  {
    assert IsDigit(x[0]);
  }

  /** No prefix of `u` longer than what the scanner reads is an unsigned literal. */
  lemma NoLiteralBeyondScan(u: string)
    ensures forall m :: ScannedLength(u) < m <= |u| ==> !IsUnsignedLiteral(u[..m])
  {
    var a := DigitRun(u);
    var L := ScannedLength(u);
    forall m | L < m <= |u|
      ensures !IsUnsignedLiteral(u[..m])
    {
      var w := u[..m];
      assert w[L] == u[L];
      if DotAfterDigits(u) {
        var v := u[a + 1..];
        var b := DigitRun(v);
        assert L == a + 1 + b;
        assert b < |v| && v[b] == u[L];
        assert w[a] == '.' && a < L;
      }
    }
  }

  /** When the scanner finds no digit, no prefix of `u` is an unsigned literal. */
  lemma NoLiteralWithoutScan(u: string)
    requires !ScannedDigit(u)
    ensures forall m :: 0 <= m <= |u| ==> !IsUnsignedLiteral(u[..m])
  {
    NoLiteralBeyondScan(u);
    var L := ScannedLength(u);
    forall m | 0 <= m <= L && m <= |u|
      ensures !IsUnsignedLiteral(u[..m])
    {
      forall i | 0 <= i < m
        ensures !IsDigit(u[..m][i])
      {
        assert u[..m][i] == u[0] == '.';
      }
    }
  }

  /** What the scanner reads is an unsigned literal whenever it found a digit. */
  lemma UnsignedPrefixIsLiteral(u: string)
    requires ScannedDigit(u)
    ensures ScannedLength(u) <= |u|
    ensures IsUnsignedLiteral(u[..ScannedLength(u)])
  {
    ScannedText(u);
    if DotAfterDigits(u) {
      DigitsWithDotIsLiteral(WholeText(u), FractionText(u));
    } else {
      DigitsIsLiteral(WholeText(u));
    }
  }

  lemma {:induction false} RemoveDotsAppend(x: string, y: string)
    ensures RemoveDots(x + y) == RemoveDots(x) + RemoveDots(y)
    decreases |x|
  {
    if |x| > 0 {
      assert (x + y)[1..] == x[1..] + y;
      RemoveDotsAppend(x[1..], y);
    } else {
      assert x + y == y;
    }
  }

  lemma {:induction false} RemoveDotsOfDigits(x: string)
    requires AllDigits(x)
    ensures RemoveDots(x) == x
    decreases |x|
  {
    if |x| > 0 {
      RemoveDotsOfDigits(x[1..]);
      assert [x[0]] + x[1..] == x;
    }
  }

  lemma {:induction false} FractionDigitsAfterDigits(x: string, y: string)
    requires AllDigits(x)
    ensures FractionDigits(x + y) == FractionDigits(y)
    decreases |x|
  {
    if |x| > 0 {
      assert (x + y)[1..] == x[1..] + y;
      FractionDigitsAfterDigits(x[1..], y);
    } else {
      assert x + y == y;
    }
  }

  /** Dividing a scaled whole part plus a remainder by the scale. */
  lemma ScaleBack(A: real, B: real, P: real)
    requires P > 0.0
    ensures (A * P + B) / P == A + B / P
  {
    assert (A + B / P) * P == A * P + B;
  }

  /** Removing the '.' of digits, '.', digits leaves both digit runs, and the fraction length is that of the second. */
  lemma DotLiteralText(x: string, f: string)
    requires AllDigits(x) && AllDigits(f)
    ensures RemoveDots(x + ['.'] + f) == x + f
    ensures FractionDigits(x + ['.'] + f) == |f|
  {
    assert x + ['.'] + f == x + (['.'] + f);
    RemoveDotsOfDigits(x);
    RemoveDotsOfDigits(f);
    RemoveDotsAppend(x, ['.'] + f);
    assert (['.'] + f)[1..] == f;
    assert RemoveDots(['.'] + f) == RemoveDots(f);
    assert RemoveDots(x + ['.'] + f) == x + f;
    FractionDigitsAfterDigits(x, ['.'] + f);
    assert FractionDigits(['.'] + f) == |f|;
  }

  /** The value of digits, '.', digits is the whole part plus the scaled fraction. */
  lemma DotLiteralValue(x: string, f: string)
    requires AllDigits(x) && AllDigits(f) && |x| + |f| > 0
    ensures IsUnsignedLiteral(x + ['.'] + f)
    ensures UnsignedLiteralValue(x + ['.'] + f) == DecimalValue(x, f)
  {
    DigitsWithDotIsLiteral(x, f);
    DotLiteralText(x, f);
    DigitsValueAppend(x, f);
    ScaledValue(DigitsValue(x + f), DigitsValue(x), DigitsValue(f), Pow10(|f|));
  }

  /** A value built as whole part times scale plus remainder, divided by the scale. */
  lemma ScaledValue(v: nat, A: nat, B: nat, p: nat)
    requires p >= 1 && v == A * p + B
    ensures v as real / p as real == A as real + B as real / p as real
  {
    assert v as real == A as real * p as real + B as real;
    ScaleBack(A as real, B as real, p as real);
  }

  /** The value of a plain digit run is its digit value. */
  lemma DigitsLiteralValue(x: string)
    requires AllDigits(x) && |x| > 0
    ensures IsUnsignedLiteral(x)
    ensures UnsignedLiteralValue(x) == DigitsValue(x) as real
  {
    DigitsIsLiteral(x);
    RemoveDotsOfDigits(x);
    assert x + [] == x;
    FractionDigitsAfterDigits(x, []);
    calc {
      UnsignedLiteralValue(x);
      DigitsValue(RemoveDots(x)) as real / Pow10(FractionDigits(x)) as real;
      DigitsValue(x) as real / Pow10(0) as real;
      { UnscaledValue(DigitsValue(x)); }
      DigitsValue(x) as real;
    }
  }

  /** Scaling by 10^0 leaves a value as it is. */
  lemma UnscaledValue(v: nat)
    ensures v as real / Pow10(0) as real == v as real
  {
    assert Pow10(0) == 1;
  }

  /** The scanner's value is the value of the literal it read. */
  lemma UnsignedValueIsLiteralValue(u: string)
    requires ScannedDigit(u)
    ensures ScannedLength(u) <= |u| && IsUnsignedLiteral(u[..ScannedLength(u)])
    ensures ParseUnsigned(u) == Finite(UnsignedLiteralValue(u[..ScannedLength(u)]))
  {
    UnsignedPrefixIsLiteral(u);
    ScannedText(u);
    if DotAfterDigits(u) {
      DotLiteralValue(WholeText(u), FractionText(u));
    } else {
      DigitsLiteralValue(WholeText(u));
      DecimalValueOfWhole(WholeText(u));
    }
  }

  /** Without a leading '-', a prefix is a literal exactly when it is an unsigned literal. */
  lemma UnsignedPrefixes(t: string, k: nat)
    requires k <= |t|
    requires |t| == 0 || t[0] != '-'
    ensures IsLiteral(t[..k]) <==> IsUnsignedLiteral(t[..k])
  {
  }

  /** With a leading '-', a non-empty prefix is a literal exactly when the rest of it is an unsigned literal. */
  lemma SignedPrefixes(t: string, k: nat)
    requires 1 <= k <= |t| && t[0] == '-'
    ensures IsLiteral(t[..k]) <==> IsUnsignedLiteral(t[1..][..k - 1])
  {
    assert t[..k][0] == '-';
    assert t[..k][1..] == t[1..][..k - 1];
  }

  /**
   * `parseFloat` reads the longest literal prefix: it is NaN exactly when
   * no prefix is a literal, and otherwise it is the value of the longest one.
   */
  lemma ParseFloatReadsLongestLiteral(t: string)
    requires OnlyNumericChars(t)
    ensures ParseFloat(t).NaN? <==> !HasLiteralPrefix(t)
    ensures ParseFloat(t).Finite? ==>
              exists n: nat :: IsLongestLiteralPrefix(t, n) && ParseFloat(t).value == LiteralValue(t[..n])
  {
    var neg := |t| > 0 && t[0] == '-';
    var u := if neg then t[1..] else t;
    var L := ScannedLength(u);
    var n := if neg then L + 1 else L;
    NoLiteralBeyondScan(u);
    assert !IsLiteral(t[..0]);
    if ScannedDigit(u) {
      UnsignedValueIsLiteralValue(u);
      if neg {
        SignedPrefixes(t, n);
        assert t[..n][0] == '-';
        assert t[..n][1..] == u[..L];
        forall k | n < k <= |t|
          ensures !IsLiteral(t[..k])
        {
          SignedPrefixes(t, k);
        }
      } else {
        UnsignedPrefixes(t, n);
        forall k | n < k <= |t|
          ensures !IsLiteral(t[..k])
        {
          UnsignedPrefixes(t, k);
        }
      }
      assert IsLongestLiteralPrefix(t, n);
    } else {
      NoLiteralWithoutScan(u);
      forall k | 0 < k <= |t|
        ensures !IsLiteral(t[..k])
      {
        if neg {
          SignedPrefixes(t, k);
        } else {
          UnsignedPrefixes(t, k);
        }
      }
    }
  }

  /** Text without any digit has no literal prefix, so `parseFloat` gives NaN. */
  lemma ParseFloatWithoutDigits(t: string)
    requires OnlyNumericChars(t)
    requires forall i :: 0 <= i < |t| ==> !IsDigit(t[i])
    ensures ParseFloat(t) == NaN
  {
    var u := if |t| > 0 && t[0] == '-' then t[1..] else t;
    var a := DigitRun(u);
    if a < |u| && u[a] == '.' {
      assert |u[a + 1..]| > 0 ==> u[a + 1..][0] == u[a + 1];
    }
  }

  /** The scanner reads all of a digit run and finds no fraction. */
  lemma ScanOfDigits(a: string)
    requires AllDigits(a) && |a| > 0
    ensures WholeText(a) == a && FractionText(a) == []
  {
    assert a + "" == a;
    DigitRunOfDigits(a, "");
  }

  lemma ParseUnsignedOfWhole(a: string)
    requires AllDigits(a) && |a| > 0
    requires WholeText(a) == a && FractionText(a) == []
    ensures ParseUnsigned(a) == Finite(DigitsValue(a) as real)
  {
    assert ScannedDigit(a);
    assert ParseUnsigned(a) == Finite(DecimalValue(a, []));
    DecimalValueOfWhole(a);
  }

  /** `parseFloat` of a digit run is its value. */
  lemma ParseFloatOfDigits(a: string)
    requires AllDigits(a) && |a| > 0
    ensures OnlyNumericChars(a)
    ensures ParseFloat(a) == Finite(DigitsValue(a) as real)
  {
    ScanOfDigits(a);
    ParseUnsignedOfWhole(a);
    assert a[0] != '-';
  }

  // ---------------------------------------------------------------------
  // parseInt(text, 10)
  // ---------------------------------------------------------------------

  /**
   * `parseInt(s, 10)`: skip leading whitespace, read an optional sign and
   * the longest run of digits; NaN when that run is empty.
   */
  function ParseInt(s: string): (n: Num)
    ensures n.Finite? ==> HasDigit(s) && IsWhole(n.value)
  {
    var t := TrimStart(s);
    var r := ReadInteger(t);
    assert r.Finite? ==> HasDigit(s) by {
      if r.Finite? {
        var i :| 0 <= i < |t| && IsDigit(t[i]);
        assert t[i] == s[|s| - |t| + i];
      }
    }
    r
  }

  /** `x` is an integer. */
  predicate IsWhole(x: real) {
    x == x.Floor as real
  }

  /** The integer `parseInt` reads at the start of already trimmed text. */
  function ReadInteger(t: string): (r: Num)
    ensures r.Finite? ==> HasDigit(t) && IsWhole(r.value)
  {
    var signed := |t| > 0 && (t[0] == '-' || t[0] == '+');
    var u := if signed then t[1..] else t;
    var n := DigitRun(u);
    if n == 0 then NaN
    else
      var magnitude := DigitsValue(u[..n]);
      assert IsDigit(u[..n][0]);
      assert HasDigit(t) by {
        if signed {
          assert t[1] == u[0];
        } else {
          assert t[0] == u[0];
        }
      }
      WholeOfInt(magnitude);
      WholeOfInt(-(magnitude as int));
      Finite(if signed && t[0] == '-' then -(magnitude as real) else magnitude as real)
  }

  /** An integer converted to a real is whole. */
  lemma WholeOfInt(m: int)
    ensures IsWhole(m as real)
  {
  }

  /**
   * `parseInt` reads back a rendered natural number, whatever whitespace
   * precedes it and whatever non-digit text follows it.
   */
  lemma ParseIntOfRendered(lead: string, n: nat, rest: string)
    requires AllWhitespace(lead)
    requires |rest| > 0 ==> !IsDigit(rest[0])
    ensures ParseInt(lead + NatToDigits(n) + rest) == Finite(n as real)
  {
    var d := NatToDigits(n);
    var s := lead + d + rest;
    assert s == lead + (d + rest);
    TrimStartOfPadded(lead, d + rest);
    ParseIntOfTrimmedDigits(s, d, rest);
    NatToDigitsRoundTrip(n);
  }

  /** `parseInt` of text whose leading whitespace is followed by digits and then a non-digit. */
  lemma ParseIntOfTrimmedDigits(s: string, d: string, rest: string)
    requires AllDigits(d) && |d| > 0
    requires |rest| > 0 ==> !IsDigit(rest[0])
    requires TrimStart(s) == d + rest
    ensures ParseInt(s) == Finite(DigitsValue(d) as real)
  {
    ReadIntegerOfDigits(d, rest);
  }

  /** Digits followed by a non-digit read as the digits' value. */
  lemma ReadIntegerOfDigits(d: string, rest: string)
    requires AllDigits(d) && |d| > 0
    requires |rest| > 0 ==> !IsDigit(rest[0])
    ensures ReadInteger(d + rest) == Finite(DigitsValue(d) as real)
  {
    var t := d + rest;
    assert t[0] == d[0];
    DigitRunOfDigits(d, rest);
    assert t[..|d|] == d;
  }

  /** `parseInt` of a non-empty digit string is its value. */
  lemma ParseIntOfDigits(d: string)
    requires AllDigits(d) && |d| > 0
    ensures ParseInt(d) == Finite(DigitsValue(d) as real)
  {
    TrimStartOfDigits(d);
    assert !(d[0] == '-' || d[0] == '+');
    DigitRunOfAllDigits(d);
    assert d[..|d|] == d;
  }

  /** A digit string has no leading whitespace. */
  lemma TrimStartOfDigits(d: string)
    requires AllDigits(d) && |d| > 0
    ensures TrimStart(d) == d
  {
    assert [] + d == d;
    TrimStartOfPadded([], d);
  }

  /** A digit string is one digit run. */
  lemma DigitRunOfAllDigits(d: string)
    requires AllDigits(d)
    ensures DigitRun(d) == |d|
  {
    assert d + [] == d;
    DigitRunOfDigits(d, []);
  }

  /** The digit run of a digit string followed by a non-digit is that string. */
  lemma {:induction false} DigitRunOfDigits(d: string, rest: string)
    requires AllDigits(d)
    requires |rest| > 0 ==> !IsDigit(rest[0])
    ensures DigitRun(d + rest) == |d|
    decreases |d|
  {
    if |d| > 0 {
      assert (d + rest)[1..] == d[1..] + rest;
      DigitRunOfDigits(d[1..], rest);
    } else {
      assert d + rest == rest;
    }
  }

  /** Text whose first non-space, non-sign character is not a digit reads as NaN. */
  lemma ParseIntWithoutDigits(lead: string, sign: string, rest: string)
    requires AllWhitespace(lead)
    requires sign == "" || sign == "-" || sign == "+"
    requires |rest| == 0 || (!IsDigit(rest[0]) && !IsJsWhitespace(rest[0]) && rest[0] != '-' && rest[0] != '+')
    ensures ParseInt(lead + sign + rest) == NaN
  {
    var s := lead + sign + rest;
    var t := sign + rest;
    assert s == lead + t;
    assert |t| > 0 ==> !IsJsWhitespace(t[0]);
    TrimStartOfPadded(lead, t);
    assert DigitRun(rest) == 0;
    if sign != "" {
      assert t[0] == sign[0] && t[1..] == rest;
    } else {
      assert t == rest;
    }
  }
}

=== FILE: js_object.dfy ===
/**
 * Property lookup on a plain object literal whose own properties are all
 * strings, as the page objects use them for name-to-selector tables:
 * `table[key]` finds an own property, else a member inherited from
 * `Object.prototype`, else `undefined`.
 */
module JsObject {
  import opened JsText

  /** What `table[key]` yields. */
  datatype Prop =
    | Own(value: string)  // an own property: one of the table's strings
    | Inherited           // a member of Object.prototype: a function or an object, truthy and not a string
    | Missing             // undefined

  /** The property names every plain object inherits from `Object.prototype`. */
  const PrototypeNames: set<string> := {
    "constructor", "__proto__", "hasOwnProperty", "isPrototypeOf", "propertyIsEnumerable",
    "toString", "toLocaleString", "valueOf",
    "__defineGetter__", "__defineSetter__", "__lookupGetter__", "__lookupSetter__"
  }

  /** `table[key]`. */
  function Get(table: map<string, string>, key: string): (p: Prop)
    ensures p.Own? <==> key in table
    ensures p.Own? ==> p.value == table[key]
    ensures p.Inherited? <==> key !in table && key in PrototypeNames
  {
    if key in table then Own(table[key])
    else if key in PrototypeNames then Inherited
    else Missing
  }

  /** Of the inherited names, only "constructor" and "__proto__" survive `toLowerCase()`. */
  lemma LowerCasePrototypeNames(key: string)
    requires IsLowerKey(key) && key in PrototypeNames
    ensures key == "constructor" || key == "__proto__"
  {
    assert IsAsciiUpper("hasOwnProperty"[3]);
    assert IsAsciiUpper("isPrototypeOf"[2]);
    assert IsAsciiUpper("propertyIsEnumerable"[8]);
    assert IsAsciiUpper("toString"[2]);
    assert IsAsciiUpper("toLocaleString"[2]);
    assert IsAsciiUpper("valueOf"[5]);
    assert IsAsciiUpper("__defineGetter__"[8]);
    assert IsAsciiUpper("__defineSetter__"[8]);
    assert IsAsciiUpper("__lookupGetter__"[8]);
    assert IsAsciiUpper("__lookupSetter__"[8]);
  }

  /** A lower-cased key never reaches an inherited member other than "constructor" and "__proto__". */
  lemma InheritedAfterLowerCase(table: map<string, string>, name: string)
    ensures Get(table, ToLower(name)).Inherited? ==>
              ToLower(name) == "constructor" || ToLower(name) == "__proto__"
  {
    var key := ToLower(name);
    if Get(table, key).Inherited? {
      LowerIsLowerKey(name);
      LowerCasePrototypeNames(key);
    }
  }

  /** `toLowerCase()` leaves no upper-case ASCII letter. */
  lemma LowerIsLowerKey(name: string)
    ensures IsLowerKey(ToLower(name))
  {
  }
}

=== FILE: js_text.dfy ===
/**
 * The JavaScript string operations the page objects rely on: whitespace
 * trimming, ASCII case folding, prefix tests, `indexOf`, and
 * `String.prototype.replace` with a string pattern, including the `$`
 * patterns its replacement text may contain (the GetSubstitution
 * operation of ECMA-262).
 *
 * Strings are sequences of Unicode scalar values; the UTF-16 code-unit
 * view of JavaScript is not modelled.
 */
module JsText {
  import opened Values

  // ---------------------------------------------------------------------
  // Whitespace and trimming
  // ---------------------------------------------------------------------

  /**
   * The WhiteSpace and LineTerminator code points of ECMA-262: the
   * characters `String.prototype.trim` removes and `parseInt` skips.
   */
  predicate IsJsWhitespace(c: char) {
    || c == '\U{0009}' || c == '\U{000B}' || c == '\U{000C}' || c == ' '
    || c == '\U{00A0}' || c == '\U{FEFF}' || c == '\U{1680}'
    || ('\U{2000}' <= c <= '\U{200A}')
    || c == '\U{202F}' || c == '\U{205F}' || c == '\U{3000}'
    || c == '\n' || c == '\r' || c == '\U{2028}' || c == '\U{2029}'
  }

  predicate AllWhitespace(s: string) {
    forall i :: 0 <= i < |s| ==> IsJsWhitespace(s[i])
  }

  /** `s.trimStart()`: the suffix left after dropping leading whitespace. */
  function TrimStart(s: string): (r: string)
    ensures |r| <= |s| && r == s[|s| - |r|..]
    ensures AllWhitespace(s[..|s| - |r|])
    ensures |r| > 0 ==> !IsJsWhitespace(r[0])
    decreases |s|
  {
    if |s| > 0 && IsJsWhitespace(s[0]) then TrimStart(s[1..]) else s
  }

  /** `s.trimEnd()`: the prefix left after dropping trailing whitespace. */
  function TrimEnd(s: string): (r: string)
    ensures |r| <= |s| && r == s[..|r|]
    ensures AllWhitespace(s[|r|..])
    ensures |r| > 0 ==> !IsJsWhitespace(r[|r| - 1])
    decreases |s|
  {
    if |s| > 0 && IsJsWhitespace(s[|s| - 1]) then TrimEnd(s[..|s| - 1]) else s
  }

  /**
   * `s.trim()`: no longer than `s`, with no whitespace at either end, and
   * empty exactly when `s` is all whitespace.
   */
  function Trim(s: string): (r: string)
    ensures |r| <= |s|
    ensures |r| > 0 ==> !IsJsWhitespace(r[0]) && !IsJsWhitespace(r[|r| - 1])
    ensures r == [] <==> AllWhitespace(s)
  {
    var t := TrimStart(s);
    var r := TrimEnd(t);
    assert |r| > 0 ==> r[0] == t[0];
    assert r == [] ==> AllWhitespace(s) by {
      if r == [] {
        assert s[..|s| - |t|] == s;
      }
    }
    r
  }

  /**
   * `Trim` returns a contiguous slice of its input, all of whose
   * surroundings are whitespace and whose own ends are not.
   */
  lemma TrimIsWhitespaceFreeSlice(s: string)
    ensures var r := Trim(s);
            exists i :: 0 <= i <= |s| - |r|
                        && r == s[i..i + |r|]
                        && AllWhitespace(s[..i])
                        && AllWhitespace(s[i + |r|..])
    ensures var r := Trim(s);
            |r| > 0 ==> !IsJsWhitespace(r[0]) && !IsJsWhitespace(r[|r| - 1])
  {
    var i := TrimOffset(s);
  }

  /** Where `Trim(s)` starts within `s`. */
  lemma TrimOffset(s: string) returns (i: nat)
    ensures var r := Trim(s);
            && i <= |s| - |r|
            && r == s[i..i + |r|]
            && AllWhitespace(s[..i])
            && AllWhitespace(s[i + |r|..])
  {
    i := TrimEndOfTrimStartOffset(s, TrimStart(s));
  }

  /** The offset of `TrimOffset`, for trimming the end of a suffix that starts at a whitespace boundary. */
  lemma TrimEndOfTrimStartOffset(s: string, t: string) returns (i: nat)
    requires |t| <= |s| && t == s[|s| - |t|..] && AllWhitespace(s[..|s| - |t|])
    ensures var r := TrimEnd(t);
            && i <= |s| - |r|
            && r == s[i..i + |r|]
            && AllWhitespace(s[..i])
            && AllWhitespace(s[i + |r|..])
  {
    var r := TrimEnd(t);
    i := |s| - |t|;
    assert r == s[i..i + |r|];
    assert s[i + |r|..] == t[|r|..];
  }

  /**
   * Trimming undoes whitespace padding: a core with no whitespace at
   * either end, padded on both sides with whitespace, trims back to the core.
   */
  lemma {:induction false} TrimOfPadded(lead: string, core: string, trail: string)
    requires AllWhitespace(lead) && AllWhitespace(trail)
    requires |core| > 0 ==> !IsJsWhitespace(core[0]) && !IsJsWhitespace(core[|core| - 1])
    ensures Trim(lead + core + trail) == core
  {
    if |core| == 0 {
      assert lead + core + trail == lead + trail;
      TrimStartOfWhitespace(lead + trail);
    } else {
      assert lead + core + trail == lead + (core + trail);
      TrimStartOfPadded(lead, core + trail);
      TrimEndOfPadded(core, trail);
    }
  }

  lemma {:induction false} TrimStartOfWhitespace(s: string)
    requires AllWhitespace(s)
    ensures TrimStart(s) == []
    decreases |s|
  {
    if |s| > 0 {
      TrimStartOfWhitespace(s[1..]);
    }
  }

  lemma {:induction false} TrimStartOfPadded(lead: string, rest: string)
    requires AllWhitespace(lead)
    requires |rest| > 0 ==> !IsJsWhitespace(rest[0])
    ensures TrimStart(lead + rest) == rest
    decreases |lead|
  {
    if |lead| > 0 {
      assert (lead + rest)[1..] == lead[1..] + rest;
      TrimStartOfPadded(lead[1..], rest);
    } else {
      assert lead + rest == rest;
    }
  }

  lemma {:induction false} TrimEndOfPadded(core: string, trail: string)
    requires AllWhitespace(trail)
    requires |core| > 0 ==> !IsJsWhitespace(core[|core| - 1])
    ensures TrimEnd(core + trail) == core
    decreases |trail|
  {
    if |trail| > 0 {
      assert (core + trail)[..|core + trail| - 1] == core + trail[..|trail| - 1];
      TrimEndOfPadded(core, trail[..|trail| - 1]);
    } else {
      assert core + trail == core;
    }
  }

  /** Trimming is idempotent. */
  lemma TrimIdempotent(s: string)
    ensures Trim(Trim(s)) == Trim(s)
  {
    var r := Trim(s);
    TrimIsWhitespaceFreeSlice(s);
    TrimOfPadded([], r, []);
    assert [] + r + [] == r;
  }

  // ---------------------------------------------------------------------
  // Case folding
  // ---------------------------------------------------------------------

  predicate IsAsciiUpper(c: char) { 'A' <= c <= 'Z' }
  predicate IsAsciiLower(c: char) { 'a' <= c <= 'z' }

  function LowerAscii(c: char): char {
    if IsAsciiUpper(c) then (c as int + 32) as char else c
  }

  function UpperAscii(c: char): char {
    if IsAsciiLower(c) then (c as int - 32) as char else c
  }

  /** `s.toLowerCase()`, restricted to the ASCII letters. */
  function ToLower(s: string): (r: string)
    ensures |r| == |s|
    ensures forall i :: 0 <= i < |s| ==> r[i] == LowerAscii(s[i])
    ensures IsLowerKey(r) && MatchesIgnoringCase(s, r)
  {
    seq(|s|, i requires 0 <= i < |s| => LowerAscii(s[i]))
  }

  /** A key with no upper-case ASCII letter, as every lookup key in the source is. */
  predicate IsLowerKey(k: string) {
    forall i :: 0 <= i < |k| ==> !IsAsciiUpper(k[i])
  }

  /** `name` spells `key` letter by letter, each letter in either case. */
  predicate MatchesIgnoringCase(name: string, key: string) {
    && |name| == |key|
    && forall i :: 0 <= i < |key| ==> name[i] == key[i] || name[i] == UpperAscii(key[i])
  }

  /**
   * Lower-casing a name gives a lower-case key exactly when the name
   * spells the key in any mixture of cases.
   */
  lemma ToLowerMatchesKey(name: string, key: string)
    requires IsLowerKey(key)
    ensures ToLower(name) == key <==> MatchesIgnoringCase(name, key)
  {
    if MatchesIgnoringCase(name, key) {
      forall i | 0 <= i < |key|
        ensures ToLower(name)[i] == key[i]
      {
        if name[i] != key[i] {
          assert IsAsciiLower(key[i]);
        }
      }
    }
    if ToLower(name) == key {
      forall i | 0 <= i < |key|
        ensures name[i] == key[i] || name[i] == UpperAscii(key[i])
      {
        assert LowerAscii(name[i]) == key[i];
      }
    }
  }

  // ---------------------------------------------------------------------
  // Prefixes and search
  // ---------------------------------------------------------------------

  /** `s.startsWith(p)`. */
  predicate StartsWith(s: string, p: string) {
    |p| <= |s| && s[..|p|] == p
  }

  predicate OccursAt(s: string, pat: string, p: nat) {
    p + |pat| <= |s| && s[p..p + |pat|] == pat
  }

  /** `s.indexOf(pat)`: the first position at which `pat` occurs, if any. */
  function IndexOf(s: string, pat: string): (r: Option<nat>)
    ensures r.Some? ==> OccursAt(s, pat, r.value)
    ensures r.Some? ==> forall q :: 0 <= q < r.value ==> !OccursAt(s, pat, q)
    ensures r.None? ==> forall q :: 0 <= q <= |s| ==> !OccursAt(s, pat, q)
  {
    IndexFrom(s, pat, 0)
  }

  function IndexFrom(s: string, pat: string, i: nat): (r: Option<nat>)
    requires i <= |s|
    ensures r.Some? ==> i <= r.value && OccursAt(s, pat, r.value)
    ensures r.Some? ==> forall q :: i <= q < r.value ==> !OccursAt(s, pat, q)
    ensures r.None? ==> forall q :: i <= q <= |s| ==> !OccursAt(s, pat, q)
    decreases |s| - i
  {
    if OccursAt(s, pat, i) then Some(i)
    else if i == |s| then None
    else IndexFrom(s, pat, i + 1)
  }

  /**
   * A pattern that starts with `$` is first found right after a prefix
   * that contains no `$`, when it occurs there.
   */
  lemma IndexOfAfterDollarFreePrefix(x: string, pat: string, y: string)
    requires '$' !in x
    requires |pat| > 0 && pat[0] == '$'
    ensures IndexOf(x + pat + y, pat) == Some(|x|)
  {
    var s := x + pat + y;
    assert s[|x|..|x| + |pat|] == pat;
    assert OccursAt(s, pat, |x|);
    forall q | 0 <= q < |x|
      ensures !OccursAt(s, pat, q)
    {
      assert s[q] == x[q] && x[q] in x;
      if q + |pat| <= |s| {
        assert s[q..q + |pat|][0] == s[q] != pat[0];
      }
    }
  }

  // ---------------------------------------------------------------------
  // String.prototype.replace with a string pattern
  // ---------------------------------------------------------------------

  /**
   * The text that `replace` inserts for the replacement `template` when
   * the pattern `matched` was found between `before` and `after`: `$$`
   * gives `$`, `$&` the matched text, `` $` `` the text before it, `$'`
   * the text after it. A string pattern has no capture groups, so `$n`,
   * `$nn` and `$<` are copied as they stand, as is any other `$`.
   */
  function Substitution(template: string, matched: string, before: string, after: string): string
    decreases |template|
  {
    if |template| == 0 then ""
    else if template[0] == '$' && |template| >= 2 && template[1] in "$&`'" then
      var expansion :=
        if template[1] == '$' then "$"
        else if template[1] == '&' then matched
        else if template[1] == '`' then before
        else after;
      expansion + Substitution(template[2..], matched, before, after)
    else
      [template[0]] + Substitution(template[1..], matched, before, after)
  }

  /** A replacement text without `$` is inserted literally. */
  lemma {:induction false} SubstitutionOfPlainText(template: string, matched: string, before: string, after: string)
    requires '$' !in template
    ensures Substitution(template, matched, before, after) == template
    decreases |template|
  {
    if |template| > 0 {
      assert template[0] in template;
      assert forall c :: c in template[1..] ==> c in template;
      SubstitutionOfPlainText(template[1..], matched, before, after);
      assert [template[0]] + template[1..] == template;
    }
  }

  /**
   * `s.replace(pat, repl)`: only the first occurrence of `pat` is
   * replaced, the text around it is kept, and a `$`-free replacement goes
   * in literally; without an occurrence `s` is returned as it is.
   */
  function ReplaceFirst(s: string, pat: string, repl: string): (r: string)
    ensures IndexOf(s, pat).None? ==> r == s
    ensures IndexOf(s, pat).Some? ==>
              var p := IndexOf(s, pat).value;
              && p + |pat| <= |s| && p + (|s| - p - |pat|) <= |r|
              && r[..p] == s[..p]
              && r[|r| - (|s| - p - |pat|)..] == s[p + |pat|..]
    ensures IndexOf(s, pat).Some? && '$' !in repl ==>
              var p := IndexOf(s, pat).value;
              r == s[..p] + repl + s[p + |pat|..]
  {
    match IndexOf(s, pat)
    case None => s
    case Some(p) =>
      var before, after := s[..p], s[p + |pat|..];
      var middle := Substitution(repl, pat, before, after);
      assert '$' !in repl ==> middle == repl by {
        if '$' !in repl {
          SubstitutionOfPlainText(repl, pat, before, after);
        }
      }
      before + middle + after
  }

  /**
   * Replacing a `$`-initial pattern behind a `$`-free prefix splices the
   * expanded replacement exactly where that occurrence stood; when the
   * pattern is absent the string is unchanged.
   */
  lemma ReplaceFirstBehindDollarFreePrefix(x: string, pat: string, y: string, repl: string)
    requires '$' !in x
    requires |pat| > 0 && pat[0] == '$'
    ensures ReplaceFirst(x + pat + y, pat, repl) == x + Substitution(repl, pat, x, y) + y
  {
    var s := x + pat + y;
    IndexOfAfterDollarFreePrefix(x, pat, y);
    assert s[..|x|] == x;
    assert s[|x| + |pat|..] == y;
  }

  /**
   * Behind a lone `$`, a pattern that starts with `$` but not with `$$` is
   * first found right after that `$`.
   */
  lemma ReplaceFirstBehindLoneDollar(pat: string, y: string, repl: string)
    requires |pat| >= 2 && pat[0] == '$' && pat[1] != '$'
    ensures ReplaceFirst("$" + pat + y, pat, repl) == "$" + Substitution(repl, pat, "$", y) + y
  {
    var s := "$" + pat + y;
    assert s[1..1 + |pat|] == pat;
    assert OccursAt(s, pat, 1);
    assert !OccursAt(s, pat, 0) by {
      if |pat| <= |s| {
        assert s[0..|pat|][1] == s[1] == '$';
      }
    }
    assert IndexOf(s, pat) == Some(1);
    assert s[..1] == "$";
    assert s[1 + |pat|..] == y;
  }

  /** When the pattern does not occur, `replace` returns the string unchanged. */
  lemma ReplaceFirstAbsent(s: string, pat: string, repl: string)
    requires forall q :: 0 <= q <= |s| ==> !OccursAt(s, pat, q)
    ensures ReplaceFirst(s, pat, repl) == s
  {
  }
}

=== FILE: values.dfy ===
/**
 * Failure-compatible wrappers shared by the page models: `Option` for a
 * JavaScript value that may be `null`/`undefined`, `Result` for an
 * operation that may throw.
 */
module Values {

  /** A value that may be absent (`null` or `undefined` in the source). */
  datatype Option<+T> = None | Some(value: T) {

    /** Returns the wrapped value, or `default` when absent. */
    function GetOr(default: T): T {
      match this
      case Some(v) => v
      case None => default
    }
  }

  /** The outcome of an operation that either returns a value or throws. */
  datatype Result<+T, +E> = Success(value: T) | Failure(error: E)

  /** JavaScript truthiness of an optional string: `undefined`, `null` and `''` are falsy. */
  predicate Truthy(s: Option<string>) {
    s.Some? && s.value != ""
  }
}
